=== FILE: README.md ===
# museos — a Dafny model of the museum module's core

This project models the business logic of the Odoo `museos` module, and
proves properties of it. The module manages museums, their activities,
attendance records, photo galleries, work agreements, periodic reports
(`museo.informe`), activity reports (`museo.reporte`) with their PDF and
spreadsheet exports, and two wizards: one for quick reports and one for
importing objects in bulk.

The model is functional: records are immutable datatypes and operations are
pure functions over sequences and maps.

- **ORM searches** become input sequences of records in the order the
  search returns them, that is in the model's `_order` (activities come
  by `fecha_inicio desc, name asc`).
- **One2many fields** become predicates over a whole store. A relation with
  an `active` field only holds the active records, as Odoo's default search
  does.
- **"Today" and "now"** are parameters.
- **Money** is in integer cents and **durations** are in integer seconds.
- **Satisfaction ratings** are in tenths.
- **Averages** are Dafny `real`s.
- **Dates** are `(year, month, day)` triples with a proleptic Gregorian
  ordinal that matches Python's `date.toordinal()`. A `Date` compared with a
  `Datetime` column in a search domain by `>=` or `<` stands for midnight at
  the start of that day; compared by `<=` or `>` it stands for the last
  instant of that day (`time.max`), so a date range includes its whole last
  day.
- **Dictionaries** are insertion-ordered association lists, as Python's
  `dict` is.
- **Failures** are `Result` values: a `UserError`, a `ValidationError`, and
  the Python exceptions the code lets escape.

Modules, one per file:

| module | file | models |
|---|---|---|
| `Wrappers`, `Seqs`, `Dicts`, `Strings`, `Dates`, `Grouping` | `wrappers.dfy` … `grouping.dfy` | helpers: `Option`/`Result`, sums, filters, stable sort, ordered dicts, `split`/`strip`/`lower`, calendar arithmetic, the bucket loops of the reports |
| `Actividades` | `actividad.dfy` | `museo.actividad`: duration, date and capacity checks, calendar sync |
| `Asistencia` | `asistencia.dfy` | `museo.registro.asistencia`: checks, defaults, related fields, attendee totals |
| `Busqueda` | `busqueda.dfy` | the activity search domain shared by reports and statistics |
| `Reportes` | `reporte.dfy` | `museo.reporte`: the by-worker and by-day reports, generation, exports |
| `Informes` | `informe.dfy` | `museo.informe`: statistics, metrics, automatic windows, scheduled generation |
| `ReporteRapido` | `wizard_reportes.dfy` | the quick-report wizard |
| `Importacion` | `importacion.dfy` | the object-import wizard |
| `Galeria` | `galeria.dfy` | `museo.museo.galeria`: one primary photo per museum |
| `Convenios` | `convenio.dfy` | `museo.convenio`: dates, days to expiry, expiry job |
| `Museos` | `museo.dfy` | `museo.museo`: dashboard counters, creation-date check |

Where the module's own comments and the code disagree, the model follows
the code. The exception is code that is evidently wrong (see "## Findings"):
there the model states the code as written and the corrected definition
side by side, and the rest of the model builds on the corrected one (the
members affected are listed under "## Left out"). Two places where the
comments and the code disagree and the code is right:

- **Quarterly window in the first quarter.** In January to March the
  quarterly window of `generar_informe_automatico` is 1 October to
  31 December of the previous year. The code's year rollover is right
  there.
- **Total of the by-worker report.** Its activity total counts
  (activity, worker) assignments. It can therefore be smaller than the
  number of selected activities: an activity without workers counts
  nothing (`Reportes.UnstaffedSelectionCountsNothing`). It can also be
  larger, because an activity with several workers counts once per worker.

## Model

| member | source | states |
|---|---|---|
| Busqueda.SelectIff | models/reporte_model.py:119-133 | an activity is selected iff it is in the store, belongs to the museum, starts no earlier than midnight at the start of `fecha_desde`, ends before midnight at the start of the day after `fecha_hasta` (a date compared by `<=` with a datetime stands for the end of that day), and matches the type and state filters unless they are `'todos'` |
| Busqueda.Select | models/reporte_model.py:195-207 | the search returns exactly the stored activities the domain matches, never more than the store holds, each with both dates set |
| Busqueda.SameDaySelected | models/reporte_model.py:119-133 | a one-day window holds every activity of the museum that starts and ends on that day, at any hour |
| Reportes.StaffOf | models/reporte_model.py:137-138 | one (activity, worker) visit per assigned worker, in the order of the activity's workers |
| Reportes.Pairs | models/reporte_model.py:137-138 | every visit of the nested loop pairs a selected activity with one of its own workers |
| Reportes.PairsCount | models/reporte_model.py:137-138 | the loop visits exactly as many pairs as there are worker assignments, so an activity without workers contributes nothing |
| Reportes.PairsComplete | models/reporte_model.py:137-138 | every assignment of a worker to a selected activity is visited |
| Reportes.ReporteTrabajadorBuckets | models/reporte_model.py:136-169 | each listed bucket holds exactly one worker's pairs in visiting order, with count, hours and attendees summed over them; no worker has two buckets; buckets run by non-increasing activity count |
| Reportes.WorkerBuckets | models/reporte_model.py:136-162 | the ranked buckets are non-empty, keyed by their worker's id, and pairwise distinct |
| Reportes.ReporteTrabajadorTies | models/reporte_model.py:164-169 | buckets with equal counts keep dictionary order, which is the order in which their workers were first met |
| Reportes.ReporteTrabajadorStats | models/reporte_model.py:171-178 | `total_trabajadores` is the number of distinct workers met; `total_actividades` is the number of assignments; hours and attendees are sums over the assignments |
| Reportes.UnstaffedActivityIsNowhere | models/reporte_model.py:137-162 | an activity without workers appears in no bucket |
| Reportes.StaffedTotalCoversSelection | models/reporte_model.py:171-178 | when every activity has a worker, `total_actividades` is at least the number of selected activities |
| Reportes.UnstaffedSelectionCountsNothing | models/reporte_model.py:171-178 | with no staffed activity the report has no bucket and a zero activity total, whatever the search returns |
| Reportes.ReporteTrabajador | models/reporte_model.py:116-191 | the statistics carry the window; `total_trabajadores` is both the number of listed workers and the number of distinct workers met among the selected activities; `total_actividades` is the number of worker assignments over the selected activities; workers run by non-increasing activity count |
| Reportes.StartDay | models/reporte_model.py:212 | the dictionary key of an activity is a valid calendar day |
| Reportes.DayOf | models/reporte_model.py:215-240 | the day a bucket stands for is a valid calendar day |
| Reportes.FechaTexto | models/reporte_model.py:213 | the `dd/mm/YYYY` rendering is ten characters long |
| Reportes.FechaTextoOrder | models/reporte_model.py:213 | comparing two rendered days as text compares day of month first, then month, then year; equal texts are equal days |
| Reportes.Promedio | models/reporte_model.py:271 | `n / max(d, 1)` is 0 exactly for no activities, otherwise the activities per day and at least 1 |
| Reportes.TextSortMisplaces | models/reporte_model.py:243-246 | in any list sorted by the rendered text, 1 February 2024 comes before 2 January 2024 |
| Reportes.TextOrderMisplacesDays | models/reporte_model.py:243-246 | the by-day report as written lists 1 February before 2 January whenever both days have activities |
| Reportes.CalendarSortPlaces | models/reporte_model.py:242-246 | in any list sorted by calendar rank, 2 January comes before 1 February |
| Reportes.CalendarOrderOfDays | models/reporte_model.py:242-246 | the corrected report lists those two days in calendar order |
| Reportes.ReporteFechasDays | models/reporte_model.py:207-246 | each day bucket holds exactly the selected activities that start that day, in start order, with count and sums over them; the days run strictly forward in time |
| Reportes.DayBucketsWhole | models/reporte_model.py:207-240 | buckets built from a start-ordered selection list their activities in start order |
| Reportes.DaysForward | models/reporte_model.py:242-246 | day buckets sorted by rank, one per day, are strictly increasing in time |
| Reportes.ReporteFechasStats | models/reporte_model.py:263-270 | `total_dias` is the number of distinct start days; the activity, attendee and hour totals equal the sums over the day buckets and over the per-type buckets |
| Reportes.ReporteFechasPorTipo | models/reporte_model.py:248-261 | every selected activity's type label has an entry, and that entry is the bucket of the activities with that label |
| Reportes.PromedioDiario | models/reporte_model.py:271 | `promedio_diario` is 0 exactly when nothing is selected, otherwise activities over days and at least 1 |
| Reportes.DaysAtMostActivities | models/reporte_model.py:209-240 | there are never more days than activities, and at least one day once there is an activity |
| Reportes.ReporteFechasAsWritten | models/reporte_model.py:193-285 | as written, the days are sorted by their `dd/mm/YYYY` text; `total_dias` is both the number of listed days and the number of distinct start days among the selected activities |
| Reportes.ReporteFechas | models/reporte_model.py:193-285 | corrected: the days run in calendar order; `total_dias` is both the number of listed days and the number of distinct start days among the selected activities |
| Reportes.DatosReportes | models/reporte_model.py:102-114 | the data of a by-worker report is the worker report computed for the record's museum, window and filters, that of a by-day report the by-day report computed for them, and other types yield nothing |
| Reportes.Recalcular | models/reporte_model.py:104-114 | recomputing stores the data computed for the record and changes no other field |
| Reportes.DatosIgnoreWorkerFilter | models/reporte_model.py:102-133 | `trabajador_ids` is a dependency of the data but never changes it |
| Reportes.GenerarReporte | models/reporte_model.py:287-296 | the action fails exactly when `fecha_desde` is after `fecha_hasta`, with the fixed message; otherwise the stored data is recomputed from the activities, the state becomes `generado`, and nothing else changes |
| Reportes.GenerarIdempotent | models/reporte_model.py:287-296 | generating a second time with the same activities gives the same record |
| Reportes.WithoutPeriodo | models/reporte_model.py:627-628 | the spreadsheet keys are exactly the statistics keys other than `periodo` |
| Reportes.PlainHeads | models/reporte_model.py:494-507 | the statistics headers of both exports contain no worker, day or activity line |
| Reportes.PlainSkip | models/reporte_model.py:620-636 | header lines in front of the body change none of the line counts |
| Reportes.DayBlockLines | models/reporte_model.py:669-684 | one day block holds one day line, no worker line, and one activity line per activity of that day |
| Reportes.DayBlocksLines | models/reporte_model.py:658-684 | the day blocks hold one day line per day in order, no worker line, and one activity line per activity of each day |
| Reportes.DayBlocksDayLines | models/reporte_model.py:669-675 | the day lines of the blocks are the days, in order |
| Reportes.DayBlocksNoWorkerLine | models/reporte_model.py:658-684 | the day blocks contain no worker line |
| Reportes.DayBlocksActivityLines | models/reporte_model.py:678-682 | the blocks hold as many activity lines as the days have activities |
| Reportes.TakeLines | models/reporte_model.py:526-540 | turning only the first `n` elements into lines yields the first `n` lines of the full body |
| Reportes.PdfTakesFirstWorkers | models/reporte_model.py:526-532 | the PDF's worker lines are the first ten worker lines of the spreadsheet |
| Reportes.PdfTakesFirstDays | models/reporte_model.py:534-540 | the PDF's day lines are the first fifteen day lines of the spreadsheet |
| Reportes.ExcelFechasCounts | models/reporte_model.py:658-684 | the by-day spreadsheet has one day line per counted day and one activity line per selected activity |
| Reportes.HeadedDayCounts | models/reporte_model.py:658-684 | behind plain headers, the day and activity line counts are those of the day blocks |
| Reportes.PdfRows | models/reporte_model.py:486-545 | no data gives no line; for by-worker data the worker lines are those of the first ten workers; for by-day data the day lines are those of the first fifteen days and there is no worker line |
| Reportes.ExcelRows | models/reporte_model.py:616-684 | no data gives no line; for by-worker data the worker lines are those of every worker; for by-day data there is one day line per day in order, no worker line, and one activity line per activity of every day |
| Reportes.FechasTotals | models/reporte_model.py:263-267 | `total_dias` is the number of listed days and `total_actividades` the number of activities in them |
| Reportes.BucketItemCounts | models/reporte_model.py:215-240 | each day bucket's count is its number of activities |
| Reportes.ExcelOmitsPeriodo | models/reporte_model.py:627-628 | no statistics line of the spreadsheet is the period |
| Reportes.HeadStats | models/reporte_model.py:622-634 | the statistics lines of the spreadsheet are its keys, in order |
| Reportes.DayBlocksNoStat | models/reporte_model.py:658-684 | the day blocks contain no statistics line |
| Reportes.Stamp | models/reporte_model.py:380 | the timestamp is 15 characters of digits and one underscore |
| Reportes.NombreArchivo | models/reporte_model.py:380 | the file name has no space, starts with `reporte_`, ends with the extension, and has the expected length |
| Reportes.ExportarPdf | models/reporte_model.py:368-397 | the export fails exactly when `reportlab` cannot be imported, with the wrapped message; otherwise the state is `exportado` and the stored file is named `reporte_<name with underscores>_<timestamp>.pdf` and holds the PDF lines of the stored data |
| Reportes.ExportarExcel | models/reporte_model.py:399-428 | the same for the spreadsheet, `xlsxwriter` and the `.xlsx` extension |
| Reportes.ExportKeepsDatos | models/reporte_model.py:368-428 | exporting changes only the state and its own file: the stored data and the other export's file stay |
| Reportes.ExportAfterGenerar | models/reporte_model.py:287-428 | after generating, the exported PDF and spreadsheet hold the lines of the freshly computed data |
| Informes.RealizadasIff | models/informe_model.py:118-123 | an activity is counted iff it is in the store, belongs to the museum, is `realizada`, starts no earlier than the first instant of `fecha_inicio` and ends before the day after `fecha_fin` begins |
| Informes.ComputeEstadisticas | models/informe_model.py:116-146 | `total_actividades` is the number of counted activities and the per-type entries add up to it; `total_asistentes` is their attendance; the average times the count is that attendance, and 0 without activities; `ingresos_totales` is `costo * asistentes_confirmados` summed over the counted activities, so 0 without activities |
| Informes.PromedioAsistencia | models/informe_model.py:128-131 | the average times the count gives the attendee total, and it is 0 without activities |
| Informes.EstadisticasPorTipo | models/informe_model.py:133-139 | `actividades_por_tipo` has an entry for exactly the labels met, each entry counts its activities, and the entries add up to `total_actividades` |
| Informes.EstadisticasPromedio | models/informe_model.py:125-131 | the average is 0 without activities and otherwise lies between the smallest and largest attendance |
| Informes.PromedioBounds | models/informe_model.py:126-129 | over a non-empty list of activities, the average lies within their attendance bounds |
| Informes.PromedioBetween | models/informe_model.py:129 | a total between `n*lo` and `n*hi` averages to between `lo` and `hi` |
| Informes.EstadisticasIngresos | models/informe_model.py:141-145 | revenue is non-negative and at most the top price times the attendee total |
| Informes.IngresosBound | models/informe_model.py:142-145 | the revenue sum is bounded by the price bound times the attendee sum |
| Informes.ComputeMetricas | models/informe_model.py:148-177 | the per-audience entries add up to the attendance of the counted activities, and the per-worker entries to their number of worker assignments |
| Informes.MetricasPublico | models/informe_model.py:160-166 | `publico_objetivo` sums each audience's attendance, and the sums add up to `total_asistentes` |
| Informes.MetricasTrabajadores | models/informe_model.py:168-174 | `trabajadores_actividades` counts assignments per worker name, and the counts add up to the number of assignments |
| Informes.NamesakesMerged | models/informe_model.py:170-172 | two different workers with the same name share one entry, which counts both |
| Informes.CountTwo | models/informe_model.py:172 | two different elements with the same key count at least twice under it |
| Informes.TwoInFilter | models/informe_model.py:170-172 | two different elements that pass a filter make it at least two long |
| Informes.PreviousMonth | models/informe_model.py:185-187 | the corrected monthly window: it starts on day 1 and ends on the last day of the month before today's |
| Informes.PreviousQuarter | models/informe_model.py:188-196 | the corrected quarterly window: it starts on day 1 of a quarter, ends on the last day of that quarter's third month, and the next day starts today's quarter |
| Informes.PreviousYear | models/informe_model.py:197-199 | 1 January to 31 December of the previous year |
| Informes.Window | models/informe_model.py:184-201 | unknown periods are skipped; every other window is non-empty and ends before today |
| Informes.MensualAsWritten | models/informe_model.py:185-187 | as written, the monthly window is exactly 30 days long and ends the day before the 1st of the current month |
| Informes.TrimestralAsWritten | models/informe_model.py:188-196 | as written, the quarterly window raises `ValueError` (day out of range) exactly from July on; before July it starts on day 1 and ends on day 31 |
| Informes.TrimestralAsWrittenFirstHalf | models/informe_model.py:188-196 | from January to June the quarterly window as written is the previous calendar quarter |
| Informes.MensualAsWrittenIff | models/informe_model.py:185-187 | the monthly window as written is the previous month exactly when that month has 30 days |
| Informes.CreateMissing | models/informe_model.py:184-219 | the loop only appends reports in state `generado`, for listed museums that lacked one for the window |
| Informes.CreateMissingCovers | models/informe_model.py:203-219 | after the loop every active museum has a report for the window |
| Informes.CreateMissingUnique | models/informe_model.py:203-219 | the loop never creates a second report for one museum, period and window |
| Informes.CreateMissingNothingNew | models/informe_model.py:211 | when every museum already has its report the loop changes nothing |
| Informes.Generar | models/informe_model.py:200-201 | an unknown period creates nothing |
| Informes.GenerarAtMostOne | models/informe_model.py:178-221 | at most one report per museum, period and window, and every active museum has one afterwards |
| Informes.GenerarIdempotent | models/informe_model.py:203-219 | a second run on the same day creates nothing |
| Informes.GenerarAsWritten | models/informe_model.py:178-221 | as written, a run fails exactly when it is quarterly, from July on, with an active museum; otherwise it keeps the existing reports and only appends `generado` reports of that period for listed museums |
| Informes.GenerarAsWrittenAgrees | models/informe_model.py:184-201 | for yearly and skipped periods, and quarterly runs before July, the code as written agrees with the calendar windows |
| Informes.Validar | models/informe_model.py:229-233 | the state becomes `validado` whatever it was, and nothing else changes |
| Informes.Publicar | models/informe_model.py:235-239 | the state becomes `publicado` whatever it was, and nothing else changes |
| ReporteRapido.MondayOf | models/wizard_reportes.py:93 | the Monday on or before the day, at most six days back |
| ReporteRapido.BackToMonday | models/wizard_reportes.py:93 | stepping back by the weekday lands on a Monday |
| ReporteRapido.Semana | models/wizard_reportes.py:92-96 | `semana_actual` runs from a Monday to six days later and contains today |
| ReporteRapido.Mes | models/wizard_reportes.py:97-101 | `mes_actual` runs from day 1 to the last day of today's month in every month of every year |
| ReporteRapido.MesPrevio | models/wizard_reportes.py:102-106 | `mes_anterior` is the whole previous month (December of the previous year in January) and ends the day before the current month starts |
| ReporteRapido.Trimestre | models/wizard_reportes.py:107-115 | `trimestre_actual` runs from day 1 of month 3q+1 to the last day of month 3q+3 and contains today |
| ReporteRapido.RangoFechas | models/wizard_reportes.py:85-115 | `personalizado` gives no range; every other preset gives `desde <= hasta`; all but `mes_anterior` contain today; `hoy` is today alone |
| ReporteRapido.OnchangeRango | models/wizard_reportes.py:85-115 | the onchange touches only the two dates, and `personalizado` leaves the wizard unchanged |
| ReporteRapido.DefaultGet | models/wizard_reportes.py:66-83 | a new wizard covers the current month and has the first active museum, when there is one |
| ReporteRapido.GenerarDesdeWizard | models/wizard_reportes.py:117-150 | the action fails iff a date is missing or `desde > hasta`; otherwise the report is generated with the wizard's museum, dates, type and state filters, its stored data is computed from the activities, it has no file yet, and it gets the workers only for the by-worker report |
| Dates.PlusThirtyTwoIsLastDay | models/wizard_reportes.py:73 | the "+32 days" step lands on the last day of the month, for every month of every year |
| Dates.DayBeforeFirstIsLastOfPreviousMonth | models/wizard_reportes.py:103-104 | the day before the 1st is the last day of the previous month, and in January that is 31 December of the previous year |
| Grouping.AccumulateTotals | models/reporte_model.py:136-162 | every element is counted in exactly one bucket: counts add up to the length, and attendee and hour sums are preserved |
| Grouping.AccumulateOrder | models/reporte_model.py:136-162 | buckets come out in the order their keys are first met |
| Grouping.RankedBuckets | models/reporte_model.py:164-169 | sorting keeps every bucket whole and never lists a key twice |
| Grouping.RankedDescending | models/reporte_model.py:165-169 | with `reverse=True` on the count, buckets run by non-increasing count |
| Grouping.RankedStable | models/reporte_model.py:165-169 | buckets of equal rank keep dictionary order |
| Grouping.RankedTotals | models/reporte_model.py:171-178 | sorting neither loses nor invents a count, an attendee or a second |
| Grouping.RankedCount | models/reporte_model.py:174 | there are as many buckets as distinct keys |
| Grouping.SumByEntries | models/informe_model.py:134-137 | a counting dictionary has an entry for exactly the keys met, each the sum over its elements |
| Grouping.SumByTotal | models/informe_model.py:160-164 | the entries of a counting dictionary add up to the sum over all elements |
| Importacion.ProcesarJson | models/wizard_models.py:247-275 | a list is returned as is; in an object, the first of the preferred keys holding a list wins, else the object itself if it identifies one, else the first list value led by an identifying object; otherwise it fails, with the wrapped message |
| Importacion.ListaEnClaves | models/wizard_models.py:255-257 | the list under the first preferred key that holds a list, and none iff no preferred key holds one |
| Importacion.ListaEnValores | models/wizard_models.py:264-267 | the first value that is a non-empty list led by an identifying object, and none iff no value is such a list |
| Importacion.Ocurrencias | models/wizard_models.py:353 | the count of a delimiter over the sample is zero iff no sample line contains it |
| Importacion.FirstMax | models/wizard_models.py:359 | the first position holding the maximal score |
| Importacion.Elegir | models/wizard_models.py:352-361 | the delimiter with the most occurrences, the earliest candidate on ties, and `','` when none occurs |
| Importacion.DetectarDelimitador | models/wizard_models.py:343-361 | the detected delimiter is one of `, ; \t \|` |
| Importacion.DetectarPrimerasLineas | models/wizard_models.py:346 | lines after the fifth never change the detected delimiter |
| Importacion.MuestraLineas | models/wizard_models.py:346-355 | the sample of a text made of lines is the non-empty lines among the first five |
| Importacion.ComoObjetoField | models/wizard_models.py:296 | reading a field of a converted row gives that row's cell, or null |
| Importacion.Recoger | models/wizard_models.py:367-381 | the mapping fails iff some required column is absent, with the first such column's message; on success the fields are exactly those of the present columns, none twice |
| Importacion.RecogerPaso | models/wizard_models.py:367-379 | one more mapping adds its field when present and its failure when required and absent |
| Importacion.AplicarMapeo | models/wizard_models.py:363-381 | the row fails iff a required stripped column is missing, naming the first; otherwise it has exactly the mapped fields of present columns |
| Importacion.NormalizarFilaKeys | models/wizard_models.py:401-406 | the normalised row has exactly the normalised non-empty headers, each once and already normal |
| Importacion.PrimerAlias | models/wizard_models.py:410-414 | the first alias, in listed order, present in the row |
| Importacion.AplicarReglas | models/wizard_models.py:409-414 | every inferred field appears once |
| Importacion.FijaSnoc | models/wizard_models.py:409-414 | one more rule adds its field exactly when one of its aliases is present |
| Importacion.AplicarReglasKeys | models/wizard_models.py:409-414 | a field is set exactly when one of its rules found an alias |
| Importacion.AplicarReglasValue | models/wizard_models.py:410-412 | with distinct fields, a found field holds the cell of its first present alias |
| Importacion.Inferir | models/wizard_models.py:383-424 | the inferred row has no field twice |
| Importacion.InferirKeys | models/wizard_models.py:385-424 | inferred fields are those of the alias table, plus `name` |
| Importacion.InferirFallback | models/wizard_models.py:416-422 | when the rules found neither name nor code, the first truthy cell shorter than 100 characters becomes `name`, such a cell exists iff one is found, and without one the row is what the rules gave |
| Importacion.CorregirSpec | models/wizard_models.py:514-529 | a correction makes the field acceptable when its default is, and leaves other fields alone |
| Importacion.ValidarObjeto | models/wizard_models.py:494-558 | a row is accepted iff it is an object with a truthy name and code, whose code is not already used when duplicates are checked without overwriting, whose category and state are hashable, and whose category is valid unless categories may be created; an accepted row is completed with the defaults and the museum; a row without a name fails with the missing-name message, a non-object row with the `AttributeError` text, and a list or object category with the `unhashable type` text |
| Importacion.CompletarSpec | models/wizard_models.py:514-551 | the defaults make category and state valid, set the museum, and keep every other field |
| Importacion.ValidarObjetoConforme | models/wizard_models.py:494-553 | an accepted object has a name, a code, a valid category and state, the wizard's museum, and the row's other fields |
| Importacion.Validacion | models/wizard_models.py:494-558 | every row yields either an accepted object or an error line; accepted objects come from rows; none is accepted iff every row fails |
| Importacion.ValidacionAceptados | models/wizard_models.py:555-558 | every accepted row's object is collected |
| Importacion.ValidacionTodosFallan | models/wizard_models.py:555-558 | when every row fails, the error lines are the rows' errors, numbered from 1 |
| Importacion.ValidarObjetos | models/wizard_models.py:560-564 | the validation fails iff there are rows and all of them fail; otherwise some object is accepted whenever there were rows |
| Importacion.ValidosAceptados | models/wizard_models.py:555-564 | when validation passes, every accepted row's object is among the objects to import |
| Importacion.ValidarObjetosMensaje | models/wizard_models.py:560-562 | when every row fails, the message lists the first ten rows' errors in order |
| Importacion.InferirSinName | models/wizard_models.py:409-422 | under a table with no `name` field, an inferred row never has both a name and a code |
| Importacion.ReglasAsWrittenSinName | models/wizard_models.py:385-396 | the alias table as written has no `name` field |
| Importacion.InferirAsWrittenRejected | models/wizard_models.py:385-422 | as written, no inferred CSV row passes validation |
| Importacion.InferirConNombre | models/wizard_models.py:409-414 | under a table whose first rules feed `name` and `codigo_inventario`, a row with text in both columns passes the required-field checks |
| Importacion.ReglasDistintas | models/wizard_models.py:385-396 | the corrected table has distinct fields, and its first two are `name` and `codigo_inventario` |
| Importacion.InferirIdentifica | models/wizard_models.py:383-424 | under the corrected table, a row with a name and a code column holding text passes the required-field checks |
| Importacion.ProcesarCsv | models/wizard_models.py:277-311 | without a mapping every row becomes an object; with one, it fails only on a row missing a required column, with that row's wrapped message; there is one object per row |
| Importacion.MapearFilas | models/wizard_models.py:293-306 | rows map in order, and the first failing row stops the loop |
| Importacion.MapearFila | models/wizard_models.py:293-306 | with a mapping, a row fails iff a required column is missing, with the CSV-prefixed message; without one, the row becomes the object of its inferred fields; a row that maps is an object |
| Importacion.FilasObjetos | models/wizard_models.py:293-306 | without a mapping each row becomes its inferred object |
| Importacion.Importando | models/wizard_models.py:572-593 | creations, updates and errors never exceed the objects; nothing is updated without overwriting; every created code is new; the transaction is aborted only if the database refused some write, and with overwriting exactly then |
| Importacion.ImportandoSinFallos | models/wizard_models.py:580-587 | when every write succeeds and objects are overwritten, every object is created or updated, with no error and no aborted transaction |
| Importacion.ImportandoSalta | models/wizard_models.py:588-590 | without overwriting and before any abort, an object whose code exists is neither written nor counted |
| Importacion.PasoTrasAborto | models/wizard_models.py:572-593 | once the transaction is aborted, one more object adds only the aborted-transaction error line and changes no counter |
| Importacion.ImportandoTrasAborto | models/wizard_models.py:572-593 | after an aborted write every later object only adds one error line, and the counters stay as they were |
| Importacion.ImportarObjetos | models/wizard_models.py:566-600 | `creados + actualizados + len(errores) <= total_procesados = len(objetos)`; updates happen only when overwriting; the transaction ends aborted only after a refused write, and with overwriting after any |
| Importacion.Mostrados | models/wizard_models.py:614-616 | at most five errors are shown, and past five a line tells how many more |
| Importacion.SeccionErrores | models/wizard_models.py:612-616 | no errors give no section; otherwise the section is the header with the error count followed by the shown lines, one per line |
| Importacion.MostrarResultados | models/wizard_models.py:602-649 | the import record carries the counters and the number of errors; the notification is a success iff there was no error, and its message is the summary plus the error section |
| Importacion.Prefijar | models/wizard_models.py:245 | the message starts with `Error al importar: ` followed by the original error |
| Importacion.Importar | models/wizard_models.py:234-245 | errors come back prefixed; once validation passes, the only failure is the aborted transaction, which surfaces when the import record is created; a summary means some object was accepted or there was none, and under overwriting no accepted object's write was refused; its counters are consistent and record the wizard's museum |
| Importacion.ImportarAborta | models/wizard_models.py:234-245 | under overwriting, one accepted object whose write the database refuses makes the whole import fail with the prefixed aborted-transaction message |
| Importacion.ActionImportar | models/wizard_models.py:212-245 | no file gives the "select a file" error; any later failure is prefixed; a summary implies the file was read and some object passed validation, or there was none |
| Actividades.LabelsInjective | models/actividad_model.py:41-50 | distinct types and audiences have distinct labels, so grouping by label is grouping by value |
| Actividades.Duracion | models/actividad_model.py:136-144 | the duration is 0 when a date is missing, and otherwise the start plus the duration is the end |
| Actividades.CheckFechas | models/actividad_model.py:154-161 | a record without an end passes; one without a start but with an end raises; with both, it passes iff the duration is non-negative |
| Actividades.EventOnCreate | models/actividad_model.py:178-188 | an event is created exactly when both dates are set, and it mirrors the activity |
| Actividades.CalendarUpdate | models/actividad_model.py:196-214 | a calendar write happens iff an event is linked and one of the five fields is written; it carries exactly the written keys, renamed, and the workers only if they were written too |
| Actividades.EventStaysInSync | models/actividad_model.py:196-214 | a write that touches one of the five fields, or not the workers, keeps the event mirroring the activity |
| Actividades.WorkersAloneLeaveEventStale | models/actividad_model.py:198-211 | a write of the workers alone sends nothing, so the event keeps the old partner list |
| Asistencia.CheckSatisfaccion | models/registro_asistencia_model.py:81-87 | an unset rating passes, one from 1.0 to 5.0 passes, and any other fails |
| Asistencia.Relate | models/registro_asistencia_model.py:60-71 | the related fields mirror the linked activity, and nothing else changes |
| Asistencia.NewRegistro | models/registro_asistencia_model.py:17-47 | a record with every default is linked to its activity, dated today, and passes both checks |
| Asistencia.ConfirmadosAppend | models/actividad_model.py:146-152 | a new record adds its attendees to its own activity's total and to no other |
| Asistencia.ConfirmadosAtLeastRecords | models/registro_asistencia_model.py:73-79 | records that pass the attendee check make the total at least the number of records, and zero exactly without records |
| Asistencia.CapacidadAfterRegistro | models/actividad_model.py:163-170 | after a new record the capacity check passes iff the old total plus the new attendees fits |
| Galeria.CheckPrincipal | models/museo_galeria_model.py:74-91 | a primary photo fails iff another active primary photo of its museum exists |
| Galeria.WriteAsWritten | models/museo_galeria_model.py:74-91 | as written, only a write of `es_imagen_principal` runs the primary-photo constraint: such a write fails iff a written record is primary with another active primary in its museum, and every other write passes |
| Galeria.WriteAsWrittenDuplica | models/museo_galeria_model.py:74-91 | unarchiving a second primary photo of a museum passes as written and leaves two active primaries; the corrected write refuses it |
| Galeria.WriteAsWrittenAgrees | models/museo_galeria_model.py:74-115 | a write that touches neither `active` nor `museo_id` behaves the same as written and corrected |
| Galeria.Comprobar | models/museo_galeria_model.py:77-91 | the constraint over the written records passes iff it passes for each |
| Galeria.Create | models/museo_galeria_model.py:93-103 | creation fails iff the new photo is primary and another active primary exists; otherwise the photo is stored, and only a primary photo with an image updates its museum's image |
| Galeria.CreateUnica | models/museo_galeria_model.py:93-103 | a successful create keeps a museum's active primary photo unique |
| Galeria.Escribir | models/museo_galeria_model.py:107 | the written values land on the written records only |
| Galeria.Sincronizar | models/museo_galeria_model.py:109-113 | a museum's image is replaced iff some written record of it is primary, and then by the written image |
| Galeria.SincronizaSnoc | models/museo_galeria_model.py:109-113 | one more written record syncs its museum exactly when it is primary |
| Galeria.ImagenDePrefijo | models/museo_galeria_model.py:109-113 | a museum image set by earlier records survives the remaining loop |
| Galeria.Write | models/museo_galeria_model.py:105-115 | corrected: a write of `es_imagen_principal`, `active` or `museo_id` fails iff a written record is primary and its museum has another active primary, with the fixed message; any other write passes; only writes of the image sync, and only for museums with a written primary record |
| Galeria.WriteUnica | models/museo_galeria_model.py:105-115 | a successful write keeps a museum's active primary photo unique |
| Galeria.Otras | models/museo_galeria_model.py:122-127 | the search finds exactly the other active primary photos of the same museum |
| Galeria.SetAsPrincipal | models/museo_galeria_model.py:117-140 | the action always succeeds: the photo becomes primary, the museum's other active primaries are unmarked, everything else is unchanged, and the museum's image becomes the photo's only when it has one |
| Galeria.DesmarcarOtras | models/museo_galeria_model.py:129-130 | unmarking the other primaries passes the constraint and touches only them |
| Galeria.MarcarUna | models/museo_galeria_model.py:133-135 | with no other primary left, marking the photo passes and changes only that record |
| Galeria.SetAsPrincipalIdempotent | models/museo_galeria_model.py:117-140 | running the action twice leaves what one run left |
| Galeria.SetAsPrincipalUnica | models/museo_galeria_model.py:117-140 | afterwards the photo's museum has one active primary record, and other museums keep theirs |
| Convenios.CheckFechas | models/convenio_model.py:117-123 | an agreement without an end date always passes, and the error is the fixed message |
| Convenios.CheckFechasDuracion | models/convenio_model.py:117-123 | with an end date, it passes iff the start is not after the end |
| Convenios.DiasParaVencer | models/convenio_model.py:107-114 | 0 unless the agreement is `vigente` with an end date; otherwise today plus the count is the end date |
| Convenios.DiasParaVencerSigno | models/convenio_model.py:112 | the count is negative iff the end has passed, and zero iff it is today |
| Convenios.Cron | models/convenio_model.py:125-136 | exactly the active `vigente` agreements whose end is before today become `vencido`, and nothing else changes |
| Convenios.CronIdempotent | models/convenio_model.py:128-136 | after the job nothing is left to mark, so a second run changes nothing |
| Convenios.CronKeepsToday | models/convenio_model.py:135 | an agreement ending today is untouched |
| Convenios.CronMonotone | models/convenio_model.py:135-136 | a later run marks everything an earlier run marked |
| Convenios.CronAsWritten | models/convenio_model.py:125-137 | as written, the job either changes nothing or fails |
| Convenios.CronAsWrittenNeverMarks | models/convenio_model.py:134-137 | as written, the job fails exactly when the intended job would change something, so nothing is ever marked |
| Museos.ComputeTotales | models/museo_model.py:231-236 | each total is bounded by its store |
| Museos.TotalesAlta | models/museo_model.py:231-236 | a new record raises its museum's total by one; an archived object or agreement, or another museum's, leaves it unchanged |
| Museos.TotalesArchivar | models/museo_model.py:231-236 | archiving an active object and agreement lowers those totals by one each |
| Museos.InformesPublicados | models/museo_model.py:144-149 | only monthly reports count |
| Museos.PublicarCuenta | models/museo_model.py:144-149 | publishing raises the counter by one exactly for an unpublished monthly report of the museum |
| Museos.ConveniosPorVencer | models/museo_model.py:151-159 | the counter is at most the number of the museum's agreements |
| Museos.PorVencerDias | models/museo_model.py:151-159 | the counter's test agrees with `dias_para_vencer <= 30`, and counts every agreement the expiry job would mark |
| Museos.PorVencerTrasCron | models/museo_model.py:151-159 | after the expiry job, the counter holds exactly the agreements ending between today and 30 days from now |
| Museos.ActividadesProximas | models/museo_model.py:161-169 | the counter is at most the museum's activity total |
| Museos.ProximasDecrece | models/museo_model.py:161-169 | as days pass with the activities unchanged, the counter never rises |
| Museos.CheckFechaCreacion | models/museo_model.py:238-244 | a creation date passes iff it is unset or not after today |
| Museos.CheckFechaCreacionEstable | models/museo_model.py:238-244 | a date accepted on one day is accepted on every later day |
| Strings.NormalizeKey | models/wizard_models.py:405 | a normalised header has no space, hyphen or upper-case letter, and no whitespace at either end |
| Strings.NormalizeKeyIdempotent | models/wizard_models.py:405 | normalising twice gives the same key as once |
| Strings.Split | models/wizard_models.py:346 | `split` yields at least one part, no part contains the separator, and joining the parts gives the text back |
| Strings.SplitJoin | models/wizard_models.py:346 | splitting the join of separator-free lines gives the lines back |

## Left out

- ORM machinery is not modelled: field declarations, `@api.depends`/`@api.constrains` triggers, mail tracking, views, window-action and notification dictionaries (`action_view_*`, `action_ver_pagina_web`, the dictionaries the actions return), and record ids beyond what the properties need.
- PDF and spreadsheet rendering is reduced to the sequence of emitted lines. Styles, fonts, column widths, number formatting (`:.2f`), the `.title()` of statistics keys, reportlab/xlsxwriter calls and base64 encoding are not modelled.
- The first definitions of `action_exportar_pdf`/`action_exportar_excel` (models/reporte_model.py:309-352) are redefined later in the class, so only the later ones are modelled.
- Reportes.ExportarPdf: the "generate first" guard is not a branch of the model, because `datos_reportes` is always a non-empty JSON text (at least `{}`).
- Reportes.ExportarPdf: a failure inside the PDF build itself is not modelled; only the missing-library failure is. The same holds for Reportes.ExportarExcel.
- Floating point is replaced by integers: hours are seconds, money is cents, and ratings are tenths. Averages are exact rationals, not IEEE doubles.
- `_convertir_valor` (models/wizard_models.py:458-487) becomes a parsing function passed as a parameter, apart from `None` and text stripping. Its `float()`/`strptime` parsing is not modelled.
- Importacion.ValidarObjeto: the re-formatting of `fecha_adquisicion` and the `float()` of `valor_estimado` (models/wizard_models.py:531-548) are not modelled; a falsy value becomes 0.
- The Excel import path (`_procesar_excel`, `_inferir_campos_excel`, models/wizard_models.py:313-341, 426-456) is not modelled. It depends on pandas, and `pd` is not in scope in `_inferir_campos_excel`.
- Base64, UTF-8 and JSON decoding are not modelled: the file arrives already decoded, so the invalid-JSON error is not modelled.
- CSV quoting is not modelled: the CSV reader is a function parameter (`Lector`) from text and delimiter to rows.
- Importacion.Str: `str()` of a list or dict renders the type name instead of Python's representation.
- Strings.Lower: maps only ASCII and Latin-1 capitals, because the rest of Unicode case mapping has no bearing on the header names the import expects.
- Python's date range (years 1 to 9999) is not enforced on `Date`, except where text rendering needs four digits.
- The calendar event's `categ_ids` (models/actividad_model.py:186), the unlinking of the event on delete (218-225), and the manual calendar actions (227-275) are not modelled. Only the values sent to the event are.
- Logging is not modelled. The undefined `_logger` in the expiry job is a finding (below).
- Stubs with no behaviour are not modelled: `action_generar_pdf` of the periodic report (models/informe_model.py:223-227) and the worker-assignment wizard with its `action_asignar` (models/wizard_models.py:690-750).
- The periodic-report wizard `MuseoWizardGenerarInforme`, `action_limpiar_datos_temporales` and `action_generar_informes_automaticos` are not modelled. They are thin wrappers over searches, `unlink`, and the generator that is modelled.
- `_compute_name` of reports and informes is not modelled: display-name formatting only.
- `action_generar_y_exportar` and the by-worker quick-report wizard (models/wizard_reportes.py:162-238) are not modelled. They chain the wizard action and the export, which are both modelled.
- Weekday and month names from `strftime('%A')`/`'%B'` are locale-dependent and not modelled. The day list keeps only the date and the activities.
- `models/acciones_reportes.py` (window actions with date logic duplicated from the wizard), the controllers, the JavaScript, the manifest, and the models that only declare fields are not part of this model. In models/wizard_models.py the advanced-option and assignment-preview models hold only fields and are left out; the field-mapping and import-log models appear only as the `Mapeo` and `Registro` records of `Importacion`.
- ReporteRapido.GenerarDesdeWizard requires a museum, because the wizard's `museo_id` field is declared `required=True` (models/wizard_reportes.py:18-22), so the ORM refuses a wizard without one.
- Selection fields that declare a default but not `required=True` are assumed set: a record holding `False` there is not modelled. This covers the activity's `estado` and `publico_objetivo` (models/actividad_model.py:75-82, 104-113), the states of reports, periodic reports and agreements, and the wizard's and report's type and state filters, where `False` is not the same as `'todos'`.
- Informes.MetricasPublico: an activity without `publico_objetivo` would have its attendance summed under a `None` key by `dict(...).get(False)` (models/informe_model.py:163); the model has no such entry, because every activity has an audience (see the line above).
- Reportes.NombreArchivo: the report name is given, not derived from the other fields.
- Convenios.CronAsWritten: the transaction rollback on the `NameError` is modelled as the job leaving the store unchanged.
- Reportes.DatosReportes: the by-day data is the corrected report in calendar order (Reportes.ReporteFechas), not the `dd/mm/YYYY` text order the code sorts by; the order as written is Reportes.ReporteFechasAsWritten (see "## Findings").
- Reportes.ExportarPdf: it renders the stored data, so its fifteen days are the first fifteen in calendar order rather than in text order.
- Reportes.ExportarExcel: it renders the stored data, so its days run in calendar order rather than in text order.
- Importacion.MapearFila: without a mapping, a row is inferred with the corrected alias table, whose name column feeds `name`, not with the table as written (see "## Findings").
- Importacion.FilasObjetos: builds on Importacion.MapearFila, so inferred rows use the corrected alias table.
- Importacion.ProcesarCsv: builds on Importacion.MapearFila, so inferred rows use the corrected alias table.
- Importacion.ActionImportar: builds on Importacion.ProcesarCsv, so an import without a mapping uses the corrected alias table.
- Importacion.Importar: the database is the parameter `falla`, which says for each object whether its write succeeds, is refused with an error the loop catches, or is refused in a way that aborts the PostgreSQL transaction (a `NOT NULL` or unique violation); which writes the database refuses is not modelled. The aborted-transaction text is PostgreSQL's message, kept as a constant.

## Findings

| source | as written | input that shows it | evidently intended | confidence | as-written member | corrected member |
|---|---|---|---|---|---|---|
| models/informe_model.py:195-196 | the quarterly end date is `replace(month=mi-1, day=31)` | any day from July on: June and September have 30 days, so `replace` raises `ValueError` and no quarterly report is ever generated in the second half of the year | the last day of the previous quarter | high; not executed | Informes.TrimestralAsWritten, Informes.GenerarAsWritten | Informes.PreviousQuarter, Informes.GenerarAtMostOne |
| models/informe_model.py:186-187 | the monthly window is the 30 days before the 1st of the month | 15 March 2024: the window is 31 January to 29 February instead of February | the whole previous calendar month | medium; not executed | Informes.MensualAsWritten, Informes.MensualAsWrittenIff | Informes.PreviousMonth |
| models/convenio_model.py:137 | `_logger.info(...)` with `_logger` never defined in the module | any active `vigente` agreement whose end date is before today: the `NameError` aborts the job and its transaction is rolled back | mark every run-out agreement as `vencido` | high; not executed | Convenios.CronAsWritten, Convenios.CronAsWrittenNeverMarks | Convenios.Cron, Convenios.CronIdempotent |
| models/reporte_model.py:213, 243-246 | day buckets are sorted by the `dd/mm/YYYY` text | activities on 2 January and 1 February 2024: "01/02/2024" sorts before "02/01/2024" | calendar order, as the comment "Ordenar por fecha" says | high; not executed | Reportes.TextOrderMisplacesDays | Reportes.CalendarOrderOfDays, Reportes.ReporteFechasDays |
| models/wizard_models.py:387, 417 | the name column is inferred into the field `nombre`, and the fallback tests `'name'` against the found fields | a CSV with columns `nombre,codigo`: the row gets `nombre` and `codigo_inventario` but no `name`, so validation rejects every inferred row | infer the name column into `name` | high; not executed | Importacion.InferirAsWrittenRejected | Importacion.InferirIdentifica |
| models/museo_galeria_model.py:74 | the primary-photo constraint is declared with `@api.constrains('es_imagen_principal')` only | two primary photos of one museum, one archived: unarchiving it writes only `active`, the constraint does not run, and the museum has two active primary photos | run the constraint also when `active` or `museo_id` is written | medium; not executed | Galeria.WriteAsWritten, Galeria.WriteAsWrittenDuplica | Galeria.Write, Galeria.WriteUnica |

=== FILE: actividad.dfy ===
/** Museum activities (`museo.actividad`): their computed duration, the two
    record constraints, and the values pushed to the linked calendar event
    when an activity is created or written. */
module Actividades {
  import opened Wrappers
  import opened Dates

  datatype Tipo =
    | Taller | Conferencia | Exposicion | VisitaGuiada
    | ActividadInfantil | EventoEspecial | Festival | OtroTipo

  datatype Estado = Planificada | Confirmada | EnCurso | Realizada | Cancelada | Pospuesta

  datatype Publico =
    | Infantil | Juvenil | Adultos | AdultosMayores
    | Familiar | Escolar | Universitario | General

  /** Display labels of the selections, which the reports use as keys. */
  function TipoLabel(t: Tipo): string {
    match t
    case Taller => "Taller"
    case Conferencia => "Conferencia"
    case Exposicion => "Exposici\U{F3}n"
    case VisitaGuiada => "Visita Guiada"
    case ActividadInfantil => "Actividad Infantil"
    case EventoEspecial => "Evento Especial"
    case Festival => "Festival"
    case OtroTipo => "Otros"
  }

  function EstadoLabel(e: Estado): string {
    match e
    case Planificada => "Planificada"
    case Confirmada => "Confirmada"
    case EnCurso => "En Curso"
    case Realizada => "Realizada"
    case Cancelada => "Cancelada"
    case Pospuesta => "Pospuesta"
  }

  function PublicoLabel(p: Publico): string {
    match p
    case Infantil => "Infantil (0-12 a\U{F1}os)"
    case Juvenil => "Juvenil (13-17 a\U{F1}os)"
    case Adultos => "Adultos"
    case AdultosMayores => "Adultos Mayores"
    case Familiar => "Familiar"
    case Escolar => "Escolar"
    case Universitario => "Universitario"
    case General => "P\U{FA}blico General"
  }

  /** Distinct selection values have distinct labels, so grouping by label
      is grouping by value. */
  lemma LabelsInjective()
    ensures forall a: Tipo, b: Tipo | TipoLabel(a) == TipoLabel(b) :: a == b
    ensures forall a: Publico, b: Publico | PublicoLabel(a) == PublicoLabel(b) :: a == b
  {
  }

  /** A museum worker (`res.partner` flagged as such). */
  datatype Worker = Worker(id: nat, name: string, cargo: string)

  /** One activity.  `inicio`/`fin` are `None` when unset; `costo` is in
      cents; `confirmados` is the stored `asistentes_confirmados`; `evento`
      records whether a calendar event is linked. */
  datatype Activity = Activity(
    id: nat,
    name: string,
    museo: nat,
    inicio: Option<Moment>,
    fin: Option<Moment>,
    tipo: Tipo,
    estado: Estado,
    costo: int,
    capacidad: int,
    confirmados: int,
    trabajadores: seq<Worker>,
    sala: string,
    publico: Publico,
    descripcion: string,
    evento: bool)

  // ------------------------------------------------------------------
  // Computed fields and constraints

  /** `duracion_horas`, in seconds: the time from start to end when both are
      set, and 0 otherwise. */
  function Duracion(a: Activity): (secs: int)
    ensures a.inicio.None? || a.fin.None? ==> secs == 0
    ensures a.inicio.Some? && a.fin.Some? ==> AddSeconds(a.inicio.value, secs) == a.fin.value
  {
    if a.inicio.Some? && a.fin.Some? then
      AddSecondsDifference(a.inicio.value, a.fin.value);
      Timestamp(a.fin.value) - Timestamp(a.inicio.value)
    else 0
  }

  /** `_check_fechas` accepts the record.  With an end date set, a start
      after the end is rejected; an unset start compared with a set end
      raises as well (Python refuses to order `False` against a datetime). */
  function CheckFechas(a: Activity): (ok: bool)
    ensures a.fin.None? ==> ok
    ensures a.inicio.None? && a.fin.Some? ==> !ok
    ensures a.inicio.Some? && a.fin.Some? ==> (ok <==> Duracion(a) >= 0)
  {
    if a.fin.None? then true
    else if a.inicio.None? then false
    else
      TimestampOrder(a.fin.value, a.inicio.value);
      !DtBefore(a.fin.value, a.inicio.value)
  }

  /** `_check_capacidad` accepts the record. */
  predicate CheckCapacidad(a: Activity) {
    a.confirmados <= a.capacidad
  }

  // ------------------------------------------------------------------
  // Calendar synchronisation

  datatype CalendarEvent = CalendarEvent(
    name: string,
    start: Moment,
    stop: Moment,
    description: string,
    location: string,
    partners: seq<nat>)

  function WorkerIds(ws: seq<Worker>): (r: seq<nat>)
    ensures |r| == |ws|
    ensures forall i | 0 <= i < |ws| :: r[i] == ws[i].id
  {
    seq(|ws|, i requires 0 <= i < |ws| => ws[i].id)
  }

  /** `start`/`stop` of the activity, copied from `fecha_inicio`/`fecha_fin`. */
  function CalendarStart(a: Activity): Option<Moment> {
    a.inicio
  }

  function CalendarStop(a: Activity): Option<Moment> {
    a.fin
  }

  /** The event shows the activity's name, calendar times, description,
      room and workers. */
  predicate Mirrors(e: CalendarEvent, a: Activity) {
    e.name == a.name
    && CalendarStart(a) == Some(e.start) && CalendarStop(a) == Some(e.stop)
    && e.description == a.descripcion && e.location == a.sala
    && e.partners == WorkerIds(a.trabajadores)
  }

  /** The event `create` makes: one exactly when both dates are set. */
  function EventOnCreate(a: Activity): (r: Option<CalendarEvent>)
    ensures r.Some? <==> a.inicio.Some? && a.fin.Some?
    ensures r.Some? ==> Mirrors(r.value, a)
  {
    if a.inicio.Some? && a.fin.Some? then
      Some(CalendarEvent(a.name, a.inicio.value, a.fin.value, a.descripcion, a.sala, WorkerIds(a.trabajadores)))
    else None
  }

  /** The values passed to `write`: `None` for a field that is not written.
      The two dates are required fields, so a written date is always set. */
  datatype Vals = Vals(
    name: Option<string>,
    inicio: Option<Moment>,
    fin: Option<Moment>,
    descripcion: Option<string>,
    sala: Option<string>,
    trabajadores: Option<seq<Worker>>)

  /** The record after `super().write(vals)`. */
  function ApplyWrite(a: Activity, v: Vals): Activity {
    a.(name := v.name.GetOr(a.name),
       inicio := if v.inicio.Some? then Some(v.inicio.value) else a.inicio,
       fin := if v.fin.Some? then Some(v.fin.value) else a.fin,
       descripcion := v.descripcion.GetOr(a.descripcion),
       sala := v.sala.GetOr(a.sala),
       trabajadores := v.trabajadores.GetOr(a.trabajadores))
  }

  /** One of the five fields that trigger a calendar update is written. */
  predicate TouchesEvent(v: Vals) {
    v.name.Some? || v.inicio.Some? || v.fin.Some? || v.descripcion.Some? || v.sala.Some?
  }

  /** The `calendar_vals` dictionary: `None` for an absent key. */
  datatype EventChanges = EventChanges(
    name: Option<string>,
    start: Option<Moment>,
    stop: Option<Moment>,
    description: Option<string>,
    location: Option<string>,
    partners: Option<seq<nat>>)

  /** The calendar write `write` issues for the activity `a` as it is after
      the record write: none unless an event is linked and one of the five
      fields is written; otherwise exactly the written keys, renamed, plus
      the workers (read back from the record) when they were written too. */
  function CalendarUpdate(a: Activity, v: Vals): (r: Option<EventChanges>)
    ensures r.Some? <==> a.evento && TouchesEvent(v)
    ensures r.Some? ==>
      (r.value.name == v.name && r.value.start == v.inicio
       && r.value.stop == v.fin && r.value.description == v.descripcion
       && r.value.location == v.sala
       && (r.value.partners.Some? <==> v.trabajadores.Some?))
  {
    if a.evento && TouchesEvent(v) then
      Some(EventChanges(v.name, v.inicio, v.fin, v.descripcion, v.sala,
        if v.trabajadores.Some? then Some(WorkerIds(a.trabajadores)) else None))
    else None
  }

  /** `event.write(calendar_vals)` */
  function ApplyChanges(e: CalendarEvent, c: EventChanges): CalendarEvent {
    CalendarEvent(
      c.name.GetOr(e.name), c.start.GetOr(e.start), c.stop.GetOr(e.stop),
      c.description.GetOr(e.description), c.location.GetOr(e.location),
      c.partners.GetOr(e.partners))
  }

  function ApplyUpdate(e: CalendarEvent, c: Option<EventChanges>): CalendarEvent {
    if c.Some? then ApplyChanges(e, c.value) else e
  }

  /** A write that touches one of the five fields, or does not touch the
      workers, keeps a mirrored event in step with the activity. */
  lemma EventStaysInSync(a: Activity, e: CalendarEvent, v: Vals)
    requires a.evento && Mirrors(e, a)
    requires TouchesEvent(v) || v.trabajadores.None?
    ensures Mirrors(ApplyUpdate(e, CalendarUpdate(ApplyWrite(a, v), v)), ApplyWrite(a, v))
  {
  }

  /** A write of the workers alone sends nothing to the calendar, so the
      event keeps the old partner list. */
  lemma WorkersAloneLeaveEventStale(a: Activity, e: CalendarEvent, v: Vals)
    requires a.evento && Mirrors(e, a)
    requires !TouchesEvent(v) && v.trabajadores.Some?
    requires WorkerIds(v.trabajadores.value) != WorkerIds(a.trabajadores)
    ensures CalendarUpdate(ApplyWrite(a, v), v).None?
    ensures !Mirrors(ApplyUpdate(e, CalendarUpdate(ApplyWrite(a, v), v)), ApplyWrite(a, v))
  {
  }
}

=== FILE: asistencia.dfy ===
/** Attendance records (`museo.registro.asistencia`): defaults, the two
    constraints, the fields mirrored from the activity, and the attendee
    total an activity computes from its records. */
module Asistencia {
  import opened Seqs
  import opened Dates
  import A = Actividades

  datatype GrupoEdad = De0a12 | De13a17 | De18a25 | De26a40 | De41a60 | De61Mas | Mixto

  datatype Origen = Local | Nacional | Internacional | GrupoEscolar | GrupoUniversitario | Turista | OtroOrigen

  /** One record.  `satisfaccion` is the one-decimal rating in tenths, with 0
      standing for the unset value; `actividadNombre` and `museo` are the
      stored related fields. */
  datatype Registro = Registro(
    actividad: nat,
    fecha: Date,
    asistentes: int,
    grupo: GrupoEdad,
    origen: Origen,
    satisfaccion: int,
    comentarios: string,
    actividadNombre: string,
    museo: nat)

  /** `_check_asistentes` accepts the record. */
  predicate CheckAsistentes(r: Registro) {
    r.asistentes >= 1
  }

  /** `_check_satisfaccion` accepts the record: an unset (zero) rating always,
      a set one only within one to five stars inclusive. */
  function CheckSatisfaccion(r: Registro): (ok: bool)
    ensures r.satisfaccion == 0 ==> ok
    ensures 10 <= r.satisfaccion <= 50 ==> ok
    ensures 0 < r.satisfaccion < 10 || r.satisfaccion > 50 || r.satisfaccion < 0 ==> !ok
  {
    !(r.satisfaccion != 0 && (r.satisfaccion < 10 || r.satisfaccion > 50))
  }

  /** The stored related fields agree with the linked activity. */
  predicate LinkedTo(r: Registro, a: A.Activity) {
    r.actividad == a.id && r.actividadNombre == a.name && r.museo == a.museo
  }

  /** Recomputing the related fields from the activity. */
  function Relate(r: Registro, a: A.Activity): (r': Registro)
    requires r.actividad == a.id
    ensures LinkedTo(r', a)
    ensures r'.(actividadNombre := r.actividadNombre, museo := r.museo) == r
  {
    r.(actividadNombre := a.name, museo := a.museo)
  }

  /** A new record for `a` with every default filled in: today's date, one
      attendee, mixed age group, local origin, no rating. */
  function NewRegistro(a: A.Activity, today: Date): (r: Registro)
    ensures LinkedTo(r, a) && r.fecha == today
    ensures CheckAsistentes(r) && CheckSatisfaccion(r)
  {
    Registro(a.id, today, 1, Mixto, Local, 0, "", a.name, a.museo)
  }

  // ------------------------------------------------------------------
  // `asistentes_confirmados` of an activity

  function OfActivity(id: nat): Registro -> bool {
    (r: Registro) => r.actividad == id
  }

  function AttendeesOf(r: Registro): int {
    r.asistentes
  }

  /** The sum of `asistentes` over the activity's records. */
  function Confirmados(regs: seq<Registro>, id: nat): int {
    Sum(Filter(regs, OfActivity(id)), AttendeesOf)
  }

  /** Appending a record adds its attendees to its own activity only. */
  lemma ConfirmadosAppend(regs: seq<Registro>, x: Registro, id: nat)
    ensures Confirmados(regs + [x], id)
         == Confirmados(regs, id) + (if x.actividad == id then x.asistentes else 0)
  {
    FilterConcat(regs, [x], OfActivity(id));
    assert Filter([x], OfActivity(id)) == (if x.actividad == id then [x] else []) by {
      assert [x][..0] == [];
    }
    SumConcat(Filter(regs, OfActivity(id)), Filter([x], OfActivity(id)), AttendeesOf);
    SumSingleton(x, AttendeesOf);
  }

  /** Records that pass `_check_asistentes` each add at least one attendee,
      so the total is at least the number of records, and zero exactly when
      the activity has no record. */
  lemma {:induction false} ConfirmadosAtLeastRecords(regs: seq<Registro>, id: nat)
    requires forall i | 0 <= i < |regs| :: CheckAsistentes(regs[i])
    ensures Confirmados(regs, id) >= |Filter(regs, OfActivity(id))|
    ensures Confirmados(regs, id) == 0 <==> |Filter(regs, OfActivity(id))| == 0
    decreases |regs|
  {
    if |regs| > 0 {
      var n := |regs| - 1;
      assert regs == regs[..n] + [regs[n]];
      ConfirmadosAtLeastRecords(regs[..n], id);
      ConfirmadosAppend(regs[..n], regs[n], id);
      FilterConcat(regs[..n], [regs[n]], OfActivity(id));
      assert Filter([regs[n]], OfActivity(id)) == (if regs[n].actividad == id then [regs[n]] else []) by {
        assert [regs[n]][..0] == [];
      }
    }
  }

  /** After a new record is added to an activity whose stored total is up to
      date, `_check_capacidad` still accepts it exactly when the new total
      fits the capacity. */
  lemma CapacidadAfterRegistro(regs: seq<Registro>, a: A.Activity, x: Registro)
    requires a.confirmados == Confirmados(regs, a.id) && x.actividad == a.id
    ensures var a' := a.(confirmados := Confirmados(regs + [x], a.id));
      A.CheckCapacidad(a') <==> a.confirmados + x.asistentes <= a.capacidad
  {
    ConfirmadosAppend(regs, x, a.id);
  }
}

=== FILE: busqueda.dfy ===
/** The activity search both report models run: a museum, a date window and
    optional type and state filters.  The window bounds are dates compared
    with the activities' date-time fields: the lower bound stands for
    midnight at the start of `desde` and the upper bound for the last
    instant of `hasta`, so the window holds both days whole. */
module Busqueda {
  import opened Wrappers
  import opened Seqs
  import opened Dates
  import A = Actividades

  /** The search domain; `None` for a type or state filter means all
      (`'todos'`). */
  datatype Filtros = Filtros(
    museo: nat,
    desde: Day,
    hasta: Day,
    tipo: Option<A.Tipo>,
    estado: Option<A.Estado>)

  /** The domain leaves an activity in the result.  A date-time field that
      is unset never satisfies a comparison. */
  predicate Matches(f: Filtros, a: A.Activity) {
    a.museo == f.museo
    && a.inicio.Some? && DtNotAfter(AtMidnight(f.desde), a.inicio.value)
    && a.fin.Some? && DtNotAfter(a.fin.value, AtDayEnd(f.hasta))
    && (f.tipo.None? || a.tipo == f.tipo.value)
    && (f.estado.None? || a.estado == f.estado.value)
  }

  function MatchesOf(f: Filtros): A.Activity -> bool {
    a => Matches(f, a)
  }

  /** The records the search returns, in the order of the input, which
      stands for the activity model's `_order`. */
  function Select(f: Filtros, acts: seq<A.Activity>): (r: seq<A.Activity>)
    ensures |r| <= |acts|
    ensures forall i | 0 <= i < |r| :: r[i] in acts && Matches(f, r[i])
    ensures forall i | 0 <= i < |acts| && Matches(f, acts[i]) :: acts[i] in r
    ensures forall i | 0 <= i < |r| :: r[i].inicio.Some? && r[i].fin.Some?
  {
    Filter(acts, MatchesOf(f))
  }

  /** An activity is selected exactly when it belongs to the museum, starts
      no earlier than the first instant of `desde`, ends before the day after
      `hasta` begins, and has the requested type and state. */
  lemma SelectIff(f: Filtros, acts: seq<A.Activity>, a: A.Activity)
    ensures a in Select(f, acts) <==>
      a in acts && a.museo == f.museo
      && a.inicio.Some? && Timestamp(a.inicio.value) >= Ordinal(f.desde) * 86400
      && a.fin.Some? && Timestamp(a.fin.value) < (Ordinal(f.hasta) + 1) * 86400
      && (f.tipo.None? || a.tipo == f.tipo.value)
      && (f.estado.None? || a.estado == f.estado.value)
  {
    if a.inicio.Some? {
      TimestampOrder(a.inicio.value, AtMidnight(f.desde));
    }
    if a.fin.Some? {
      TimestampOrder(a.fin.value, AtDayEnd(f.hasta));
    }
    if a in acts && Matches(f, a) {
      var i :| 0 <= i < |acts| && acts[i] == a;
    }
    if a in Select(f, acts) {
      var i :| 0 <= i < |Select(f, acts)| && Select(f, acts)[i] == a;
    }
  }

  /** A one-day window holds every activity of the museum that starts and
      ends within that day. */
  lemma SameDaySelected(f: Filtros, acts: seq<A.Activity>, a: A.Activity)
    requires f.desde == f.hasta && f.tipo.None? && f.estado.None?
    requires a in acts && a.museo == f.museo
    requires a.inicio.Some? && a.fin.Some?
    requires a.inicio.value.date == f.desde && a.fin.value.date == f.desde
    ensures a in Select(f, acts)
  {
    SelectIff(f, acts, a);
  }
}

=== FILE: convenio.dfy ===
/** Work agreements (`museo.convenio`): the date constraint, the days left
    before an agreement ends, and the daily job that marks ended agreements
    as expired. */
module Convenios {
  import opened Wrappers
  import opened Dates

  datatype Estado = Borrador | Vigente | Vencido | Cancelado | Renovado

  /** One agreement; `fin` is `None` when it has no end date. */
  datatype Convenio = Convenio(
    nombre: string,
    museo: nat,
    inicio: Day,
    fin: Option<Day>,
    estado: Estado,
    activo: bool)

  const FechasInvalidas: string := "La fecha de inicio no puede ser posterior a la fecha de fin."

  /** `_check_fechas`: an end date may not precede the start; an agreement
      without an end date always passes. */
  function CheckFechas(c: Convenio): (r: Result<(), string>)
    ensures c.fin.None? ==> r.Ok?
    ensures r.Err? ==> r.error == FechasInvalidas
  {
    if c.fin.Some? && Before(c.fin.value, c.inicio) then Err(FechasInvalidas) else Ok(())
  }

  /** An agreement with an end date passes exactly when it does not end
      before it starts. */
  lemma CheckFechasDuracion(c: Convenio)
    requires c.fin.Some?
    ensures CheckFechas(c).Ok? <==> Ordinal(c.inicio) <= Ordinal(c.fin.value)
  {
    OrdinalOrder(c.fin.value, c.inicio);
  }

  /** `dias_para_vencer`: the days from `hoy` to the end of a running
      agreement that has an end date (negative once it has passed), and 0
      for every other agreement. */
  function DiasParaVencer(c: Convenio, hoy: Day): (n: int)
    ensures c.estado != Vigente || c.fin.None? ==> n == 0
    ensures c.estado == Vigente && c.fin.Some? ==> AddDays(hoy, n) == c.fin.value
  {
    if c.fin.Some? && c.estado == Vigente then
      var n := Ordinal(c.fin.value) - Ordinal(hoy);
      OrdinalInjective(AddDays(hoy, n), c.fin.value);
      n
    else 0
  }

  /** The sign of the count tells whether the end has passed, is today, or
      is still ahead. */
  lemma DiasParaVencerSigno(c: Convenio, hoy: Day)
    requires c.estado == Vigente && c.fin.Some?
    ensures DiasParaVencer(c, hoy) < 0 <==> Before(c.fin.value, hoy)
    ensures DiasParaVencer(c, hoy) == 0 <==> c.fin.value == hoy
  {
    OrdinalOrder(c.fin.value, hoy);
  }

  // ------------------------------------------------------------------
  // `_cron_verificar_vencimientos`

  /** The job selects running, active agreements with an end date, and
      marks those whose end date is before today. */
  predicate Vence(c: Convenio, hoy: Day) {
    c.estado == Vigente && c.activo && c.fin.Some? && Before(c.fin.value, hoy)
  }

  function Marcar(c: Convenio, hoy: Day): Convenio {
    if Vence(c, hoy) then c.(estado := Vencido) else c
  }

  /** The job with the state change it intends: every agreement that has
      run out becomes `'vencido'`, nothing else changes. */
  function Cron(cs: seq<Convenio>, hoy: Day): (r: seq<Convenio>)
    ensures |r| == |cs|
    ensures forall i | 0 <= i < |cs| :: r[i].estado == Vencido <==> cs[i].estado == Vencido || Vence(cs[i], hoy)
    ensures forall i | 0 <= i < |cs| :: r[i].(estado := cs[i].estado) == cs[i]
    ensures forall i | 0 <= i < |cs| && !Vence(cs[i], hoy) :: r[i] == cs[i]
  {
    seq(|cs|, i requires 0 <= i < |cs| => Marcar(cs[i], hoy))
  }

  /** After the job no agreement is left to mark, so a second run changes
      nothing. */
  lemma CronIdempotent(cs: seq<Convenio>, hoy: Day)
    ensures forall i | 0 <= i < |cs| :: !Vence(Cron(cs, hoy)[i], hoy)
    ensures Cron(Cron(cs, hoy), hoy) == Cron(cs, hoy)
  {
    var r := Cron(cs, hoy);
    assert forall i | 0 <= i < |cs| :: !Vence(r[i], hoy) by {
      forall i | 0 <= i < |cs| ensures !Vence(r[i], hoy) {
        if Vence(cs[i], hoy) { assert r[i].estado == Vencido; }
      }
    }
  }

  /** An agreement ending today is still running after the job. */
  lemma CronKeepsToday(cs: seq<Convenio>, hoy: Day, i: nat)
    requires i < |cs| && cs[i].fin == Some(hoy)
    ensures Cron(cs, hoy)[i] == cs[i]
  {
  }

  /** A later run marks every agreement an earlier run marked. */
  lemma CronMonotone(cs: seq<Convenio>, hoy1: Day, hoy2: Day, i: nat)
    requires NotAfter(hoy1, hoy2) && i < |cs|
    requires Cron(cs, hoy1)[i].estado == Vencido
    ensures Cron(cs, hoy2)[i].estado == Vencido
  {
    if Vence(cs[i], hoy1) {
      OrdinalOrder(cs[i].fin.value, hoy1);
      OrdinalOrder(hoy2, hoy1);
      OrdinalOrder(cs[i].fin.value, hoy2);
    }
  }

  /** The `NameError` the logging call raises: the module never defines
      `_logger`. */
  const LoggerUndefined: string := "name '_logger' is not defined"

  /** The job as written: the first agreement it marks reaches the logging
      call, the `NameError` aborts the job, and the job's transaction, with
      the mark it had made, is rolled back. */
  function CronAsWritten(cs: seq<Convenio>, hoy: Day): (r: Result<seq<Convenio>, string>)
    ensures r.Ok? ==> r.value == cs
  {
    if exists i | 0 <= i < |cs| :: Vence(cs[i], hoy) then Err(LoggerUndefined) else Ok(cs)
  }

  /** The job as written fails exactly when the intended job would change
      something, so no agreement is ever marked. */
  lemma CronAsWrittenNeverMarks(cs: seq<Convenio>, hoy: Day)
    ensures CronAsWritten(cs, hoy).Err? <==> Cron(cs, hoy) != cs
    ensures CronAsWritten(cs, hoy).Ok? ==> CronAsWritten(cs, hoy).value == Cron(cs, hoy)
  {
    if exists i | 0 <= i < |cs| :: Vence(cs[i], hoy) {
      var i :| 0 <= i < |cs| && Vence(cs[i], hoy);
      assert Cron(cs, hoy)[i].estado == Vencido;
    } else {
      assert Cron(cs, hoy) == cs;
    }
  }
}

=== FILE: dates.dfy ===
/** Proleptic Gregorian calendar dates with the arithmetic of Python's
    `datetime.date`: `toordinal` (day 1 is 0001-01-01), `date + timedelta`,
    `weekday()` (Monday is 0) and `replace(...)`, which raises when the
    resulting date does not exist.  Years are unbounded integers. */
module Dates {
  import opened Wrappers

  datatype Date = Date(year: int, month: int, day: int)

  predicate IsLeap(y: int) {
    y % 4 == 0 && (y % 100 != 0 || y % 400 == 0)
  }

  function DaysInMonth(y: int, m: int): int
    requires 1 <= m <= 12
  {
    if m == 2 then (if IsLeap(y) then 29 else 28)
    else if m == 4 || m == 6 || m == 9 || m == 11 then 30
    else 31
  }

  function DaysInYear(y: int): int {
    if IsLeap(y) then 366 else 365
  }

  predicate Valid(d: Date) {
    1 <= d.month <= 12 && 1 <= d.day <= DaysInMonth(d.year, d.month)
  }

  /** `date(y, m, d)` or `replace(...)`: `None` where Python raises ValueError. */
  function MakeDate(y: int, m: int, d: int): (r: Option<Date>)
    ensures r.Some? <==> 1 <= m <= 12 && 1 <= d <= DaysInMonth(y, m)
    ensures r.Some? ==> Valid(r.value) && r.value == Date(y, m, d)
  {
    if 1 <= m <= 12 && 1 <= d <= DaysInMonth(y, m) then Some(Date(y, m, d)) else None
  }

  /** Days of year `y` before the first day of month `m`. */
  function DaysBeforeMonth(y: int, m: int): int
    requires 1 <= m <= 12
  {
    var leap := if IsLeap(y) then 1 else 0;
    if m == 1 then 0
    else if m == 2 then 31
    else if m == 3 then 59 + leap
    else if m == 4 then 90 + leap
    else if m == 5 then 120 + leap
    else if m == 6 then 151 + leap
    else if m == 7 then 181 + leap
    else if m == 8 then 212 + leap
    else if m == 9 then 243 + leap
    else if m == 10 then 273 + leap
    else if m == 11 then 304 + leap
    else 334 + leap
  }

  /** Days before January 1st of year `y`, counted from 0001-01-01. */
  function DaysBeforeYear(y: int): int {
    var p := y - 1;
    365 * p + p / 4 - p / 100 + p / 400
  }

  /** `date.toordinal()` */
  function Ordinal(d: Date): int
    requires 1 <= d.month <= 12
  {
    DaysBeforeYear(d.year) + DaysBeforeMonth(d.year, d.month) + d.day
  }

  /** `(b - a).days` */
  function DaysBetween(a: Date, b: Date): int
    requires 1 <= a.month <= 12 && 1 <= b.month <= 12
  {
    Ordinal(b) - Ordinal(a)
  }

  // ------------------------------------------------------------------
  // Calendar facts behind the ordinal

  lemma MonthStep(y: int, m: int)
    requires 1 <= m < 12
    ensures DaysBeforeMonth(y, m + 1) == DaysBeforeMonth(y, m) + DaysInMonth(y, m)
  {
  }

  lemma MonthBound(y: int, m: int)
    requires 1 <= m <= 12
    ensures DaysBeforeMonth(y, m) + DaysInMonth(y, m) <= DaysInYear(y)
  {
  }

  lemma MonthMonotone(y: int, m1: int, m2: int)
    requires 1 <= m1 < m2 <= 12
    ensures DaysBeforeMonth(y, m1) + DaysInMonth(y, m1) <= DaysBeforeMonth(y, m2)
  {
  }

  lemma DivStep(y: int, c: int)
    requires c == 4 || c == 100 || c == 400
    ensures y / c - (y - 1) / c == (if y % c == 0 then 1 else 0)
  {
    var q, r := y / c, y % c;
    assert y == c * q + r && 0 <= r < c;
    if r == 0 {
      assert y - 1 == c * (q - 1) + (c - 1);
    } else {
      assert y - 1 == c * q + (r - 1);
    }
  }

  lemma YearStep(y: int)
    ensures DaysBeforeYear(y + 1) == DaysBeforeYear(y) + DaysInYear(y)
  {
    DivStep(y, 4);
    DivStep(y, 100);
    DivStep(y, 400);
    if y % 400 == 0 {
      Multiplo400(y);
    }
    if y % 100 == 0 {
      Multiplo100(y);
    }
  }

  /** A multiple of 400 is a multiple of 100. */
  lemma Multiplo400(y: int)
    requires y % 400 == 0
    ensures y % 100 == 0
  {
    var k := y / 400;
    assert y == 100 * (4 * k);
  }

  /** A multiple of 100 is a multiple of 4. */
  lemma Multiplo100(y: int)
    requires y % 100 == 0
    ensures y % 4 == 0
  {
    var k := y / 100;
    assert y == 4 * (25 * k);
  }


  lemma {:induction false} YearMonotone(y1: int, y2: int)
    requires y1 < y2
    ensures DaysBeforeYear(y1) + DaysInYear(y1) <= DaysBeforeYear(y2)
    decreases y2 - y1
  {
    YearStep(y1);
    if y1 + 1 < y2 {
      YearMonotone(y1 + 1, y2);
    }
  }

  /** The ordinal is strictly increasing in calendar order. */
  lemma OrdinalMonotone(a: Date, b: Date)
    requires Valid(a) && Valid(b) && Before(a, b)
    ensures Ordinal(a) < Ordinal(b)
  {
    if a.year < b.year {
      MonthBound(a.year, a.month);
      YearMonotone(a.year, b.year);
    } else if a.month < b.month {
      MonthMonotone(a.year, a.month, b.month);
    }
  }

  /** Calendar order and ordinal order agree, and the ordinal is injective. */
  lemma OrdinalOrder(a: Date, b: Date)
    requires Valid(a) && Valid(b)
    ensures Before(a, b) <==> Ordinal(a) < Ordinal(b)
    ensures a == b <==> Ordinal(a) == Ordinal(b)
  {
    if Before(a, b) {
      OrdinalMonotone(a, b);
    } else if Before(b, a) {
      OrdinalMonotone(b, a);
    }
  }

  lemma OrdinalInjective(a: Date, b: Date)
    requires Valid(a) && Valid(b) && Ordinal(a) == Ordinal(b)
    ensures a == b
  {
    OrdinalOrder(a, b);
  }

  // ------------------------------------------------------------------
  // Order (Python compares dates as (year, month, day) tuples)

  predicate Before(a: Date, b: Date) {
    a.year < b.year
    || (a.year == b.year && (a.month < b.month || (a.month == b.month && a.day < b.day)))
  }

  /** `a <= b` */
  predicate NotAfter(a: Date, b: Date) {
    !Before(b, a)
  }

  // ------------------------------------------------------------------
  // Day steps and timedelta arithmetic

  function Next(d: Date): (r: Date)
    requires Valid(d)
    ensures Valid(r) && Ordinal(r) == Ordinal(d) + 1
  {
    if d.day < DaysInMonth(d.year, d.month) then Date(d.year, d.month, d.day + 1)
    else if d.month < 12 then MonthStep(d.year, d.month); Date(d.year, d.month + 1, 1)
    else YearStep(d.year); Date(d.year + 1, 1, 1)
  }

  function Prev(d: Date): (r: Date)
    requires Valid(d)
    ensures Valid(r) && Ordinal(r) == Ordinal(d) - 1
  {
    if d.day > 1 then Date(d.year, d.month, d.day - 1)
    else if d.month > 1 then
      MonthStep(d.year, d.month - 1);
      Date(d.year, d.month - 1, DaysInMonth(d.year, d.month - 1))
    else YearStep(d.year - 1); Date(d.year - 1, 12, 31)
  }

  /** `d + timedelta(days=n)`; the result is the valid date `n` days later. */
  function AddDays(d: Date, n: int): (r: Date)
    requires Valid(d)
    ensures Valid(r) && Ordinal(r) == Ordinal(d) + n
    decreases if n < 0 then -n else n
  {
    if n == 0 then d
    else if n > 0 then AddDays(Next(d), n - 1)
    else AddDays(Prev(d), n + 1)
  }

  /** `d.weekday()`: 0 is Monday, 6 is Sunday. */
  function Weekday(d: Date): int
    requires 1 <= d.month <= 12
  {
    (Ordinal(d) + 6) % 7
  }

  // ------------------------------------------------------------------
  // Months

  /** `d.replace(day=1)`, which always exists. */
  function FirstOfMonth(d: Date): (r: Date)
    requires Valid(d)
    ensures Valid(r) && r.year == d.year && r.month == d.month && r.day == 1
  {
    Date(d.year, d.month, 1)
  }

  function LastOfMonth(y: int, m: int): (r: Date)
    requires 1 <= m <= 12
    ensures Valid(r)
  {
    Date(y, m, DaysInMonth(y, m))
  }

  /** First day of the month after (y, m). */
  function FirstOfNextMonth(y: int, m: int): (r: Date)
    requires 1 <= m <= 12
    ensures Valid(r) && r.day == 1
  {
    if m < 12 then Date(y, m + 1, 1) else Date(y + 1, 1, 1)
  }

  lemma FirstOfNextMonthOrdinal(y: int, m: int)
    requires 1 <= m <= 12
    ensures Ordinal(FirstOfNextMonth(y, m)) == Ordinal(Date(y, m, 1)) + DaysInMonth(y, m)
    ensures Ordinal(FirstOfNextMonth(y, m)) == Ordinal(LastOfMonth(y, m)) + 1
  {
    if m < 12 {
      MonthStep(y, m);
    } else {
      YearStep(y);
    }
  }

  /** The "+32 days" idiom of the source:
      `(first + timedelta(days=32)).replace(day=1) - timedelta(days=1)` is the
      last day of the month of `first`, for every month of every year. */
  lemma {:induction false} PlusThirtyTwoIsLastDay(y: int, m: int)
    requires 1 <= m <= 12
    ensures AddDays(FirstOfMonth(AddDays(Date(y, m, 1), 32)), -1) == LastOfMonth(y, m)
  {
    var f := Date(y, m, 1);
    var n := FirstOfNextMonth(y, m);
    FirstOfNextMonthOrdinal(y, m);
    var e := AddDays(f, 32);
    var k := 32 - DaysInMonth(y, m);
    var c := Date(n.year, n.month, 1 + k);
    assert Valid(c) && Ordinal(c) == Ordinal(n) + k;
    OrdinalInjective(e, c);
    assert FirstOfMonth(e) == n;
    OrdinalInjective(AddDays(n, -1), LastOfMonth(y, m));
  }

  /** First month of the quarter of month `m`: 1, 4, 7 or 10. */
  function QuarterStart(m: int): (r: int)
    requires 1 <= m <= 12
    ensures r in {1, 4, 7, 10} && r <= m < r + 3
  {
    (m - 1) / 3 * 3 + 1
  }

  /** The (year, month) before (y, m); before January comes December of
      the previous year. */
  function PrevMonth(y: int, m: int): (r: (int, int))
    requires 1 <= m <= 12
    ensures 1 <= r.1 <= 12
    ensures FirstOfNextMonth(r.0, r.1) == Date(y, m, 1)
  {
    if m == 1 then (y - 1, 12) else (y, m - 1)
  }

  /** `first - timedelta(days=1)` is the last day of the previous month, and
      in January that month is December of the previous year. */
  lemma DayBeforeFirstIsLastOfPreviousMonth(y: int, m: int)
    requires 1 <= m <= 12
    ensures var py := if m == 1 then y - 1 else y;
            var pm := if m == 1 then 12 else m - 1;
            AddDays(Date(y, m, 1), -1) == LastOfMonth(py, pm)
  {
    var py := if m == 1 then y - 1 else y;
    var pm := if m == 1 then 12 else m - 1;
    FirstOfNextMonthOrdinal(py, pm);
    assert FirstOfNextMonth(py, pm) == Date(y, m, 1);
    OrdinalInjective(AddDays(Date(y, m, 1), -1), LastOfMonth(py, pm));
  }

  /** Ordinals within one month are consecutive. */
  lemma SameMonthOrdinal(y: int, m: int, d1: int, d2: int)
    requires 1 <= m <= 12
    ensures Ordinal(Date(y, m, d2)) - Ordinal(Date(y, m, d1)) == d2 - d1
  {
  }

  // ------------------------------------------------------------------
  // Date-times at one-second resolution (Odoo stores whole seconds)

  datatype DateTime = DateTime(date: Date, secs: int)

  predicate ValidDT(t: DateTime) {
    Valid(t.date) && 0 <= t.secs < 86400
  }

  /** Seconds since 0001-01-01 00:00 minus one day: differences of
      timestamps are `(b - a).total_seconds()`. */
  function Timestamp(t: DateTime): int
    requires 1 <= t.date.month <= 12
  {
    Ordinal(t.date) * 86400 + t.secs
  }

  predicate DtBefore(a: DateTime, b: DateTime) {
    Before(a.date, b.date) || (a.date == b.date && a.secs < b.secs)
  }

  predicate DtNotAfter(a: DateTime, b: DateTime) {
    !DtBefore(b, a)
  }

  /** A `Date` compared with a `Datetime` column in a search domain by `<`
      or `>=` stands for midnight at the start of that day. */
  function AtMidnight(d: Date): DateTime {
    DateTime(d, 0)
  }

  /** A `Date` compared by `<=` or `>` stands for the last instant of that
      day (`time.max`); at whole seconds that is 23:59:59. */
  function AtDayEnd(d: Date): DateTime {
    DateTime(d, 86399)
  }

  lemma TimestampOrder(a: DateTime, b: DateTime)
    requires ValidDT(a) && ValidDT(b)
    ensures DtBefore(a, b) <==> Timestamp(a) < Timestamp(b)
    ensures a == b <==> Timestamp(a) == Timestamp(b)
  {
    OrdinalOrder(a.date, b.date);
    if Ordinal(a.date) < Ordinal(b.date) {
      assert Ordinal(a.date) * 86400 + 86400 <= Ordinal(b.date) * 86400;
    } else if Ordinal(b.date) < Ordinal(a.date) {
      assert Ordinal(b.date) * 86400 + 86400 <= Ordinal(a.date) * 86400;
    }
  }

  /** A stored calendar day. */
  type Day = d: Date | Valid(d) witness Date(1, 1, 1)

  /** A stored date-time: a valid calendar day and a second within it. */
  type Moment = t: DateTime | ValidDT(t) witness DateTime(Date(1, 1, 1), 0)

  /** `t + timedelta(seconds=n)` */
  function AddSeconds(t: DateTime, n: int): (r: DateTime)
    requires ValidDT(t)
    ensures ValidDT(r)
    ensures Timestamp(r) == Timestamp(t) + n
  {
    var total := t.secs + n;
    assert total == (total / 86400) * 86400 + total % 86400;
    DateTime(AddDays(t.date, total / 86400), total % 86400)
  }

  /** The gap between two moments, added back to the first, gives the second. */
  lemma AddSecondsDifference(a: DateTime, b: DateTime)
    requires ValidDT(a) && ValidDT(b)
    ensures AddSeconds(a, Timestamp(b) - Timestamp(a)) == b
  {
    var r := AddSeconds(a, Timestamp(b) - Timestamp(a));
    TimestampOrder(r, b);
  }
}

=== FILE: dicts.dfy ===
/** Python dictionaries as insertion-ordered association lists.  `Put` is
    `d[k] = v`: it overwrites the value of an existing key IN PLACE (the key
    keeps its position) and appends a new key at the end, which is what makes
    `dict.values()` and `dict.items()` come out in first-insertion order. */
module Dicts {
  import opened Seqs

  type Dict<K, V> = seq<(K, V)>

  predicate NoDupKeys<K(==), V>(d: Dict<K, V>) {
    forall i, j | 0 <= i < j < |d| :: d[i].0 != d[j].0
  }

  function KeySet<K, V>(d: Dict<K, V>): set<K> {
    set i | 0 <= i < |d| :: d[i].0
  }

  predicate HasKey<K(==), V>(d: Dict<K, V>, k: K) {
    exists i | 0 <= i < |d| :: d[i].0 == k
  }

  /** Position of `k` in `d`, or -1 when `k` is absent. */
  function Find<K(==), V>(d: Dict<K, V>, k: K): (i: int)
    ensures -1 <= i < |d|
    ensures 0 <= i ==> d[i].0 == k && forall j | 0 <= j < i :: d[j].0 != k
    ensures i == -1 <==> !HasKey(d, k)
    decreases |d|
  {
    if |d| == 0 then -1
    else if d[0].0 == k then 0
    else
      var r := Find(d[1..], k);
      assert forall j | 1 <= j < |d| :: d[j] == d[1..][j - 1];
      if r < 0 then -1 else r + 1
  }

  /** `d[k]` */
  function Get<K(==), V>(d: Dict<K, V>, k: K): V
    requires HasKey(d, k)
  {
    d[Find(d, k)].1
  }

  /** `d.get(k, default)` */
  function GetOr<K(==), V>(d: Dict<K, V>, k: K, default: V): V {
    if HasKey(d, k) then Get(d, k) else default
  }

  /** `d[k] = v` */
  function Put<K(==), V>(d: Dict<K, V>, k: K, v: V): (r: Dict<K, V>)
    ensures HasKey(d, k) ==> |r| == |d|
    ensures !HasKey(d, k) ==> |r| == |d| + 1
    ensures KeySet(r) == KeySet(d) + {k}
    ensures forall i | 0 <= i < |d| :: r[i].0 == d[i].0
    ensures !HasKey(d, k) ==> r[|d|] == (k, v)
  {
    var i := Find(d, k);
    if 0 <= i then
      var r := d[i := (k, v)];
      assert KeySet(r) == KeySet(d) + {k} by {
        forall x | x in KeySet(r) ensures x in KeySet(d) + {k} {
          var j :| 0 <= j < |r| && r[j].0 == x;
        }
        forall x | x in KeySet(d) + {k} ensures x in KeySet(r) {
          if x != k {
            var j :| 0 <= j < |d| && d[j].0 == x;
            assert r[j].0 == x;
          } else {
            assert r[i].0 == k;
          }
        }
      }
      r
    else
      var r := d + [(k, v)];
      assert KeySet(r) == KeySet(d) + {k} by {
        forall x | x in KeySet(r) ensures x in KeySet(d) + {k} {
          var j :| 0 <= j < |r| && r[j].0 == x;
          if j < |d| { assert d[j].0 == x; }
        }
        forall x | x in KeySet(d) + {k} ensures x in KeySet(r) {
          if x != k {
            var j :| 0 <= j < |d| && d[j].0 == x;
            assert r[j].0 == x;
          } else {
            assert r[|d|].0 == k;
          }
        }
      }
      r
  }

  lemma HasKeyIffInKeySet<K, V>(d: Dict<K, V>, k: K)
    ensures HasKey(d, k) <==> k in KeySet(d)
  {
    if k in KeySet(d) {
      var j :| 0 <= j < |d| && d[j].0 == k;
    }
  }

  lemma PutNoDup<K, V>(d: Dict<K, V>, k: K, v: V)
    requires NoDupKeys(d)
    ensures NoDupKeys(Put(d, k, v))
  {
  }

  lemma GetPutSame<K, V>(d: Dict<K, V>, k: K, v: V)
    ensures HasKey(Put(d, k, v), k) && Get(Put(d, k, v), k) == v
  {
    var r := Put(d, k, v);
    HasKeyIffInKeySet(r, k);
    var i := Find(d, k);
    if i < 0 {
      assert r[|d|].0 == k;
      assert Find(r, k) == |d|;
    } else {
      assert Find(r, k) == i;
    }
  }

  lemma GetPutOther<K, V>(d: Dict<K, V>, k: K, v: V, k': K)
    requires k' != k
    ensures HasKey(Put(d, k, v), k') <==> HasKey(d, k')
    ensures HasKey(d, k') ==> Get(Put(d, k, v), k') == Get(d, k')
  {
    var r := Put(d, k, v);
    HasKeyIffInKeySet(r, k');
    HasKeyIffInKeySet(d, k');
    if HasKey(d, k') {
      var j := Find(d, k');
      assert r[j] == d[j];
      assert Find(r, k') == j;
    }
  }

  /** The values of `d` in order, `list(d.values())`. */
  function Values<K, V>(d: Dict<K, V>): (r: seq<V>)
    ensures |r| == |d|
    ensures forall i | 0 <= i < |d| :: r[i] == d[i].1
  {
    seq(|d|, i requires 0 <= i < |d| => d[i].1)
  }

  /** `Put` changes a sum over the values by exactly the replaced amount. */
  lemma {:induction false} SumValuesPut<K, V>(d: Dict<K, V>, k: K, v: V, f: V -> int)
    requires NoDupKeys(d)
    ensures Sum(Values(Put(d, k, v)), f)
         == Sum(Values(d), f) - (if HasKey(d, k) then f(Get(d, k)) else 0) + f(v)
  {
    var i := Find(d, k);
    if 0 <= i {
      SumValuesUpdate(Values(d), i, v, f);
      assert Values(Put(d, k, v)) == Values(d)[i := v];
    } else {
      assert Values(Put(d, k, v)) == Values(d) + [v];
      SumConcat(Values(d), [v], f);
      SumSingleton(v, f);
    }
  }

  lemma {:induction false} SumValuesUpdate<V>(s: seq<V>, i: nat, v: V, f: V -> int)
    requires i < |s|
    ensures Sum(s[i := v], f) == Sum(s, f) - f(s[i]) + f(v)
    decreases |s|
  {
    var n := |s| - 1;
    if i < n {
      SumValuesUpdate(s[..n], i, v, f);
      assert s[i := v][..n] == s[..n][i := v];
    } else {
      assert s[i := v][..n] == s[..n];
    }
  }

  /** Without duplicate keys there are as many distinct keys as entries. */
  lemma {:induction false} KeyCount<K, V>(d: Dict<K, V>)
    requires NoDupKeys(d)
    ensures |KeySet(d)| == |d|
    decreases |d|
  {
    if |d| > 0 {
      var n := |d| - 1;
      var d' := d[..n];
      KeyCount(d');
      assert KeySet(d) == KeySet(d') + {d[n].0} by {
        forall x | x in KeySet(d) ensures x in KeySet(d') + {d[n].0} {
          var i :| 0 <= i < |d| && d[i].0 == x;
          if i < n { assert d'[i] == d[i]; }
        }
        forall x | x in KeySet(d') ensures x in KeySet(d) {
          var i :| 0 <= i < |d'| && d'[i].0 == x;
          assert d[i] == d'[i];
        }
      }
      assert d[n].0 !in KeySet(d');
    }
  }

  /** `for k, v in d.items(): if keep(k): r[g(k)] = v`: entries whose new
      keys coincide collapse onto one key, holding the last value. */
  function Rekey<K(==), V>(d: Dict<K, V>, g: K -> K, keep: K -> bool): (r: Dict<K, V>)
    ensures NoDupKeys(r)
    ensures KeySet(r) == set i | 0 <= i < |d| && keep(d[i].0) :: g(d[i].0)
    decreases |d|
  {
    if |d| == 0 then []
    else
      var n := |d| - 1;
      var r0 := Rekey(d[..n], g, keep);
      assert forall i | 0 <= i < n :: d[..n][i] == d[i];
      var keys := set i | 0 <= i < |d| && keep(d[i].0) :: g(d[i].0);
      var keys0 := set i | 0 <= i < n && keep(d[i].0) :: g(d[i].0);
      assert KeySet(r0) == keys0;
      if keep(d[n].0) then
        PutNoDup(r0, g(d[n].0), d[n].1);
        assert keys == keys0 + {g(d[n].0)};
        Put(r0, g(d[n].0), d[n].1)
      else
        assert keys == keys0;
        r0
  }

  /** `{k: g(v) for k, v in d.items()}`: same keys in the same order. */
  function Project<K, V, W>(d: Dict<K, V>, g: V -> W): (r: Dict<K, W>)
    ensures |r| == |d|
    ensures forall i | 0 <= i < |d| :: r[i] == (d[i].0, g(d[i].1))
  {
    seq(|d|, i requires 0 <= i < |d| => (d[i].0, g(d[i].1)))
  }

  /** A lookup depends on the keys alone. */
  lemma FindProject<K, V, W>(d: Dict<K, V>, g: V -> W, k: K)
    ensures Find(Project(d, g), k) == Find(d, k)
  {
    var e := Project(d, g);
    if HasKey(d, k) {
      var j :| 0 <= j < |d| && d[j].0 == k;
      assert e[j].0 == k;
    }
    if HasKey(e, k) {
      var j :| 0 <= j < |e| && e[j].0 == k;
      assert d[j].0 == k;
    }
  }

  lemma ProjectGetOr<K, V, W>(d: Dict<K, V>, g: V -> W, k: K, default: V)
    ensures GetOr(Project(d, g), k, g(default)) == g(GetOr(d, k, default))
  {
    FindProject(d, g, k);
  }

  /** Projecting commutes with `Put`. */
  lemma ProjectPut<K, V, W>(d: Dict<K, V>, g: V -> W, k: K, v: V)
    ensures Project(Put(d, k, v), g) == Put(Project(d, g), k, g(v))
  {
    FindProject(d, g, k);
    var i := Find(d, k);
    var a, b := Project(Put(d, k, v), g), Put(Project(d, g), k, g(v));
    if 0 <= i {
      assert a == Project(d, g)[i := (k, g(v))];
    } else {
      assert a == Project(d, g) + [(k, g(v))];
    }
  }

  lemma ProjectKeys<K, V, W>(d: Dict<K, V>, g: V -> W)
    ensures KeySet(Project(d, g)) == KeySet(d)
  {
    var e := Project(d, g);
    forall x | x in KeySet(e) ensures x in KeySet(d) {
      var j :| 0 <= j < |e| && e[j].0 == x;
      assert d[j].0 == x;
    }
    forall x | x in KeySet(d) ensures x in KeySet(e) {
      var j :| 0 <= j < |d| && d[j].0 == x;
      assert e[j].0 == x;
    }
  }
}

=== FILE: galeria.dfy ===
/** The museum photo gallery (`museo.museo.galeria`): the rule that a museum
    has one active primary photo, the action that makes a photo primary, and
    the copy of a primary photo's image to its museum on create and write. */
module Galeria {
  import opened Wrappers

  /** An image; the empty string stands for a photo without one. */
  type Imagen = string

  datatype Foto = Foto(id: nat, museo: nat, imagen: Imagen, principal: bool, activa: bool)

  /** The photos in store order, and each museum's `imagen_principal`. */
  datatype Galeria = Galeria(fotos: seq<Foto>, imagenes: map<nat, Imagen>)

  const SoloUna: string := "Solo puede haber una imagen principal por museo. Existen otras im\U{E1}genes marcadas como principales."

  /** `g` is one of the records the constraint's search finds for `f`: an
      active primary photo of the same museum that is another record. */
  predicate OtraPrincipal(f: Foto, g: Foto) {
    g.museo == f.museo && g.principal && g.id != f.id && g.activa
  }

  predicate HayOtraPrincipal(fotos: seq<Foto>, f: Foto) {
    exists j | 0 <= j < |fotos| :: OtraPrincipal(f, fotos[j])
  }

  predicate ActivaPrincipal(f: Foto, m: nat) {
    f.museo == m && f.activa && f.principal
  }

  /** All active primary photos of museum `m` are one record. */
  predicate Unica(fotos: seq<Foto>, m: nat) {
    forall j, k | 0 <= j < |fotos| && 0 <= k < |fotos| && ActivaPrincipal(fotos[j], m) && ActivaPrincipal(fotos[k], m) ::
      fotos[j].id == fotos[k].id
  }

  /** Every index of `sel` names a photo. */
  predicate Dentro(sel: seq<nat>, n: nat) {
    forall k | 0 <= k < |sel| :: sel[k] < n
  }

  // ------------------------------------------------------------------
  // `_check_imagen_principal`

  /** The constraint for one photo `f`, checked against the stored photos:
      a primary photo fails when another active primary photo of its museum
      exists. */
  function CheckPrincipal(fotos: seq<Foto>, f: Foto): (r: Result<(), string>)
    ensures r.Err? ==> r.error == SoloUna
    ensures r.Ok? <==> !f.principal || forall j | 0 <= j < |fotos| :: !OtraPrincipal(f, fotos[j])
  {
    if f.principal && HayOtraPrincipal(fotos, f) then Err(SoloUna) else Ok(())
  }

  /** The constraint over the written records `sel`, in order. */
  function Comprobar(fotos: seq<Foto>, sel: seq<nat>): (r: Result<(), string>)
    requires Dentro(sel, |fotos|)
    ensures r.Err? ==> r.error == SoloUna
    ensures r.Ok? <==> forall k | 0 <= k < |sel| :: CheckPrincipal(fotos, fotos[sel[k]]).Ok?
  {
    if |sel| == 0 then Ok(())
    else
      match CheckPrincipal(fotos, fotos[sel[0]])
      case Err(e) => Err(e)
      case Ok(_) => Comprobar(fotos, sel[1..])
  }

  // ------------------------------------------------------------------
  // `create`

  /** Stores the new photo `f`; the constraint runs with `f` stored, then a
      primary photo that has an image copies it to its museum. */
  function Create(g: Galeria, f: Foto): (r: Result<Galeria, string>)
    ensures r.Err? <==> f.principal && HayOtraPrincipal(g.fotos, f)
    ensures r.Err? ==> r.error == SoloUna
    ensures r.Ok? ==> r.value.fotos == g.fotos + [f]
    ensures r.Ok? ==> forall m | m != f.museo ::
      (m in r.value.imagenes <==> m in g.imagenes) && (m in g.imagenes ==> r.value.imagenes[m] == g.imagenes[m])
    ensures r.Ok? && f.principal && f.imagen != "" ==> f.museo in r.value.imagenes && r.value.imagenes[f.museo] == f.imagen
    ensures r.Ok? && !(f.principal && f.imagen != "") ==> r.value.imagenes == g.imagenes
  {
    var fotos := g.fotos + [f];
    match CheckPrincipal(fotos, f)
    case Err(e) =>
      assert HayOtraPrincipal(g.fotos, f);
      Err(e)
    case Ok(_) =>
      assert !f.principal || forall j | 0 <= j < |g.fotos| :: !OtraPrincipal(f, g.fotos[j]) by {
        forall j | 0 <= j < |g.fotos| ensures fotos[j] == g.fotos[j] { }
      }
      Ok(Galeria(fotos, if f.principal && f.imagen != "" then g.imagenes[f.museo := f.imagen] else g.imagenes))
  }

  /** A successful create keeps a museum's active primary photo unique. */
  lemma CreateUnica(g: Galeria, f: Foto, m: nat)
    requires Unica(g.fotos, m) && Create(g, f).Ok?
    ensures Unica(Create(g, f).value.fotos, m)
  {
    var fotos := Create(g, f).value.fotos;
    var n := |g.fotos|;
    forall j, k | 0 <= j < |fotos| && 0 <= k < |fotos| && ActivaPrincipal(fotos[j], m) && ActivaPrincipal(fotos[k], m)
      ensures fotos[j].id == fotos[k].id
    {
      if j == n && k < n {
        assert !OtraPrincipal(f, g.fotos[k]);
      } else if k == n && j < n {
        assert !OtraPrincipal(f, g.fotos[j]);
      }
    }
  }

  // ------------------------------------------------------------------
  // `write`

  /** The written values: `None` for a field not among them. */
  datatype Vals = Vals(principal: Option<bool>, imagen: Option<Imagen>, activa: Option<bool>, museo: Option<nat>)

  function Aplicar(f: Foto, vals: Vals): Foto {
    f.(principal := vals.principal.GetOr(f.principal), imagen := vals.imagen.GetOr(f.imagen),
       activa := vals.activa.GetOr(f.activa), museo := vals.museo.GetOr(f.museo))
  }

  /** The constraint as declared watches only the primary flag. */
  predicate VigiladoAsWritten(vals: Vals) {
    vals.principal.Some?
  }

  /** The fields on which the uniqueness of the primary photo depends: the
      flag, the archive flag and the museum. */
  predicate Vigilado(vals: Vals) {
    vals.principal.Some? || vals.activa.Some? || vals.museo.Some?
  }

  /** The photos after the values are stored on the records `sel`. */
  function Escribir(fotos: seq<Foto>, sel: seq<nat>, vals: Vals): (r: seq<Foto>)
    ensures |r| == |fotos|
    ensures forall j | 0 <= j < |fotos| :: r[j] == if j in sel then Aplicar(fotos[j], vals) else fotos[j]
  {
    seq(|fotos|, j requires 0 <= j < |fotos| => if j in sel then Aplicar(fotos[j], vals) else fotos[j])
  }

  /** Some written record is primary and belongs to museum `m`. */
  predicate Sincroniza(fotos: seq<Foto>, sel: seq<nat>, m: nat)
    requires Dentro(sel, |fotos|)
  {
    exists k | 0 <= k < |sel| :: fotos[sel[k]].principal && fotos[sel[k]].museo == m
  }

  /** The write hook's loop: each written primary record, in order, copies
      its image to its museum; a museum ends with the image of one of its
      written primary records. */
  function Sincronizar(fotos: seq<Foto>, sel: seq<nat>, imagenes: map<nat, Imagen>): (r: map<nat, Imagen>)
    requires Dentro(sel, |fotos|)
    ensures forall m :: m in r <==> m in imagenes || Sincroniza(fotos, sel, m)
    ensures forall m | m in imagenes && !Sincroniza(fotos, sel, m) :: r[m] == imagenes[m]
    ensures forall m | m in r && Sincroniza(fotos, sel, m) :: exists k | 0 <= k < |sel| ::
      fotos[sel[k]].principal && fotos[sel[k]].museo == m && r[m] == fotos[sel[k]].imagen
    decreases |sel|
  {
    if |sel| == 0 then imagenes
    else
      var pre := sel[..|sel| - 1];
      var prev := Sincronizar(fotos, pre, imagenes);
      var k := |sel| - 1;
      var f := fotos[sel[k]];
      forall m ensures Sincroniza(fotos, sel, m) <==> Sincroniza(fotos, pre, m) || (f.principal && f.museo == m) {
        SincronizaSnoc(fotos, sel, m);
      }
      forall m | m in prev && Sincroniza(fotos, pre, m)
        ensures exists i | 0 <= i < |sel| :: fotos[sel[i]].principal && fotos[sel[i]].museo == m && prev[m] == fotos[sel[i]].imagen
      {
        ImagenDePrefijo(fotos, sel, m, prev[m]);
      }
      if f.principal then prev[f.museo := f.imagen] else prev
  }

  /** A museum is synchronised by `sel` exactly when it is by all but the
      last record or by the last one. */
  lemma SincronizaSnoc(fotos: seq<Foto>, sel: seq<nat>, m: nat)
    requires Dentro(sel, |fotos|) && |sel| > 0
    ensures var f := fotos[sel[|sel| - 1]];
      Sincroniza(fotos, sel, m) <==> Sincroniza(fotos, sel[..|sel| - 1], m) || (f.principal && f.museo == m)
  {
    var pre := sel[..|sel| - 1];
    if Sincroniza(fotos, pre, m) {
      var i :| 0 <= i < |pre| && fotos[pre[i]].principal && fotos[pre[i]].museo == m;
      assert sel[i] == pre[i];
    }
    var f := fotos[sel[|sel| - 1]];
    if Sincroniza(fotos, sel, m) && !(f.principal && f.museo == m) {
      var i :| 0 <= i < |sel| && fotos[sel[i]].principal && fotos[sel[i]].museo == m;
      assert i < |pre| && pre[i] == sel[i];
    }
  }

  /** An image taken from a written primary record among all but the last
      is taken from one of `sel`. */
  lemma ImagenDePrefijo(fotos: seq<Foto>, sel: seq<nat>, m: nat, img: Imagen)
    requires Dentro(sel, |fotos|) && |sel| > 0
    requires var pre := sel[..|sel| - 1];
      exists i | 0 <= i < |pre| :: fotos[pre[i]].principal && fotos[pre[i]].museo == m && img == fotos[pre[i]].imagen
    ensures exists i | 0 <= i < |sel| :: fotos[sel[i]].principal && fotos[sel[i]].museo == m && img == fotos[sel[i]].imagen
  {
    var pre := sel[..|sel| - 1];
    var i :| 0 <= i < |pre| && fotos[pre[i]].principal && fotos[pre[i]].museo == m && img == fotos[pre[i]].imagen;
    assert sel[i] == pre[i];
  }

  /** The write as declared: the constraint runs on the written records
      only when the primary flag is among the values, so unarchiving a
      primary photo or moving one to another museum is never checked. */
  function WriteAsWritten(g: Galeria, sel: seq<nat>, vals: Vals): (r: Result<Galeria, string>)
    requires Dentro(sel, |g.fotos|)
    ensures var fotos := Escribir(g.fotos, sel, vals);
      && (r.Err? <==>
            VigiladoAsWritten(vals) &&
            exists k | 0 <= k < |sel| :: fotos[sel[k]].principal && HayOtraPrincipal(fotos, fotos[sel[k]]))
      && (r.Ok? ==> r.value.fotos == fotos)
  {
    var fotos := Escribir(g.fotos, sel, vals);
    var check := if VigiladoAsWritten(vals) then Comprobar(fotos, sel) else Ok(());
    if check.Err? then
      Err(check.error)
    else
      Ok(Galeria(fotos, if vals.imagen.Some? then Sincronizar(fotos, sel, g.imagenes) else g.imagenes))
  }

  /** Unarchiving the second primary photo of a museum passes the declared
      constraint and leaves the museum with two active primary photos; the
      corrected write refuses it. */
  lemma WriteAsWrittenDuplica()
    ensures var g := Galeria([Foto(1, 7, "", true, true), Foto(2, 7, "", true, false)], map[]);
      var vals := Vals(None, None, Some(true), None);
      && Unica(g.fotos, 7)
      && WriteAsWritten(g, [1], vals).Ok?
      && !Unica(WriteAsWritten(g, [1], vals).value.fotos, 7)
      && Write(g, [1], vals) == Err(SoloUna)
  {
    var g := Galeria([Foto(1, 7, "", true, true), Foto(2, 7, "", true, false)], map[]);
    var vals := Vals(None, None, Some(true), None);
    var fotos := Escribir(g.fotos, [1], vals);
    assert fotos[1] == Foto(2, 7, "", true, true);
    assert OtraPrincipal(fotos[1], fotos[0]);
    assert ActivaPrincipal(fotos[0], 7) && ActivaPrincipal(fotos[1], 7);
  }

  /** A write that leaves the archive flag and the museum alone behaves the
      same under both constraints. */
  lemma WriteAsWrittenAgrees(g: Galeria, sel: seq<nat>, vals: Vals)
    requires Dentro(sel, |g.fotos|)
    requires vals.activa.None? && vals.museo.None?
    ensures WriteAsWritten(g, sel, vals) == Write(g, sel, vals)
  {
  }

  /** Stores `vals` on the records `sel`; when the primary flag, the archive
      flag or the museum is among the values the constraint runs on those
      records, and when the image is among them every written primary
      record copies its image to its museum. */
  function Write(g: Galeria, sel: seq<nat>, vals: Vals): (r: Result<Galeria, string>)
    requires Dentro(sel, |g.fotos|)
    ensures var fotos := Escribir(g.fotos, sel, vals);
      && (r.Err? <==>
            Vigilado(vals) &&
            exists k | 0 <= k < |sel| :: fotos[sel[k]].principal && HayOtraPrincipal(fotos, fotos[sel[k]]))
      && (r.Ok? ==> r.value.fotos == fotos)
    ensures r.Err? ==> r.error == SoloUna
    ensures r.Ok? && vals.imagen.None? ==> r.value.imagenes == g.imagenes
    ensures r.Ok? && vals.imagen.Some? ==> forall m | Sincroniza(r.value.fotos, sel, m) ::
      m in r.value.imagenes && r.value.imagenes[m] == vals.imagen.value
    ensures r.Ok? ==> forall m | !Sincroniza(r.value.fotos, sel, m) ::
      (m in r.value.imagenes <==> m in g.imagenes) && (m in g.imagenes ==> r.value.imagenes[m] == g.imagenes[m])
  {
    var fotos := Escribir(g.fotos, sel, vals);
    var check := if Vigilado(vals) then Comprobar(fotos, sel) else Ok(());
    if check.Err? then
      Err(check.error)
    else
      Ok(Galeria(fotos, if vals.imagen.Some? then Sincronizar(fotos, sel, g.imagenes) else g.imagenes))
  }

  /** A successful write keeps a museum's active primary photo unique. */
  lemma WriteUnica(g: Galeria, sel: seq<nat>, vals: Vals, m: nat)
    requires Dentro(sel, |g.fotos|)
    requires Unica(g.fotos, m) && Write(g, sel, vals).Ok?
    ensures Unica(Write(g, sel, vals).value.fotos, m)
  {
    var fotos := Write(g, sel, vals).value.fotos;
    forall j, k | 0 <= j < |fotos| && 0 <= k < |fotos| && ActivaPrincipal(fotos[j], m) && ActivaPrincipal(fotos[k], m)
      ensures fotos[j].id == fotos[k].id
    {
      if j in sel && Vigilado(vals) {
        var a :| 0 <= a < |sel| && sel[a] == j;
        assert !OtraPrincipal(fotos[j], fotos[k]);
      } else if k in sel && Vigilado(vals) {
        var a :| 0 <= a < |sel| && sel[a] == k;
        assert !OtraPrincipal(fotos[k], fotos[j]);
      } else {
        assert ActivaPrincipal(g.fotos[j], m) && ActivaPrincipal(g.fotos[k], m);
      }
    }
  }

  // ------------------------------------------------------------------
  // `action_set_as_principal`

  /** The indices below `n` of the records the action's search finds for
      `f`. */
  function Otras(fotos: seq<Foto>, f: Foto, n: nat): (r: seq<nat>)
    requires n <= |fotos|
    ensures Dentro(r, |fotos|)
    ensures forall j :: j in r <==> 0 <= j < n && OtraPrincipal(f, fotos[j])
  {
    if n == 0 then []
    else
      var pre := Otras(fotos, f, n - 1);
      if OtraPrincipal(f, fotos[n - 1]) then pre + [n - 1] else pre
  }

  const Desmarcar: Vals := Vals(Some(false), None, None, None)
  const Marcar: Vals := Vals(Some(true), None, None, None)

  /** Unmarks the museum's other active primary photos, marks photo `i` as
      primary, and copies its image to the museum if it has one.  Both
      writes pass the constraint, so the action always succeeds. */
  function SetAsPrincipal(g: Galeria, i: nat): (r: Result<Galeria, string>)
    requires i < |g.fotos|
    ensures r.Ok?
    ensures |r.value.fotos| == |g.fotos|
    ensures r.value.fotos[i] == g.fotos[i].(principal := true)
    ensures forall j | 0 <= j < |g.fotos| :: !OtraPrincipal(r.value.fotos[i], r.value.fotos[j])
    ensures forall j | 0 <= j < |g.fotos| && j != i ::
      r.value.fotos[j] == if OtraPrincipal(g.fotos[i], g.fotos[j]) then g.fotos[j].(principal := false) else g.fotos[j]
    ensures forall j | 0 <= j < |g.fotos| && j != i && (g.fotos[j].museo != g.fotos[i].museo || !g.fotos[j].activa) ::
      r.value.fotos[j] == g.fotos[j]
    ensures g.fotos[i].imagen != "" ==> r.value.imagenes == g.imagenes[g.fotos[i].museo := g.fotos[i].imagen]
    ensures g.fotos[i].imagen == "" ==> r.value.imagenes == g.imagenes
  {
    var f := g.fotos[i];
    DesmarcarOtras(g, i);
    match Write(g, Otras(g.fotos, f, |g.fotos|), Desmarcar)
    case Err(e) => Err(e)
    case Ok(g1) =>
      MarcarUna(g1, i);
      match Write(g1, [i], Marcar)
      case Err(e) => Err(e)
      case Ok(g2) =>
        Ok(if f.imagen != "" then g2.(imagenes := g2.imagenes[f.museo := f.imagen]) else g2)
  }

  /** The action's first write: unmarking the other primary photos of the
      museum passes the constraint and touches only those records. */
  lemma DesmarcarOtras(g: Galeria, i: nat)
    requires i < |g.fotos|
    ensures var r := Write(g, Otras(g.fotos, g.fotos[i], |g.fotos|), Desmarcar);
      && r.Ok? && r.value.imagenes == g.imagenes && |r.value.fotos| == |g.fotos|
      && forall j | 0 <= j < |g.fotos| ::
           r.value.fotos[j] == if OtraPrincipal(g.fotos[i], g.fotos[j]) then g.fotos[j].(principal := false) else g.fotos[j]
  {
    var otras := Otras(g.fotos, g.fotos[i], |g.fotos|);
    var f1 := Escribir(g.fotos, otras, Desmarcar);
    assert forall k | 0 <= k < |otras| :: !f1[otras[k]].principal;
  }

  /** The action's second write: once no other active primary photo of the
      museum is left, marking photo `i` passes the constraint and changes
      only that record. */
  lemma MarcarUna(g: Galeria, i: nat)
    requires i < |g.fotos|
    requires forall j | 0 <= j < |g.fotos| :: !OtraPrincipal(g.fotos[i], g.fotos[j])
    ensures var r := Write(g, [i], Marcar);
      r.Ok? && r.value == Galeria(g.fotos[i := g.fotos[i].(principal := true)], g.imagenes)
  {
    var f2 := Escribir(g.fotos, [i], Marcar);
    assert forall j | 0 <= j < |g.fotos| :: !OtraPrincipal(f2[i], f2[j]);
    assert f2 == g.fotos[i := g.fotos[i].(principal := true)];
  }

  /** Running the action twice leaves what one run left. */
  lemma SetAsPrincipalIdempotent(g: Galeria, i: nat)
    requires i < |g.fotos|
    ensures SetAsPrincipal(SetAsPrincipal(g, i).value, i) == SetAsPrincipal(g, i)
  {
    var g1 := SetAsPrincipal(g, i).value;
    var g2 := SetAsPrincipal(g1, i).value;
    forall j | 0 <= j < |g1.fotos| ensures g2.fotos[j] == g1.fotos[j] {
      if j != i {
        assert !OtraPrincipal(g1.fotos[i], g1.fotos[j]);
      }
    }
    assert g2.fotos == g1.fotos;
    assert g1.fotos[i].imagen == g.fotos[i].imagen && g1.fotos[i].museo == g.fotos[i].museo;
    assert g2.imagenes == g1.imagenes;
    assert g2 == g1;
  }

  /** After the action the photo's museum has one active primary record,
      and every other museum keeps the primary photos it had. */
  lemma SetAsPrincipalUnica(g: Galeria, i: nat, m: nat)
    requires i < |g.fotos|
    requires m == g.fotos[i].museo || Unica(g.fotos, m)
    ensures Unica(SetAsPrincipal(g, i).value.fotos, m)
  {
    var fotos := SetAsPrincipal(g, i).value.fotos;
    var f := g.fotos[i];
    if m == f.museo {
      forall j | 0 <= j < |fotos| && ActivaPrincipal(fotos[j], m)
        ensures fotos[j].id == f.id
      {
        if j != i {
          assert !OtraPrincipal(fotos[i], fotos[j]);
        }
      }
    } else {
      forall j | 0 <= j < |fotos| && ActivaPrincipal(fotos[j], m)
        ensures ActivaPrincipal(g.fotos[j], m)
      {
      }
    }
  }
}

=== FILE: grouping.dfy ===
/** The grouping loop the reports share: walk a sequence once and, in a
    dictionary keyed by some property of each element, create an empty
    bucket on first sight of a key, append the element to its bucket and add
    one to the bucket's count and the element's attendees and hours to the
    bucket's running sums. */
module Grouping {
  import opened Wrappers
  import opened Seqs
  import opened Dicts

  /** One bucket: the elements appended so far and three running totals. */
  datatype Tally<T> = Tally(items: seq<T>, total: int, asistentes: int, horas: int)

  function Total<T>(t: Tally<T>): int {
    t.total
  }

  function Attendees<T>(t: Tally<T>): int {
    t.asistentes
  }

  function Seconds<T>(t: Tally<T>): int {
    t.horas
  }

  function EmptyTally<T>(): Tally<T> {
    Tally([], 0, 0, 0)
  }

  /** One step of the loop body for element `x`. */
  function Add<T>(t: Tally<T>, x: T, asis: T -> int, hrs: T -> int): Tally<T> {
    Tally(t.items + [x], t.total + 1, t.asistentes + asis(x), t.horas + hrs(x))
  }

  /** The elements whose key is `k`. */
  function HasKeyOf<T, K(==)>(key: T -> K, k: K): T -> bool {
    x => key(x) == k
  }

  /** The set of keys met along `s`. */
  function KeysOf<T, K>(s: seq<T>, key: T -> K): set<K> {
    set i | 0 <= i < |s| :: key(s[i])
  }

  /** The dictionary after the loop has run over all of `s`. */
  function Accumulate<T, K(==)>(s: seq<T>, key: T -> K, asis: T -> int, hrs: T -> int)
    : (r: Dict<K, Tally<T>>)
    ensures NoDupKeys(r)
    decreases |s|
  {
    if |s| == 0 then []
    else
      var x := s[|s| - 1];
      var d := Accumulate(s[..|s| - 1], key, asis, hrs);
      PutNoDup(d, key(x), Add(GetOr(d, key(x), EmptyTally()), x, asis, hrs));
      Put(d, key(x), Add(GetOr(d, key(x), EmptyTally()), x, asis, hrs))
  }

  /** A bucket exists for exactly the keys that occur in `s`. */
  lemma {:induction false} AccumulateKeys<T, K>(s: seq<T>, key: T -> K, asis: T -> int, hrs: T -> int)
    ensures KeySet(Accumulate(s, key, asis, hrs)) == KeysOf(s, key)
    decreases |s|
  {
    if |s| > 0 {
      var s' := s[..|s| - 1];
      AccumulateKeys(s', key, asis, hrs);
      assert KeysOf(s, key) == KeysOf(s', key) + {key(s[|s| - 1])} by {
        forall k | k in KeysOf(s, key) ensures k in KeysOf(s', key) + {key(s[|s| - 1])} {
          var i :| 0 <= i < |s| && key(s[i]) == k;
          if i < |s| - 1 { assert s'[i] == s[i]; }
        }
        forall k | k in KeysOf(s', key) ensures k in KeysOf(s, key) {
          var i :| 0 <= i < |s'| && key(s'[i]) == k;
          assert s[i] == s'[i];
        }
      }
    }
  }

  /** Each bucket holds exactly the elements of its key, in their original
      order, and its count and sums are the length of and sums over that
      list. */
  ghost predicate BucketOf<T, K>(s: seq<T>, key: T -> K, asis: T -> int, hrs: T -> int, k: K, t: Tally<T>) {
    t.items == Filter(s, HasKeyOf(key, k))
    && t.total == |t.items|
    && t.asistentes == Sum(t.items, asis)
    && t.horas == Sum(t.items, hrs)
  }

  lemma {:induction false} AccumulateBucket<T, K>(s: seq<T>, key: T -> K, asis: T -> int, hrs: T -> int, k: K)
    requires k in KeysOf(s, key)
    ensures HasKey(Accumulate(s, key, asis, hrs), k)
    ensures BucketOf(s, key, asis, hrs, k, Get(Accumulate(s, key, asis, hrs), k))
    decreases |s|
  {
    var n := |s| - 1;
    if key(s[n]) == k {
      if k in KeysOf(s[..n], key) {
        AccumulateBucket(s[..n], key, asis, hrs, k);
      }
      BucketNewest(s, key, asis, hrs);
    } else {
      assert k in KeysOf(s[..n], key) by {
        var i :| 0 <= i < |s| && key(s[i]) == k;
        assert i < n;
        assert s[..n][i] == s[i];
      }
      AccumulateBucket(s[..n], key, asis, hrs, k);
      BucketOlder(s, key, asis, hrs, k);
    }
  }

  /** The bucket of the last element's key after the last step. */
  lemma BucketNewest<T, K>(s: seq<T>, key: T -> K, asis: T -> int, hrs: T -> int)
    requires |s| > 0
    requires var s' := s[..|s| - 1]; var k := key(s[|s| - 1]);
      k in KeysOf(s', key) ==>
        (HasKey(Accumulate(s', key, asis, hrs), k)
         && BucketOf(s', key, asis, hrs, k, Get(Accumulate(s', key, asis, hrs), k)))
    ensures var k := key(s[|s| - 1]);
      HasKey(Accumulate(s, key, asis, hrs), k)
      && BucketOf(s, key, asis, hrs, k, Get(Accumulate(s, key, asis, hrs), k))
  {
    var n := |s| - 1;
    var s', x := s[..n], s[n];
    var k := key(x);
    var d := Accumulate(s', key, asis, hrs);
    var t := GetOr(d, k, EmptyTally());
    var v := Add(t, x, asis, hrs);
    var r := Accumulate(s, key, asis, hrs);
    assert r == Put(d, k, v);
    GetPutSame(d, k, v);
    assert Get(r, k) == v;
    var p := HasKeyOf(key, k);
    assert Filter(s, p) == Filter(s', p) + [x];
    PreviousBucket(s', key, asis, hrs, k);
    assert BucketOf(s', key, asis, hrs, k, t);
    SumConcat(t.items, [x], asis);
    SumConcat(t.items, [x], hrs);
    SumSingleton(x, asis);
    SumSingleton(x, hrs);
  }

  /** Before the step, the bucket of `k` is the one found in the dictionary,
      or the empty one when `k` has not been met yet. */
  lemma PreviousBucket<T, K>(s: seq<T>, key: T -> K, asis: T -> int, hrs: T -> int, k: K)
    requires k in KeysOf(s, key) ==>
        (HasKey(Accumulate(s, key, asis, hrs), k)
         && BucketOf(s, key, asis, hrs, k, Get(Accumulate(s, key, asis, hrs), k)))
    ensures BucketOf(s, key, asis, hrs, k, GetOr(Accumulate(s, key, asis, hrs), k, EmptyTally()))
  {
    var d := Accumulate(s, key, asis, hrs);
    AccumulateKeys(s, key, asis, hrs);
    HasKeyIffInKeySet(d, k);
  }

  /** The last step leaves the buckets of other keys alone. */
  lemma BucketOlder<T, K>(s: seq<T>, key: T -> K, asis: T -> int, hrs: T -> int, k: K)
    requires |s| > 0 && key(s[|s| - 1]) != k
    requires var s' := s[..|s| - 1];
      HasKey(Accumulate(s', key, asis, hrs), k)
      && BucketOf(s', key, asis, hrs, k, Get(Accumulate(s', key, asis, hrs), k))
    ensures HasKey(Accumulate(s, key, asis, hrs), k)
    ensures BucketOf(s, key, asis, hrs, k, Get(Accumulate(s, key, asis, hrs), k))
  {
    var n := |s| - 1;
    var s', x := s[..n], s[n];
    var d := Accumulate(s', key, asis, hrs);
    var v := Add(GetOr(d, key(x), EmptyTally()), x, asis, hrs);
    GetPutOther(d, key(x), v, k);
    var p := HasKeyOf(key, k);
    assert Filter(s, p) == Filter(s', p);
  }

  /** Every element is counted in exactly one bucket: the counts add up to
      the length of `s`, and the bucket sums to the sums over `s`. */
  lemma {:induction false} AccumulateTotals<T, K>(s: seq<T>, key: T -> K, asis: T -> int, hrs: T -> int)
    ensures var v := Values(Accumulate(s, key, asis, hrs));
      Sum(v, Total) == |s| && Sum(v, Attendees) == Sum(s, asis) && Sum(v, Seconds) == Sum(s, hrs)
    decreases |s|
  {
    if |s| == 0 {
      assert Values(Accumulate(s, key, asis, hrs)) == [];
    } else {
      var n := |s| - 1;
      var s', x := s[..n], s[n];
      AccumulateTotals(s', key, asis, hrs);
      var d := Accumulate(s', key, asis, hrs);
      var old_ := GetOr(d, key(x), EmptyTally());
      var v := Add(old_, x, asis, hrs);
      SumValuesPut(d, key(x), v, Total);
      SumValuesPut(d, key(x), v, Attendees);
      SumValuesPut(d, key(x), v, Seconds);
    }
  }

  /** The `i`-th bucket, in insertion order, is the bucket of its own key,
      and that key is the key of its first element. */
  lemma ValuesAreBuckets<T, K>(s: seq<T>, key: T -> K, asis: T -> int, hrs: T -> int, i: int)
    requires 0 <= i < |Accumulate(s, key, asis, hrs)|
    ensures var e := Accumulate(s, key, asis, hrs)[i];
      |e.1.items| > 0 && key(e.1.items[0]) == e.0 && BucketOf(s, key, asis, hrs, e.0, e.1)
  {
    var d := Accumulate(s, key, asis, hrs);
    var k := d[i].0;
    AccumulateKeys(s, key, asis, hrs);
    assert k in KeySet(d);
    AccumulateBucket(s, key, asis, hrs, k);
    assert Find(d, k) == i;
    var j :| 0 <= j < |s| && key(s[j]) == k;
    assert s[j] in Filter(s, HasKeyOf(key, k));
  }

  /** Position of the first element of `s` with key `k`, or -1. */
  function FirstIndex<T, K(==)>(s: seq<T>, key: T -> K, k: K): (i: int)
    ensures -1 <= i < |s|
    ensures 0 <= i ==> key(s[i]) == k && forall j | 0 <= j < i :: key(s[j]) != k
    ensures i == -1 <==> k !in KeysOf(s, key)
    decreases |s|
  {
    if |s| == 0 then -1
    else
      var n := |s| - 1;
      var i := FirstIndex(s[..n], key, k);
      assert forall j | 0 <= j < n :: s[..n][j] == s[j];
      if 0 <= i then i else if key(s[n]) == k then n else -1
  }

  /** Buckets come out in the order in which their keys are first met. */
  lemma {:induction false} AccumulateOrder<T, K>(s: seq<T>, key: T -> K, asis: T -> int, hrs: T -> int)
    ensures var d := Accumulate(s, key, asis, hrs);
      forall i, j | 0 <= i < j < |d| :: FirstIndex(s, key, d[i].0) < FirstIndex(s, key, d[j].0)
    decreases |s|
  {
    if |s| > 0 {
      var n := |s| - 1;
      var s', x := s[..n], s[n];
      AccumulateOrder(s', key, asis, hrs);
      AccumulateKeys(s', key, asis, hrs);
      var d' := Accumulate(s', key, asis, hrs);
      var d := Accumulate(s, key, asis, hrs);
      HasKeyIffInKeySet(d', key(x));
      forall i | 0 <= i < |d'| ensures FirstIndex(s, key, d[i].0) == FirstIndex(s', key, d'[i].0) {
        assert d[i].0 == d'[i].0;
        assert d'[i].0 in KeySet(d');
      }
    }
  }

  // ------------------------------------------------------------------
  // Sorting the buckets: `sorted(buckets.values(), key=...)`

  /** Descending by count is ascending by the negated count. */
  function NegTotal<T>(t: Tally<T>): int {
    -t.total
  }

  /** The buckets in a stable sort by `rank`; with `NegTotal`, by
      non-increasing count. */
  function Ranked<T, K(==)>(s: seq<T>, key: T -> K, asis: T -> int, hrs: T -> int, rank: Tally<T> -> int)
    : seq<Tally<T>>
  {
    SortBy(Values(Accumulate(s, key, asis, hrs)), rank)
  }

  /** `t` is a non-empty bucket, and the bucket of its first element's key. */
  ghost predicate KeyedBucket<T, K>(s: seq<T>, key: T -> K, asis: T -> int, hrs: T -> int, t: Tally<T>) {
    |t.items| > 0 && BucketOf(s, key, asis, hrs, key(t.items[0]), t)
  }

  /** Every element of a bucket of `s` is an element of `s`. */
  lemma BucketItemsFrom<T, K>(s: seq<T>, key: T -> K, asis: T -> int, hrs: T -> int, ts: seq<Tally<T>>)
    requires forall i | 0 <= i < |ts| :: KeyedBucket(s, key, asis, hrs, ts[i])
    ensures forall i, k | 0 <= i < |ts| && 0 <= k < |ts[i].items| :: ts[i].items[k] in s
  {
    forall i, k | 0 <= i < |ts| && 0 <= k < |ts[i].items| ensures ts[i].items[k] in s {
      assert KeyedBucket(s, key, asis, hrs, ts[i]);
    }
  }

  /** The key of a bucket's first element, if it has one. */
  function LeadKey<T, K>(key: T -> K): Tally<T> -> Option<K> {
    (t: Tally<T>) => if |t.items| > 0 then Some(key(t.items[0])) else None
  }

  /** Sorting keeps every bucket whole and never lists one key twice. */
  lemma RankedBuckets<T, K>(s: seq<T>, key: T -> K, asis: T -> int, hrs: T -> int, rank: Tally<T> -> int)
    ensures var r := Ranked(s, key, asis, hrs, rank);
      forall i | 0 <= i < |r| :: KeyedBucket(s, key, asis, hrs, r[i])
    ensures var r := Ranked(s, key, asis, hrs, rank);
      forall i, j | 0 <= i < j < |r| :: key(r[i].items[0]) != key(r[j].items[0])
  {
    var d := Accumulate(s, key, asis, hrs);
    var v := Values(d);
    var r := Ranked(s, key, asis, hrs, rank);
    forall i | 0 <= i < |v| ensures KeyedBucket(s, key, asis, hrs, v[i]) && key(v[i].items[0]) == d[i].0 {
      ValuesAreBuckets(s, key, asis, hrs, i);
    }
    forall i | 0 <= i < |r| ensures KeyedBucket(s, key, asis, hrs, r[i]) {
      assert r[i] in multiset(v);
      var j :| 0 <= j < |v| && v[j] == r[i];
    }
    forall i, j | 0 <= i < j < |v| ensures LeadKey(key)(v[i]) != LeadKey(key)(v[j]) {
      assert d[i].0 != d[j].0;
    }
    PermutationDistinctKeys(v, r, LeadKey(key));
    forall i, j | 0 <= i < j < |r| ensures key(r[i].items[0]) != key(r[j].items[0]) {
      assert LeadKey(key)(r[i]) != LeadKey(key)(r[j]);
    }
  }

  /** Buckets come out by non-increasing count. */
  lemma RankedDescending<T, K>(s: seq<T>, key: T -> K, asis: T -> int, hrs: T -> int)
    ensures var r := Ranked(s, key, asis, hrs, NegTotal);
      forall i, j | 0 <= i < j < |r| :: r[i].total >= r[j].total
  {
    var r := Ranked(s, key, asis, hrs, NegTotal);
    forall i, j | 0 <= i < j < |r| ensures r[i].total >= r[j].total {
      assert NegTotal(r[i]) <= NegTotal(r[j]);
    }
  }

  /** Buckets of equal rank stay in dictionary order, that is in the order
      in which their keys were first met. */
  lemma RankedStable<T, K>(s: seq<T>, key: T -> K, asis: T -> int, hrs: T -> int, rank: Tally<T> -> int, n: int)
    ensures KeyFilter(Ranked(s, key, asis, hrs, rank), rank, n)
         == KeyFilter(Values(Accumulate(s, key, asis, hrs)), rank, n)
  {
    SortByStable(Values(Accumulate(s, key, asis, hrs)), rank, n);
  }

  /** Sorting neither loses nor invents a count, an attendee or a second. */
  lemma RankedTotals<T, K>(s: seq<T>, key: T -> K, asis: T -> int, hrs: T -> int, rank: Tally<T> -> int)
    ensures var r := Ranked(s, key, asis, hrs, rank);
      Sum(r, Total) == |s| && Sum(r, Attendees) == Sum(s, asis) && Sum(r, Seconds) == Sum(s, hrs)
  {
    var v := Values(Accumulate(s, key, asis, hrs));
    AccumulateTotals(s, key, asis, hrs);
    SortBySum(v, rank, Total);
    SortBySum(v, rank, Attendees);
    SortBySum(v, rank, Seconds);
  }

  /** As many buckets as distinct keys. */
  lemma RankedCount<T, K>(s: seq<T>, key: T -> K, asis: T -> int, hrs: T -> int, rank: Tally<T> -> int)
    ensures |Ranked(s, key, asis, hrs, rank)| == |KeysOf(s, key)|
  {
    AccumulateKeys(s, key, asis, hrs);
    KeyCount(Accumulate(s, key, asis, hrs));
  }

  /** The sorted buckets run by non-decreasing rank. */
  lemma RankedSorted<T, K>(s: seq<T>, key: T -> K, asis: T -> int, hrs: T -> int, rank: Tally<T> -> int)
    ensures var r := Ranked(s, key, asis, hrs, rank);
      forall i, j | 0 <= i < j < |r| :: rank(r[i]) <= rank(r[j])
  {
    var r := Ranked(s, key, asis, hrs, rank);
    assert SortedBy(r, rank);
  }

  // ------------------------------------------------------------------
  // Counting dictionaries: `d[key(x)] = d.get(key(x), 0) + f(x)`

  /** The contribution of one element to a plain count. */
  function One<T>(x: T): int {
    1
  }

  function IntValue(n: int): int {
    n
  }

  /** One step of the counting loop: `d[k] = d.get(k, 0) + y`. */
  function Bump<K(==)>(d: Dict<K, int>, k: K, y: int): (r: Dict<K, int>)
    requires NoDupKeys(d)
    ensures NoDupKeys(r)
  {
    PutNoDup(d, k, GetOr(d, k, 0) + y);
    Put(d, k, GetOr(d, k, 0) + y)
  }

  /** The dictionary after the counting loop has run over all of `s`. */
  function SumBy<T, K(==)>(s: seq<T>, key: T -> K, f: T -> int): (r: Dict<K, int>)
    ensures NoDupKeys(r)
    decreases |s|
  {
    if |s| == 0 then []
    else
      var x := s[|s| - 1];
      var d := SumBy(s[..|s| - 1], key, f);
      Bump(d, key(x), f(x))
  }

  /** The counting loop builds exactly the attendee column of the bucket
      loop run with `f` as the attendee function. */
  lemma {:induction false} SumByProjects<T, K>(s: seq<T>, key: T -> K, f: T -> int)
    ensures SumBy(s, key, f) == Project(Accumulate(s, key, f, f), Attendees)
    decreases |s|
  {
    if |s| > 0 {
      var n := |s| - 1;
      var x := s[n];
      SumByProjects(s[..n], key, f);
      var a := Accumulate(s[..n], key, f, f);
      BucketStepProjects(a, key(x), x, f);
    }
  }

  /** An entry exists for exactly the keys met along `s`, and each holds the
      sum of `f` over the elements with that key. */
  lemma SumByEntries<T, K>(s: seq<T>, key: T -> K, f: T -> int, k: K)
    ensures KeySet(SumBy(s, key, f)) == KeysOf(s, key)
    ensures k in KeysOf(s, key) ==>
      HasKey(SumBy(s, key, f), k) && Get(SumBy(s, key, f), k) == Sum(Filter(s, HasKeyOf(key, k)), f)
  {
    var a := Accumulate(s, key, f, f);
    SumByProjects(s, key, f);
    AccumulateKeys(s, key, f, f);
    ProjectKeys(a, Attendees);
    if k in KeysOf(s, key) {
      AccumulateBucket(s, key, f, f, k);
      FindProject(a, Attendees, k);
    }
  }

  /** With `One`, each entry is the number of elements with its key. */
  lemma CountByEntries<T, K>(s: seq<T>, key: T -> K, k: K)
    ensures k in KeysOf(s, key) ==>
      HasKey(SumBy(s, key, One), k) && Get(SumBy(s, key, One), k) == |Filter(s, HasKeyOf(key, k))|
  {
    SumByEntries(s, key, One, k);
    var b := Filter(s, HasKeyOf(key, k));
    SumAtMost(b, One, 1);
    SumAtLeast(b, One, 1);
  }

  /** The entries add up to the sum of `f` over all of `s`. */
  lemma {:induction false} SumByTotal<T, K>(s: seq<T>, key: T -> K, f: T -> int)
    ensures Sum(Values(SumBy(s, key, f)), IntValue) == Sum(s, f)
    decreases |s|
  {
    if |s| == 0 {
      assert Values(SumBy(s, key, f)) == [];
    } else {
      var n := |s| - 1;
      var x := s[n];
      SumByTotal(s[..n], key, f);
      var d := SumBy(s[..n], key, f);
      AddToEntry(d, key(x), f(x));
    }
  }

  /** Adding `y` to one entry adds `y` to the sum of the entries. */
  lemma AddToEntry<K>(d: Dict<K, int>, k: K, y: int)
    requires NoDupKeys(d)
    ensures Sum(Values(Bump(d, k, y)), IntValue) == Sum(Values(d), IntValue) + y
  {
    SumValuesPut(d, k, GetOr(d, k, 0) + y, IntValue);
  }

  /** One bucket step, seen through `Attendees`, is one counting step. */
  lemma BucketStepProjects<T, K>(a: Dict<K, Tally<T>>, k: K, x: T, f: T -> int)
    requires NoDupKeys(a)
    ensures NoDupKeys(Project(a, Attendees))
    ensures Project(Put(a, k, Add(GetOr(a, k, EmptyTally()), x, f, f)), Attendees)
         == Bump(Project(a, Attendees), k, f(x))
  {
    ProjectGetOr(a, Attendees, k, EmptyTally());
    ProjectPut(a, Attendees, k, Add(GetOr(a, k, EmptyTally()), x, f, f));
  }
}

=== FILE: importacion.dfy ===
/** The object import wizard (`museo.wizard.importar.objetos`): finding the
    list of objects in decoded JSON, choosing the CSV delimiter, turning CSV
    rows into objects by a configured column mapping or by inferring the
    columns from their headers, validating the objects, importing them, and
    the summary shown afterwards.  Decoding (base64, UTF-8, the JSON text, the
    CSV quoting rules) happens before this model: JSON input arrives as a
    `Json` value and CSV rows arrive as dictionaries from a reader passed in. */
module Importacion {
  import opened Wrappers
  import opened Seqs
  import opened Dicts
  import opened Strings

  // ------------------------------------------------------------------
  // Decoded values

  /** A decoded JSON value; numbers are integers in this model. */
  datatype Json =
    | JNull
    | JBool(b: bool)
    | JNum(n: int)
    | JStr(s: string)
    | JList(items: seq<Json>)
    | JObj(fields: Dict<string, Json>)

  /** Python truthiness. */
  predicate Truthy(j: Json) {
    match j
    case JNull => false
    case JBool(b) => b
    case JNum(n) => n != 0
    case JStr(s) => |s| > 0
    case JList(xs) => |xs| > 0
    case JObj(fs) => |fs| > 0
  }

  /** Python's name of the value's type, as it appears in an
      `AttributeError` message. */
  function TypeName(j: Json): string {
    match j
    case JNull => "NoneType"
    case JBool(_) => "bool"
    case JNum(_) => "int"
    case JStr(_) => "str"
    case JList(_) => "list"
    case JObj(_) => "dict"
  }

  /** `str(value)` for the scalar values; containers render as their type
      name, their Python representation is not modelled. */
  function Str(j: Json): string {
    match j
    case JNull => "None"
    case JBool(b) => if b then "True" else "False"
    case JNum(n) => if n < 0 then "-" + NatToString(-n) else NatToString(n)
    case JStr(s) => s
    case JList(_) => "list"
    case JObj(_) => "dict"
  }

  /** An object to import: a dictionary of field values. */
  type Objeto = Dict<string, Json>

  /** `obj.get(k, default)` */
  function Field(o: Objeto, k: string, default: Json): Json {
    GetOr(o, k, default)
  }

  /** The object names an object of the collection. */
  predicate Identifies(o: Objeto) {
    HasKey(o, "name") || HasKey(o, "codigo_inventario")
  }

  // ------------------------------------------------------------------
  // `_procesar_json`

  /** The keys searched first, in order, for the list of objects. */
  const ListKeys: seq<string> := ["objetos_museo", "objetos", "items", "data"]

  predicate HoldsList(o: Objeto, k: string) {
    HasKey(o, k) && Get(o, k).JList?
  }

  /** A non-empty list whose first element is an identifying object. */
  predicate IsObjectList(v: Json) {
    v.JList? && |v.items| > 0 && v.items[0].JObj? && Identifies(v.items[0].fields)
  }

  const NoObjetos: string := "Error al procesar JSON: No se encontraron objetos en el archivo JSON"

  /** The list of objects in a decoded JSON document: a top-level list as it
      is; in an object, the first of the preferred keys holding a list, else
      the object itself when it identifies an object, else the first value
      that is a list starting with an identifying object. */
  function ProcesarJson(datos: Json): (r: Result<seq<Json>, string>)
    ensures datos.JList? ==> r == Ok(datos.items)
    ensures r.Err? ==> r.error == NoObjetos
    ensures r.Err? <==>
      !datos.JList? &&
      (!datos.JObj? ||
        ((forall k | k in ListKeys :: !HoldsList(datos.fields, k))
         && !Identifies(datos.fields)
         && (forall j | 0 <= j < |datos.fields| :: !IsObjectList(datos.fields[j].1))))
    ensures r.Ok? && datos.JObj? ==>
      (exists i | 0 <= i < |ListKeys| ::
         HoldsList(datos.fields, ListKeys[i]) && r.value == Get(datos.fields, ListKeys[i]).items
         && forall j | 0 <= j < i :: !HoldsList(datos.fields, ListKeys[j]))
      || ((forall k | k in ListKeys :: !HoldsList(datos.fields, k))
          && Identifies(datos.fields) && r.value == [datos])
      || ((forall k | k in ListKeys :: !HoldsList(datos.fields, k))
          && !Identifies(datos.fields)
          && exists j | 0 <= j < |datos.fields| ::
               IsObjectList(datos.fields[j].1) && r.value == datos.fields[j].1.items
               && forall j' | 0 <= j' < j :: !IsObjectList(datos.fields[j'].1))
  {
    match datos
    case JList(items) => Ok(items)
    case JObj(fs) =>
      (match ListaEnClaves(fs)
       case Some(l) => Ok(l)
       case None =>
         if Identifies(fs) then Ok([datos])
         else if ListaEnValores(fs).Some? then Ok(ListaEnValores(fs).value)
         else Err(NoObjetos))
    case _ => Err(NoObjetos)
  }

  /** The list under the first of the preferred keys that holds one. */
  function ListaEnClaves(fs: Objeto): (r: Option<seq<Json>>)
    ensures r.None? <==> forall k | k in ListKeys :: !HoldsList(fs, k)
    ensures r.Some? ==> exists i | 0 <= i < |ListKeys| ::
      HoldsList(fs, ListKeys[i]) && r.value == Get(fs, ListKeys[i]).items
      && forall j | 0 <= j < i :: !HoldsList(fs, ListKeys[j])
  {
    var i := FirstWhere(ListKeys, k => HoldsList(fs, k));
    if i < |ListKeys| then Some(Get(fs, ListKeys[i]).items) else None
  }

  /** The items of the first value that is a list starting with an
      identifying object. */
  function ListaEnValores(fs: Objeto): (r: Option<seq<Json>>)
    ensures r.None? <==> forall j | 0 <= j < |fs| :: !IsObjectList(fs[j].1)
    ensures r.Some? ==> exists j | 0 <= j < |fs| ::
      IsObjectList(fs[j].1) && r.value == fs[j].1.items
      && forall j' | 0 <= j' < j :: !IsObjectList(fs[j'].1)
  {
    var vs := Values(fs);
    var j := FirstWhere(vs, IsObjectList);
    if j < |vs| then Some(vs[j].items) else None
  }

  // ------------------------------------------------------------------
  // `_detectar_delimitador_csv`

  /** The candidate delimiters, in order of preference on ties. */
  const Delimitadores: seq<char> := [',', ';', '\t', '|']

  predicate NonEmpty(l: string) {
    |l| > 0
  }

  /** The non-empty lines among the first five. */
  function Muestra(contenido: string): seq<string> {
    var lineas := Split(contenido, '\n');
    Filter(if |lineas| <= 5 then lineas else lineas[..5], NonEmpty)
  }

  /** Occurrences of `d` over all the lines. */
  function Ocurrencias(lineas: seq<string>, d: char): (n: nat)
    ensures n == 0 <==> forall i | 0 <= i < |lineas| :: d !in lineas[i]
    decreases |lineas|
  {
    if |lineas| == 0 then 0
    else
      var k := |lineas| - 1;
      assert forall i | 0 <= i < k :: lineas[..k][i] == lineas[i];
      Ocurrencias(lineas[..k], d) + CountChar(lineas[k], d)
  }

  /** The position of the first maximal score. */
  function FirstMax(cs: seq<int>): (i: nat)
    requires |cs| > 0
    ensures i < |cs|
    ensures forall j | 0 <= j < |cs| :: cs[j] <= cs[i]
    ensures forall j | 0 <= j < i :: cs[j] < cs[i]
    decreases |cs|
  {
    if |cs| == 1 then 0
    else
      var n := |cs| - 1;
      var i := FirstMax(cs[..n]);
      assert forall j | 0 <= j < n :: cs[..n][j] == cs[j];
      if cs[n] > cs[i] then n else i
  }

  /** The candidate occurring most often in the sample lines, the earliest
      one on a tie, and `','` when none occurs.  The source compares
      averages per sample line; every candidate is divided by the same line
      count, so the order of the raw counts is the same. */
  function Elegir(m: seq<string>): (d: char)
    ensures exists i | 0 <= i < |Delimitadores| ::
      d == Delimitadores[i]
      && (forall j | 0 <= j < i :: Ocurrencias(m, Delimitadores[j]) < Ocurrencias(m, d))
      && (forall j | 0 <= j < |Delimitadores| :: Ocurrencias(m, Delimitadores[j]) <= Ocurrencias(m, d))
    ensures (forall j | 0 <= j < |Delimitadores| :: Ocurrencias(m, Delimitadores[j]) == 0) ==> d == ','
  {
    var cs := seq(|Delimitadores|, j requires 0 <= j < |Delimitadores| => Ocurrencias(m, Delimitadores[j]) as int);
    var i := FirstMax(cs);
    assert forall j | 0 <= j < |Delimitadores| :: cs[j] == Ocurrencias(m, Delimitadores[j]);
    assert cs[i] == 0 ==> i == 0 by {
      if i > 0 { assert cs[0] < cs[i]; }
    }
    Delimitadores[i]
  }

  /** `_detectar_delimitador_csv` */
  function DetectarDelimitador(contenido: string): (d: char)
    ensures d in Delimitadores
  {
    Elegir(Muestra(contenido))
  }

  /** Only the first five lines decide the delimiter. */
  lemma DetectarPrimerasLineas(a: seq<string>, b: seq<string>)
    requires |a| >= 5
    requires forall i | 0 <= i < |a| :: '\n' !in a[i]
    requires forall i | 0 <= i < |b| :: '\n' !in b[i]
    ensures DetectarDelimitador(Join(a + b, '\n')) == DetectarDelimitador(Join(a, '\n'))
  {
    var ab := a + b;
    assert forall i | 0 <= i < |ab| :: '\n' !in ab[i] by {
      forall i | 0 <= i < |ab| ensures '\n' !in ab[i] {
        if i < |a| { assert ab[i] == a[i]; } else { assert ab[i] == b[i - |a|]; }
      }
    }
    MuestraLineas(ab);
    MuestraLineas(a);
    assert (if |ab| <= 5 then ab else ab[..5]) == (if |a| <= 5 then a else a[..5]) by {
      if |ab| == 5 {
        assert ab == a;
      } else if |a| == 5 {
        assert ab[..5] == a;
      } else {
        assert ab[..5] == a[..5];
      }
    }
  }

  /** The sample of text made of lines is drawn from those lines. */
  lemma MuestraLineas(lineas: seq<string>)
    requires |lineas| >= 1
    requires forall i | 0 <= i < |lineas| :: '\n' !in lineas[i]
    ensures Muestra(Join(lineas, '\n')) == Filter(if |lineas| <= 5 then lineas else lineas[..5], NonEmpty)
  {
    SplitJoin(lineas, '\n');
  }

  // ------------------------------------------------------------------
  // CSV rows

  /** A row of the CSV reader: header to cell, `None` where the row has no
      cell for a header. */
  type Fila = Dict<string, Option<string>>

  /** An empty cell becomes `None`. */
  function LimpiarCelda(v: Option<string>): Option<string> {
    if v == Some("") then None else v
  }

  function Limpiar(fila: Fila): Fila {
    Project(fila, LimpiarCelda)
  }

  function CeldaJson(v: Option<string>): Json {
    match v
    case None => JNull
    case Some(s) => JStr(s)
  }

  /** A row as an object to import. */
  function ComoObjeto(fila: Fila): Objeto {
    Project(fila, CeldaJson)
  }

  lemma ComoObjetoField(fila: Fila, k: string)
    ensures Field(ComoObjeto(fila), k, JNull) == CeldaJson(GetOr(fila, k, None))
  {
    ProjectGetOr(fila, CeldaJson, k, None);
  }

  // ------------------------------------------------------------------
  // `_aplicar_mapeo_campos`

  datatype Formato = Texto | Numero | FechaFmt | Moneda

  /** One configured column: file column, target field, format, and whether
      the column must be present. */
  datatype Mapeo = Mapeo(campoArchivo: string, campoSistema: string, formato: Formato, requerido: bool)

  /** `_convertir_valor`: `None` stays `None` and text is stripped; the
      parsing of numbers, dates and amounts is passed in. */
  function Convertir(v: Option<string>, f: Formato, parse: (string, Formato) -> Json): Json {
    match v
    case None => JNull
    case Some(s) => if f == Texto then JStr(Strip(s)) else parse(s, f)
  }

  predicate Presente(fila: Fila, m: Mapeo) {
    HasKey(fila, Strip(m.campoArchivo))
  }

  function CampoFaltante(m: Mapeo): string {
    "Campo requerido no encontrado: " + Strip(m.campoArchivo)
  }

  /** Builds an object from `s` in order: an element that is present writes
      its value under its field; the first element that is required and
      absent is the error. */
  function Recoger<T>(s: seq<T>, presente: T -> bool, requerido: T -> bool,
                      campo: T -> string, valor: T -> Json, error: T -> string): (r: Result<Objeto, string>)
    ensures r.Err? <==> exists i | 0 <= i < |s| :: requerido(s[i]) && !presente(s[i])
    ensures r.Err? ==> exists i | 0 <= i < |s| ::
      requerido(s[i]) && !presente(s[i]) && r.error == error(s[i])
      && forall j | 0 <= j < i :: !(requerido(s[j]) && !presente(s[j]))
    ensures r.Ok? ==> NoDupKeys(r.value)
    ensures r.Ok? ==> KeySet(r.value) == set i | 0 <= i < |s| && presente(s[i]) :: campo(s[i])
    decreases |s|
  {
    if |s| == 0 then Ok([])
    else
      var n := |s| - 1;
      var x := s[n];
      RecogerPaso(s, presente, requerido, campo);
      match Recoger(s[..n], presente, requerido, campo, valor, error)
      case Err(e) => Err(e)
      case Ok(o) =>
        if presente(x) then
          PutNoDup(o, campo(x), valor(x));
          Ok(Put(o, campo(x), valor(x)))
        else if requerido(x) then Err(error(x))
        else Ok(o)
  }

  /** How the missing elements and the collected fields of `s` grow from
      those of all but its last element. */
  lemma RecogerPaso<T>(s: seq<T>, presente: T -> bool, requerido: T -> bool, campo: T -> string)
    requires |s| > 0
    ensures var n := |s| - 1;
      && (forall i | 0 <= i < n :: s[..n][i] == s[i])
      && ((exists i | 0 <= i < |s| :: requerido(s[i]) && !presente(s[i]))
          <==> (exists i | 0 <= i < n :: requerido(s[..n][i]) && !presente(s[..n][i]))
               || (requerido(s[n]) && !presente(s[n])))
      && (set i | 0 <= i < |s| && presente(s[i]) :: campo(s[i]))
         == (set i | 0 <= i < n && presente(s[..n][i]) :: campo(s[..n][i]))
            + (if presente(s[n]) then {campo(s[n])} else {})
  {
    var n := |s| - 1;
    assert forall i | 0 <= i < n :: s[..n][i] == s[i];
  }

  /** The row under the configured mapping: every present column goes to its
      field, converted; the first required column that is absent is an
      error. */
  function AplicarMapeo(fila: Fila, mapeos: seq<Mapeo>, parse: (string, Formato) -> Json): (r: Result<Objeto, string>)
    ensures r.Err? <==> exists i | 0 <= i < |mapeos| :: mapeos[i].requerido && !Presente(fila, mapeos[i])
    ensures r.Err? ==> exists i | 0 <= i < |mapeos| ::
      mapeos[i].requerido && !Presente(fila, mapeos[i]) && r.error == CampoFaltante(mapeos[i])
      && forall j | 0 <= j < i :: !(mapeos[j].requerido && !Presente(fila, mapeos[j]))
    ensures r.Ok? ==> KeySet(r.value) == set i | 0 <= i < |mapeos| && Presente(fila, mapeos[i]) :: mapeos[i].campoSistema
  {
    Recoger<Mapeo>(mapeos, (m: Mapeo) => Presente(fila, m), (m: Mapeo) => m.requerido, (m: Mapeo) => m.campoSistema,
            (m: Mapeo) => Convertir(GetOr(fila, Strip(m.campoArchivo), None), m.formato, parse), CampoFaltante)
  }

  // ------------------------------------------------------------------
  // `_inferir_campos_csv`

  /** Header normalisation: every non-empty header is normalised; a later
      header that normalises to the same key overwrites the earlier cell. */
  function NormalizarFila(fila: Fila): Fila {
    Rekey(fila, NormalizeKey, NonEmpty)
  }

  /** The normalised row has exactly the normalised non-empty headers, each
      already in normal form and none twice. */
  lemma NormalizarFilaKeys(fila: Fila, k: string)
    ensures NoDupKeys(NormalizarFila(fila))
    ensures HasKey(NormalizarFila(fila), k) <==> exists i | 0 <= i < |fila| :: |fila[i].0| > 0 && NormalizeKey(fila[i].0) == k
    ensures HasKey(NormalizarFila(fila), k) ==> NormalizeKey(k) == k
  {
    HasKeyIffInKeySet(NormalizarFila(fila), k);
    if HasKey(NormalizarFila(fila), k) {
      var i :| 0 <= i < |fila| && NonEmpty(fila[i].0) && NormalizeKey(fila[i].0) == k;
      NormalizeKeyIdempotent(fila[i].0);
    }
  }

  /** A field and the header aliases that feed it, in order of preference. */
  datatype Regla = Regla(campo: string, alias: seq<string>)

  /** The alias table as the source writes it: the name column feeds a field
      called `'nombre'`, which the rest of the import never reads. */
  const ReglasAsWritten: seq<Regla> := [
    Regla("nombre", ["name", "nombre", "objeto", "descripcion", "title"]),
    Regla("codigo_inventario", ["codigo", "inventario", "codigo_inventario", "id", "referencia"]),
    Regla("categoria", ["categoria", "tipo", "clasificacion", "category", "type"]),
    Regla("historia", ["historia", "descripcion", "description", "detalles", "info"]),
    Regla("fecha_adquisicion", ["fecha", "adquisicion", "fecha_adquisicion", "date", "fecha_compra"]),
    Regla("estado_conservacion", ["estado", "conservacion", "estado_conservacion", "condicion", "condition"]),
    Regla("ubicacion_actual", ["ubicacion", "localizacion", "ubicacion_actual", "location", "lugar"]),
    Regla("valor_estimado", ["valor", "precio", "valor_estimado", "costo", "value", "price"]),
    Regla("observaciones", ["observaciones", "notas", "comentarios", "remarks", "notes"])
  ]

  /** The corrected table: the name column feeds `'name'`. */
  const Reglas: seq<Regla> := ReglasAsWritten[0 := Regla("name", ReglasAsWritten[0].alias)]

  predicate CamposDistintos(reglas: seq<Regla>) {
    forall i, j | 0 <= i < j < |reglas| :: reglas[i].campo != reglas[j].campo
  }

  /** Some alias of the rule is a header of the row. */
  predicate Encontrado(f: Fila, r: Regla) {
    exists a | a in r.alias :: HasKey(f, a)
  }

  /** The first alias of the rule present in the row. */
  function PrimerAlias(f: Fila, r: Regla): (i: nat)
    ensures i <= |r.alias|
    ensures i < |r.alias| <==> Encontrado(f, r)
    ensures i < |r.alias| ==> HasKey(f, r.alias[i])
    ensures forall j | 0 <= j < i :: !HasKey(f, r.alias[j])
  {
    FirstWhere(r.alias, a => HasKey(f, a))
  }

  /** Every rule whose alias is present sets its field, in rule order. */
  function AplicarReglas(f: Fila, reglas: seq<Regla>): (res: Fila)
    ensures NoDupKeys(res)
    decreases |reglas|
  {
    if |reglas| == 0 then []
    else
      var n := |reglas| - 1;
      var res := AplicarReglas(f, reglas[..n]);
      var i := PrimerAlias(f, reglas[n]);
      if i < |reglas[n].alias| then
        PutNoDup(res, reglas[n].campo, Get(f, reglas[n].alias[i]));
        Put(res, reglas[n].campo, Get(f, reglas[n].alias[i]))
      else res
  }

  /** Some rule for field `k` found an alias in the row. */
  predicate Fija(f: Fila, reglas: seq<Regla>, k: string) {
    exists i | 0 <= i < |reglas| :: reglas[i].campo == k && Encontrado(f, reglas[i])
  }

  lemma FijaSnoc(f: Fila, reglas: seq<Regla>, k: string)
    requires |reglas| > 0
    ensures Fija(f, reglas, k) <==>
      Fija(f, reglas[..|reglas| - 1], k) || (reglas[|reglas| - 1].campo == k && Encontrado(f, reglas[|reglas| - 1]))
  {
    var pre := reglas[..|reglas| - 1];
    assert forall i | 0 <= i < |pre| :: pre[i] == reglas[i];
  }

  /** A field is set exactly when its rule found an alias. */
  lemma {:induction false} AplicarReglasKeys(f: Fila, reglas: seq<Regla>, k: string)
    ensures HasKey(AplicarReglas(f, reglas), k) <==>
      exists i | 0 <= i < |reglas| :: reglas[i].campo == k && Encontrado(f, reglas[i])
    decreases |reglas|
  {
    if |reglas| > 0 {
      var n := |reglas| - 1;
      var pre := reglas[..n];
      AplicarReglasKeys(f, pre, k);
      FijaSnoc(f, reglas, k);
      var res := AplicarReglas(f, pre);
      var c := reglas[n].campo;
      var i := PrimerAlias(f, reglas[n]);
      if i < |reglas[n].alias| && k != c {
        GetPutOther(res, c, Get(f, reglas[n].alias[i]), k);
      } else if i < |reglas[n].alias| {
        GetPutSame(res, c, Get(f, reglas[n].alias[i]));
      }
      assert HasKey(AplicarReglas(f, reglas), k) <==> Fija(f, reglas, k);
    }
  }

  /** With distinct fields, a found rule's field holds the cell of its first
      alias present in the row. */
  lemma {:induction false} AplicarReglasValue(f: Fila, reglas: seq<Regla>, i: nat)
    requires CamposDistintos(reglas)
    requires i < |reglas| && Encontrado(f, reglas[i])
    ensures HasKey(AplicarReglas(f, reglas), reglas[i].campo)
    ensures Get(AplicarReglas(f, reglas), reglas[i].campo) == Get(f, reglas[i].alias[PrimerAlias(f, reglas[i])])
    decreases |reglas|
  {
    var n := |reglas| - 1;
    var pre := reglas[..n];
    var res := AplicarReglas(f, pre);
    var c := reglas[n].campo;
    var a := PrimerAlias(f, reglas[n]);
    if i == n {
      GetPutSame(res, c, Get(f, reglas[n].alias[a]));
    } else {
      assert pre[i] == reglas[i];
      AplicarReglasValue(f, pre, i);
      if a < |reglas[n].alias| {
        GetPutOther(res, c, Get(f, reglas[n].alias[a]), reglas[i].campo);
      }
    }
  }

  /** A cell the fallback accepts as a name: non-empty and shorter than 100
      characters. */
  predicate Usable(e: (string, Option<string>)) {
    Lleno(e.1) && |e.1.value| < 100
  }

  /** A cell holding text. */
  predicate Lleno(v: Option<string>) {
    v.Some? && |v.value| > 0
  }

  /** `_inferir_campos_csv` under a rule table: the rules' fields, and when
      neither `'name'` nor `'codigo_inventario'` was found, the first usable
      cell of the row as `'name'`. */
  function Inferir(fila: Fila, reglas: seq<Regla>): (r: Fila)
    ensures NoDupKeys(r)
  {
    var f := NormalizarFila(fila);
    var res := AplicarReglas(f, reglas);
    if !HasKey(res, "name") && !HasKey(res, "codigo_inventario") then
      var j := FirstWhere(f, Usable);
      if j < |f| then
        PutNoDup(res, "name", f[j].1);
        Put(res, "name", f[j].1)
      else res
    else res
  }

  /** The inferred fields are those of the table, plus `'name'`. */
  lemma InferirKeys(fila: Fila, reglas: seq<Regla>, k: string)
    requires HasKey(Inferir(fila, reglas), k)
    ensures k == "name" || exists i | 0 <= i < |reglas| :: reglas[i].campo == k
  {
    var f := NormalizarFila(fila);
    var res := AplicarReglas(f, reglas);
    AplicarReglasKeys(f, reglas, k);
    if k != "name" && !HasKey(res, "name") && !HasKey(res, "codigo_inventario") {
      var j := FirstWhere(f, Usable);
      if j < |f| {
        GetPutOther(res, "name", f[j].1, k);
      }
    }
  }

  /** When no rule set `'name'` or `'codigo_inventario'`, `'name'` holds the
      first usable cell of the normalised row, if there is one; otherwise
      the row is exactly what the rules set. */
  lemma InferirFallback(fila: Fila, reglas: seq<Regla>)
    requires !Fija(NormalizarFila(fila), reglas, "name")
    requires !Fija(NormalizarFila(fila), reglas, "codigo_inventario")
    ensures var f := NormalizarFila(fila);
      var j := FirstWhere(f, Usable);
      && (j < |f| ==> HasKey(Inferir(fila, reglas), "name") && Get(Inferir(fila, reglas), "name") == f[j].1)
      && (j < |f| <==> exists i | 0 <= i < |f| :: Usable(f[i]))
      && (j == |f| ==> Inferir(fila, reglas) == AplicarReglas(f, reglas))
  {
    var f := NormalizarFila(fila);
    var res := AplicarReglas(f, reglas);
    AplicarReglasKeys(f, reglas, "name");
    AplicarReglasKeys(f, reglas, "codigo_inventario");
    var j := FirstWhere(f, Usable);
    if j < |f| {
      GetPutSame(res, "name", f[j].1);
    }
  }

  // ------------------------------------------------------------------
  // `_validar_objetos`

  /** The import options of the wizard. */
  datatype Config = Config(museo: nat, sobrescribir: bool, validarDuplicados: bool, crearCategorias: bool)

  /** The selection keys of `categoria` and `estado_conservacion`. */
  const Categorias: seq<string> := ["arqueologico", "historico", "artistico", "etnografico", "cientifico", "otros"]
  const Estados: seq<string> := ["excelente", "bueno", "regular", "malo", "restauracion"]

  predicate IsCategoria(j: Json) {
    j.JStr? && j.s in Categorias
  }

  predicate IsEstado(j: Json) {
    j.JStr? && j.s in Estados
  }

  const SinNombre: string := "Falta el nombre del objeto"
  const SinCodigo: string := "Falta el c\U{F3}digo de inventario"
  const Duplicado: string := "Ya existe un objeto con este c\U{F3}digo de inventario"

  function CategoriaInvalida(c: Json): string {
    "Categor\U{ED}a no v\U{E1}lida: " + Str(c)
  }

  /** The message of the `AttributeError` a non-object row raises. */
  function Desconocido(obj: Json): string {
    "Error desconocido - '" + TypeName(obj) + "' object has no attribute 'get'"
  }

  /** A list or a dict: Python cannot look it up among the selection keys. */
  predicate Unhashable(j: Json) {
    j.JList? || j.JObj?
  }

  /** The message of the `TypeError` the lookup of an unhashable value
      raises, caught as an unknown error. */
  function NoHashable(j: Json): string {
    "Error desconocido - unhashable type: '" + TypeName(j) + "'"
  }

  /** The code is already used in the museum. */
  predicate Duplicated(o: Objeto, cfg: Config, existentes: seq<Json>) {
    !cfg.sobrescribir && cfg.validarDuplicados && Field(o, "codigo_inventario", JNull) in existentes
  }

  /** An object the validation lets through. */
  predicate Aceptable(obj: Json, cfg: Config, existentes: seq<Json>) {
    obj.JObj?
    && Truthy(Field(obj.fields, "name", JNull))
    && Truthy(Field(obj.fields, "codigo_inventario", JNull))
    && !Duplicated(obj.fields, cfg, existentes)
    && !Unhashable(Field(obj.fields, "categoria", JStr("otros")))
    && (IsCategoria(Field(obj.fields, "categoria", JStr("otros"))) || cfg.crearCategorias)
    && !Unhashable(Field(obj.fields, "estado_conservacion", JStr("bueno")))
  }

  /** `if not ok(o.get(k, d)): o[k] = d` */
  function Corregir(o: Objeto, k: string, d: Json, ok: Json -> bool): Objeto {
    if ok(Field(o, k, d)) then o else Put(o, k, d)
  }

  /** A correction leaves the field acceptable when its default is, and
      leaves every other field alone. */
  lemma CorregirSpec(o: Objeto, k: string, d: Json, ok: Json -> bool, k': string, x: Json)
    ensures ok(d) ==> ok(Field(Corregir(o, k, d, ok), k, d))
    ensures k' != k ==> Field(Corregir(o, k, d, ok), k', x) == Field(o, k', x)
  {
    if !ok(Field(o, k, d)) {
      GetPutSame(o, k, d);
      if k' != k { GetPutOther(o, k, d, k'); }
    }
  }

  /** The defaults an accepted object receives: category `'otros'`,
      conservation state `'bueno'`, value 0 for a falsy value, and the
      museum. */
  function Completar(o: Objeto, museo: nat): Objeto {
    var o1 := Corregir(o, "categoria", JStr("otros"), IsCategoria);
    var o2 := Corregir(o1, "estado_conservacion", JStr("bueno"), IsEstado);
    var o3 := Corregir(o2, "valor_estimado", JNum(0), Truthy);
    Put(o3, "museo_id", JNum(museo))
  }

  /** One row of `_validar_objetos`: the required fields, the duplicate
      check, the category check, the state check, then the defaults.  A
      list or dict category or state fails its lookup among the selection
      keys with a `TypeError`.  The parsing of the acquisition date and of
      the value is not modelled. */
  function ValidarObjeto(obj: Json, cfg: Config, existentes: seq<Json>): (r: Result<Objeto, string>)
    ensures r.Ok? <==> Aceptable(obj, cfg, existentes)
    ensures r.Ok? ==> r.value == Completar(obj.fields, cfg.museo)
    ensures !obj.JObj? ==> r == Err(Desconocido(obj))
    ensures obj.JObj? && !Truthy(Field(obj.fields, "name", JNull)) ==> r == Err(SinNombre)
    ensures obj.JObj? && Truthy(Field(obj.fields, "name", JNull))
      && Truthy(Field(obj.fields, "codigo_inventario", JNull)) && !Duplicated(obj.fields, cfg, existentes)
      && Unhashable(Field(obj.fields, "categoria", JStr("otros")))
      ==> r == Err(NoHashable(Field(obj.fields, "categoria", JStr("otros"))))
  {
    match obj
    case JObj(o) =>
      if !Truthy(Field(o, "name", JNull)) then Err(SinNombre)
      else if !Truthy(Field(o, "codigo_inventario", JNull)) then Err(SinCodigo)
      else if Duplicated(o, cfg, existentes) then Err(Duplicado)
      else
        var cat := Field(o, "categoria", JStr("otros"));
        var est := Field(o, "estado_conservacion", JStr("bueno"));
        if Unhashable(cat) then Err(NoHashable(cat))
        else if !IsCategoria(cat) && !cfg.crearCategorias then Err(CategoriaInvalida(cat))
        else if Unhashable(est) then Err(NoHashable(est))
        else Ok(Completar(o, cfg.museo))
    case _ => Err(Desconocido(obj))
  }

  /** What the validation guarantees of an accepted object. */
  predicate Conforme(o: Objeto, cfg: Config) {
    Truthy(Field(o, "name", JNull))
    && Truthy(Field(o, "codigo_inventario", JNull))
    && IsCategoria(Field(o, "categoria", JStr("otros")))
    && IsEstado(Field(o, "estado_conservacion", JStr("bueno")))
    && Field(o, "museo_id", JNull) == JNum(cfg.museo)
  }

  /** The four fields the validation may rewrite. */
  predicate Normalizado(k: string) {
    k == "categoria" || k == "estado_conservacion" || k == "valor_estimado" || k == "museo_id"
  }

  /** The defaults make the category and state valid, set the museum, and
      keep every other field. */
  lemma CompletarSpec(o: Objeto, museo: nat, k: string)
    ensures var c := Completar(o, museo);
      IsCategoria(Field(c, "categoria", JStr("otros")))
      && IsEstado(Field(c, "estado_conservacion", JStr("bueno")))
      && Field(c, "museo_id", JNull) == JNum(museo)
      && (!Normalizado(k) ==> Field(c, k, JNull) == Field(o, k, JNull))
  {
    var o1 := Corregir(o, "categoria", JStr("otros"), IsCategoria);
    var o2 := Corregir(o1, "estado_conservacion", JStr("bueno"), IsEstado);
    var o3 := Corregir(o2, "valor_estimado", JNum(0), Truthy);
    CorregirSpec(o, "categoria", JStr("otros"), IsCategoria, k, JNull);
    CorregirSpec(o1, "estado_conservacion", JStr("bueno"), IsEstado, k, JNull);
    CorregirSpec(o2, "valor_estimado", JNum(0), Truthy, k, JNull);
    CorregirSpec(o1, "estado_conservacion", JStr("bueno"), IsEstado, "categoria", JStr("otros"));
    CorregirSpec(o2, "valor_estimado", JNum(0), Truthy, "categoria", JStr("otros"));
    CorregirSpec(o2, "valor_estimado", JNum(0), Truthy, "estado_conservacion", JStr("bueno"));
    GetPutSame(o3, "museo_id", JNum(museo));
    GetPutOther(o3, "museo_id", JNum(museo), "categoria");
    GetPutOther(o3, "museo_id", JNum(museo), "estado_conservacion");
    if !Normalizado(k) { GetPutOther(o3, "museo_id", JNum(museo), k); }
  }

  /** An accepted object is valid for the model and keeps every other field
      of the row. */
  lemma ValidarObjetoConforme(obj: Json, cfg: Config, existentes: seq<Json>, k: string)
    requires ValidarObjeto(obj, cfg, existentes).Ok?
    ensures Conforme(ValidarObjeto(obj, cfg, existentes).value, cfg)
    ensures !Normalizado(k) ==>
      Field(ValidarObjeto(obj, cfg, existentes).value, k, JNull) == Field(obj.fields, k, JNull)
  {
    CompletarSpec(obj.fields, cfg.museo, k);
    CompletarSpec(obj.fields, cfg.museo, "name");
    CompletarSpec(obj.fields, cfg.museo, "codigo_inventario");
  }

  /** The row-numbered error line. */
  function FilaError(i: nat, e: string): string {
    "Fila " + NatToString(i) + ": " + e
  }

  /** The validation of one row under the wizard's options. */
  function Validador(cfg: Config, existentes: seq<Json>): Json -> Result<Objeto, string> {
    o => ValidarObjeto(o, cfg, existentes)
  }

  /** The accepted objects and the error lines, in row order. */
  function Validacion(objetos: seq<Json>, validar: Json -> Result<Objeto, string>): (v: (seq<Objeto>, seq<string>))
    ensures |v.0| + |v.1| == |objetos|
    ensures forall k | 0 <= k < |v.0| :: exists i | 0 <= i < |objetos| :: validar(objetos[i]) == Ok(v.0[k])
    ensures |v.0| == 0 <==> forall i | 0 <= i < |objetos| :: validar(objetos[i]).Err?
    decreases |objetos|
  {
    if |objetos| == 0 then ([], [])
    else
      var n := |objetos| - 1;
      var pre := Validacion(objetos[..n], validar);
      assert forall i | 0 <= i < n :: objetos[..n][i] == objetos[i];
      match validar(objetos[n])
      case Ok(o) => (pre.0 + [o], pre.1)
      case Err(e) => (pre.0, pre.1 + [FilaError(n + 1, e)])
  }

  /** Every accepted object is kept. */
  lemma {:induction false} ValidacionAceptados(objetos: seq<Json>, validar: Json -> Result<Objeto, string>)
    ensures forall i | 0 <= i < |objetos| :: validar(objetos[i]).Ok? ==>
      validar(objetos[i]).value in Validacion(objetos, validar).0
    decreases |objetos|
  {
    if |objetos| > 0 {
      var n := |objetos| - 1;
      assert forall i | 0 <= i < n :: objetos[..n][i] == objetos[i];
      ValidacionAceptados(objetos[..n], validar);
    }
  }

  /** When every row is rejected, the error lines are the rows' errors
      numbered from 1. */
  lemma {:induction false} ValidacionTodosFallan(objetos: seq<Json>, validar: Json -> Result<Objeto, string>)
    requires forall i | 0 <= i < |objetos| :: validar(objetos[i]).Err?
    ensures var errs := Validacion(objetos, validar).1;
      |errs| == |objetos|
      && forall i | 0 <= i < |objetos| :: errs[i] == FilaError(i + 1, validar(objetos[i]).error)
    decreases |objetos|
  {
    if |objetos| > 0 {
      var n := |objetos| - 1;
      assert forall i | 0 <= i < n :: objetos[..n][i] == objetos[i];
      ValidacionTodosFallan(objetos[..n], validar);
    }
  }

  const NingunObjeto: string := "No se pudo importar ning\U{FA}n objeto:\n"

  /** `_validar_objetos`: the accepted objects, unless there are rows and
      all of them were rejected; the error then lists the first ten. */
  function ValidarObjetos(objetos: seq<Json>, cfg: Config, existentes: seq<Json>): (r: Result<seq<Objeto>, string>)
    ensures r.Err? <==> |objetos| > 0 && forall i | 0 <= i < |objetos| :: ValidarObjeto(objetos[i], cfg, existentes).Err?
    ensures r.Ok? ==> forall k | 0 <= k < |r.value| ::
      exists i | 0 <= i < |objetos| :: ValidarObjeto(objetos[i], cfg, existentes) == Ok(r.value[k])
    ensures r.Ok? && |objetos| > 0 ==> |r.value| > 0
  {
    var v := Validacion(objetos, Validador(cfg, existentes));
    if |v.1| > 0 && |v.1| == |objetos| then
      Err(NingunObjeto + JoinWith(Primeras(v.1, 10), "\n"))
    else Ok(v.0)
  }

  /** `s[:n]` */
  function Primeras<T>(s: seq<T>, n: nat): (r: seq<T>)
    ensures |r| == (if |s| <= n then |s| else n)
    ensures forall i | 0 <= i < |r| :: r[i] == s[i]
  {
    if |s| <= n then s else s[..n]
  }

  /** When every row is rejected the message names the first ten rows in
      order. */
  lemma ValidarObjetosMensaje(objetos: seq<Json>, cfg: Config, existentes: seq<Json>)
    requires |objetos| > 0
    requires forall i | 0 <= i < |objetos| :: ValidarObjeto(objetos[i], cfg, existentes).Err?
    ensures var lines := Primeras(Validacion(objetos, Validador(cfg, existentes)).1, 10);
      ValidarObjetos(objetos, cfg, existentes) == Err(NingunObjeto + JoinWith(lines, "\n"))
      && |lines| == (if |objetos| <= 10 then |objetos| else 10)
      && forall i | 0 <= i < |lines| ::
           lines[i] == FilaError(i + 1, ValidarObjeto(objetos[i], cfg, existentes).error)
  {
    ValidacionTodosFallan(objetos, Validador(cfg, existentes));
    var errs := Validacion(objetos, Validador(cfg, existentes)).1;
    var lines := Primeras(errs, 10);
    forall i | 0 <= i < |lines|
      ensures lines[i] == FilaError(i + 1, ValidarObjeto(objetos[i], cfg, existentes).error)
    {
      assert Validador(cfg, existentes)(objetos[i]) == ValidarObjeto(objetos[i], cfg, existentes);
    }
  }

  // ------------------------------------------------------------------
  // The CSV finding

  /** Under a table with no `'name'` field, an inferred row never carries
      both `'name'` and `'codigo_inventario'`: the fallback that sets
      `'name'` only runs when no code column was found either. */
  lemma {:induction false} InferirSinName(fila: Fila, reglas: seq<Regla>)
    requires forall i | 0 <= i < |reglas| :: reglas[i].campo != "name"
    ensures var o := ComoObjeto(Inferir(fila, reglas));
      !Truthy(Field(o, "name", JNull)) || !Truthy(Field(o, "codigo_inventario", JNull))
  {
    var f := NormalizarFila(fila);
    var res := AplicarReglas(f, reglas);
    AplicarReglasKeys(f, reglas, "name");
    var out := Inferir(fila, reglas);
    ComoObjetoField(out, "name");
    ComoObjetoField(out, "codigo_inventario");
    if !HasKey(res, "codigo_inventario") {
      var j := FirstWhere(f, Usable);
      if j < |f| {
        GetPutOther(res, "name", f[j].1, "codigo_inventario");
      }
    }
  }

  lemma ReglasAsWrittenSinName()
    ensures forall i | 0 <= i < |ReglasAsWritten| :: ReglasAsWritten[i].campo != "name"
  {
  }

  /** Under the table as written, no inferred CSV row passes validation. */
  lemma InferirAsWrittenRejected(fila: Fila, cfg: Config, existentes: seq<Json>)
    ensures ValidarObjeto(JObj(ComoObjeto(Inferir(fila, ReglasAsWritten))), cfg, existentes).Err?
  {
    ReglasAsWrittenSinName();
    InferirSinName(fila, ReglasAsWritten);
  }

  /** Under a table whose first two rules feed `'name'` and
      `'codigo_inventario'`, a row whose first name and code columns hold
      text passes the required-field checks. */
  lemma InferirConNombre(fila: Fila, reglas: seq<Regla>)
    requires CamposDistintos(reglas)
    requires |reglas| >= 2 && reglas[0].campo == "name" && reglas[1].campo == "codigo_inventario"
    requires var f := NormalizarFila(fila);
      Encontrado(f, reglas[0]) && Encontrado(f, reglas[1])
      && Lleno(Get(f, reglas[0].alias[PrimerAlias(f, reglas[0])]))
      && Lleno(Get(f, reglas[1].alias[PrimerAlias(f, reglas[1])]))
    ensures var o := ComoObjeto(Inferir(fila, reglas));
      Truthy(Field(o, "name", JNull)) && Truthy(Field(o, "codigo_inventario", JNull))
  {
    var f := NormalizarFila(fila);
    AplicarReglasValue(f, reglas, 0);
    AplicarReglasValue(f, reglas, 1);
    var out := Inferir(fila, reglas);
    assert out == AplicarReglas(f, reglas);
    ComoObjetoField(out, "name");
    ComoObjetoField(out, "codigo_inventario");
  }

  lemma ReglasDistintas()
    ensures CamposDistintos(Reglas)
    ensures Reglas[0].campo == "name" && Reglas[1].campo == "codigo_inventario"
  {
  }

  /** Under the corrected table a row whose name and code columns hold
      text passes the required-field checks. */
  lemma InferirIdentifica(fila: Fila)
    requires var f := NormalizarFila(fila);
      Encontrado(f, Reglas[0]) && Encontrado(f, Reglas[1])
      && Lleno(Get(f, Reglas[0].alias[PrimerAlias(f, Reglas[0])]))
      && Lleno(Get(f, Reglas[1].alias[PrimerAlias(f, Reglas[1])]))
    ensures var o := ComoObjeto(Inferir(fila, Reglas));
      Truthy(Field(o, "name", JNull)) && Truthy(Field(o, "codigo_inventario", JNull))
  {
    ReglasDistintas();
    InferirConNombre(fila, Reglas);
  }

  // ------------------------------------------------------------------
  // `_procesar_csv`

  /** The CSV reader: the text and the delimiter to rows. */
  type Lector = (string, char) -> seq<Fila>

  /** The rows of the file, read with the detected delimiter, each mapped
      by the configured columns or, with none configured, inferred. */
  function ProcesarCsv(contenido: string, leer: Lector, mapeos: seq<Mapeo>, parse: (string, Formato) -> Json): (r: Result<seq<Json>, string>)
    ensures |mapeos| == 0 ==> r.Ok?
    ensures r.Ok? ==> |r.value| == |leer(contenido, DetectarDelimitador(contenido))|
    ensures r.Err? ==> exists i | 0 <= i < |leer(contenido, DetectarDelimitador(contenido))| ::
      var e := AplicarMapeo(Limpiar(leer(contenido, DetectarDelimitador(contenido))[i]), mapeos, parse);
      e.Err? && r.error == ErrorCsv + e.error
  {
    var filas := leer(contenido, DetectarDelimitador(contenido));
    FilasObjetos(filas, mapeos, parse)
  }

  /** Maps the rows in order, stopping at the first row whose mapping
      fails. */
  function MapearFilas<T>(filas: seq<T>, mapear: T -> Result<Json, string>): (r: Result<seq<Json>, string>)
    ensures r.Ok? <==> forall i | 0 <= i < |filas| :: mapear(filas[i]).Ok?
    ensures r.Ok? ==> |r.value| == |filas| && forall i | 0 <= i < |filas| :: r.value[i] == mapear(filas[i]).value
    ensures r.Err? ==> exists i | 0 <= i < |filas| :: mapear(filas[i]).Err? && r.error == mapear(filas[i]).error
    decreases |filas|
  {
    if |filas| == 0 then Ok([])
    else
      var n := |filas| - 1;
      assert forall i | 0 <= i < n :: filas[..n][i] == filas[i];
      match MapearFilas(filas[..n], mapear)
      case Err(e) => Err(e)
      case Ok(objs) =>
        match mapear(filas[n])
        case Err(e) => Err(e)
        case Ok(o) => Ok(objs + [o])
  }

  const ErrorCsv: string := "Error al procesar CSV: "

  /** One row of the file: cleaned, then mapped by the configured columns
      or, with none configured, inferred. */
  function MapearFila(fila: Fila, mapeos: seq<Mapeo>, parse: (string, Formato) -> Json): (r: Result<Json, string>)
    ensures r.Err? <==> |mapeos| > 0 && AplicarMapeo(Limpiar(fila), mapeos, parse).Err?
    ensures r.Err? ==> r.error == ErrorCsv + AplicarMapeo(Limpiar(fila), mapeos, parse).error
    ensures r.Ok? ==> r.value.JObj?
    ensures |mapeos| == 0 ==> r.value.fields == ComoObjeto(Inferir(Limpiar(fila), Reglas))
  {
    var f := Limpiar(fila);
    if |mapeos| > 0 then
      match AplicarMapeo(f, mapeos, parse)
      case Err(e) => Err(ErrorCsv + e)
      case Ok(o) => Ok(JObj(o))
    else Ok(JObj(ComoObjeto(Inferir(f, Reglas))))
  }

  function PorFila(mapeos: seq<Mapeo>, parse: (string, Formato) -> Json): Fila -> Result<Json, string> {
    fila => MapearFila(fila, mapeos, parse)
  }

  function FilasObjetos(filas: seq<Fila>, mapeos: seq<Mapeo>, parse: (string, Formato) -> Json): (r: Result<seq<Json>, string>)
    ensures |mapeos| == 0 ==> r.Ok?
    ensures r.Ok? ==> |r.value| == |filas|
    ensures r.Ok? && |mapeos| == 0 ==> forall i | 0 <= i < |filas| ::
      r.value[i] == JObj(ComoObjeto(Inferir(Limpiar(filas[i]), Reglas)))
    ensures r.Err? ==> exists i | 0 <= i < |filas| ::
      var e := AplicarMapeo(Limpiar(filas[i]), mapeos, parse);
      e.Err? && r.error == ErrorCsv + e.error
  {
    MapearFilas(filas, PorFila(mapeos, parse))
  }

  // ------------------------------------------------------------------
  // `_importar_objetos`

  /** The running state of the import: counters, error lines, the codes
      known to the museum (the existing ones, then those created), and
      whether the database has aborted the transaction. */
  datatype Estado = Estado(creados: nat, actualizados: nat, errores: seq<string>, codigos: seq<Json>, abortada: bool)

  function Codigo(o: Objeto): Json {
    Field(o, "codigo_inventario", JNull)
  }

  /** The line of an object whose search or write failed. */
  function ErrorImportacion(o: Objeto, e: string): string {
    Str(Field(o, "name", JStr("Sin nombre"))) + " ("
      + Str(Field(o, "codigo_inventario", JStr("Sin c\U{F3}digo"))) + "): " + e
  }

  /** The database's answer to writing an object: written; refused before
      anything reached the database (a value the ORM cannot convert); or
      refused by the database itself (a `NOT NULL` column such as
      `historia` left empty), which aborts the whole transaction. */
  datatype Respuesta = Escrito | Rechazo(error: string) | Aborto(error: string)

  type Escritura = Objeto -> Respuesta

  /** What every query raises once the transaction is aborted. */
  const TransaccionAbortada: string := "current transaction is aborted, commands ignored until end of transaction block"

  /** Objects whose code exists are updated when overwriting and skipped
      otherwise; new codes are created.  Once the transaction is aborted,
      the search of every later object fails and adds an error line. */
  function Importando(objs: seq<Objeto>, sobrescribir: bool, existentes: seq<Json>, falla: Escritura): (st: Estado)
    ensures st.creados + st.actualizados + |st.errores| <= |objs|
    ensures !sobrescribir ==> st.actualizados == 0
    ensures |st.codigos| == |existentes| + st.creados
    ensures st.codigos[..|existentes|] == existentes
    ensures forall i, j | |existentes| <= i < |st.codigos| && 0 <= j < |st.codigos| && i != j ::
      st.codigos[i] != st.codigos[j]
    ensures st.abortada ==> exists i | 0 <= i < |objs| :: falla(objs[i]).Aborto?
    ensures sobrescribir ==> (st.abortada <==> exists i | 0 <= i < |objs| :: falla(objs[i]).Aborto?)
    decreases |objs|
  {
    if |objs| == 0 then Estado(0, 0, [], existentes, false)
    else
      var n := |objs| - 1;
      var st := Importando(objs[..n], sobrescribir, existentes, falla);
      assert forall i | 0 <= i < n :: objs[..n][i] == objs[i];
      var o := objs[n];
      if st.abortada then st.(errores := st.errores + [ErrorImportacion(o, TransaccionAbortada)])
      else
        var existe := Codigo(o) in st.codigos;
        if existe && !sobrescribir then st
        else match falla(o)
          case Rechazo(e) => st.(errores := st.errores + [ErrorImportacion(o, e)])
          case Aborto(e) => st.(errores := st.errores + [ErrorImportacion(o, e)], abortada := true)
          case Escrito =>
            if existe then st.(actualizados := st.actualizados + 1)
            else
              var cs := st.codigos + [Codigo(o)];
              assert cs[..|existentes|] == existentes;
              st.(creados := st.creados + 1, codigos := cs)
  }

  /** When the database accepts every write and existing objects are
      overwritten, every object is either created or updated. */
  lemma {:induction false} ImportandoSinFallos(objs: seq<Objeto>, existentes: seq<Json>, falla: Escritura)
    requires forall i | 0 <= i < |objs| :: falla(objs[i]).Escrito?
    ensures var st := Importando(objs, true, existentes, falla);
      st.creados + st.actualizados == |objs| && |st.errores| == 0 && !st.abortada
    decreases |objs|
  {
    if |objs| > 0 {
      var n := |objs| - 1;
      assert forall i | 0 <= i < n :: objs[..n][i] == objs[i];
      ImportandoSinFallos(objs[..n], existentes, falla);
    }
  }

  /** Without overwriting, an object whose code the museum already has is
      neither written nor counted, unless the transaction is already
      aborted. */
  lemma ImportandoSalta(objs: seq<Objeto>, existentes: seq<Json>, falla: Escritura, o: Objeto)
    requires Codigo(o) in existentes
    requires !Importando(objs, false, existentes, falla).abortada
    ensures Importando(objs + [o], false, existentes, falla) == Importando(objs, false, existentes, falla)
  {
    var st := Importando(objs, false, existentes, falla);
    assert (objs + [o])[..|objs|] == objs;
    assert st.codigos[..|existentes|] == existentes;
    assert Codigo(o) in st.codigos;
  }

  /** Once the transaction is aborted, one more object only adds the
      aborted-transaction error line. */
  lemma PasoTrasAborto(objs: seq<Objeto>, o: Objeto, sobrescribir: bool, existentes: seq<Json>, falla: Escritura)
    requires Importando(objs, sobrescribir, existentes, falla).abortada
    ensures var st := Importando(objs, sobrescribir, existentes, falla);
      Importando(objs + [o], sobrescribir, existentes, falla)
        == st.(errores := st.errores + [ErrorImportacion(o, TransaccionAbortada)])
  {
    var todos := objs + [o];
    assert todos[..|todos| - 1] == objs;
    assert todos[|todos| - 1] == o;
  }

  /** After an abort nothing more is created or updated, and each further
      object adds exactly one error line. */
  lemma {:induction false} ImportandoTrasAborto(objs: seq<Objeto>, mas: seq<Objeto>, sobrescribir: bool,
                                                existentes: seq<Json>, falla: Escritura)
    requires Importando(objs, sobrescribir, existentes, falla).abortada
    ensures var st := Importando(objs, sobrescribir, existentes, falla);
      var st' := Importando(objs + mas, sobrescribir, existentes, falla);
      st'.abortada && st'.creados == st.creados && st'.actualizados == st.actualizados
      && |st'.errores| == |st.errores| + |mas|
      && st'.errores[..|st.errores|] == st.errores
    decreases |mas|
  {
    if |mas| == 0 {
      assert objs + mas == objs;
    } else {
      var n := |mas| - 1;
      var init := objs + mas[..n];
      ImportandoTrasAborto(objs, mas[..n], sobrescribir, existentes, falla);
      PasoTrasAborto(init, mas[n], sobrescribir, existentes, falla);
      ConcatSnoc(objs, mas);
      var st := Importando(objs, sobrescribir, existentes, falla);
      var pre := Importando(init, sobrescribir, existentes, falla);
      var errores := pre.errores + [ErrorImportacion(mas[n], TransaccionAbortada)];
      assert errores[..|st.errores|] == pre.errores[..|st.errores|];
    }
  }

  /** The counters `_importar_objetos` returns, and whether the transaction
      was left aborted. */
  datatype Resultados = Resultados(creados: nat, actualizados: nat, errores: seq<string>, total: nat, abortada: bool)

  function ImportarObjetos(objs: seq<Objeto>, sobrescribir: bool, existentes: seq<Json>, falla: Escritura): (r: Resultados)
    ensures r.total == |objs|
    ensures r.creados + r.actualizados + |r.errores| <= r.total
    ensures !sobrescribir ==> r.actualizados == 0
    ensures r.abortada ==> exists i | 0 <= i < |objs| :: falla(objs[i]).Aborto?
    ensures sobrescribir ==> (r.abortada <==> exists i | 0 <= i < |objs| :: falla(objs[i]).Aborto?)
  {
    var st := Importando(objs, sobrescribir, existentes, falla);
    Resultados(st.creados, st.actualizados, st.errores, |objs|, st.abortada)
  }

  // ------------------------------------------------------------------
  // `_mostrar_resultados`

  const Sangria: string := "\n        "

  /** The summary heading with the three counters. */
  function Cabecera(r: Resultados): string {
    Sangria + "IMPORTACI\U{D3}N COMPLETADA"
    + Sangria + "======================"
    + Sangria + "Objetos creados: " + NatToString(r.creados)
    + Sangria + "Objetos actualizados: " + NatToString(r.actualizados)
    + Sangria + "Total procesados: " + NatToString(r.total)
    + Sangria
  }

  function Mas(k: nat): string {
    "... y " + NatToString(k) + " errores m\U{E1}s"
  }

  /** The error section: empty without errors; otherwise the count of all
      errors over the shown lines, one per line, so that every error beyond
      the fifth is counted and none of them listed. */
  function SeccionErrores(errores: seq<string>): (r: string)
    ensures |errores| == 0 ==> r == ""
    ensures |errores| > 0 ==>
      r == "\nErrores (" + NatToString(|errores|) + "):\n" + JoinWith(Mostrados(errores), "\n")
  {
    var n := |errores|;
    if n == 0 then ""
    else
      var h := "\nErrores (" + NatToString(n) + "):\n";
      if n > 5 then
        var m := Mas(n - 5);
        JoinWithSnoc(errores[..5], m, "\n");
        Reagrupar(h, JoinWith(errores[..5], "\n"), "\n", m);
        h + JoinWith(errores[..5], "\n") + ("\n" + m)
      else h + JoinWith(errores, "\n")
  }

  /** The lines the error section shows. */
  function Mostrados(errores: seq<string>): (r: seq<string>)
    ensures |errores| <= 5 ==> r == errores
    ensures |errores| > 5 ==> |r| == 6 && r[..5] == errores[..5] && r[5] == Mas(|errores| - 5)
  {
    if |errores| <= 5 then errores else errores[..5] + [Mas(|errores| - 5)]
  }

  lemma Reagrupar(h: string, a: string, sep: string, m: string)
    ensures h + a + (sep + m) == h + (a + sep + m)
  {
  }

  /** The import record and the notification. */
  datatype Registro = Registro(museo: nat, creados: nat, actualizados: nat, errores: nat, total: nat)
  datatype Notificacion = Notificacion(mensaje: string, exito: bool)

  function MostrarResultados(r: Resultados, museo: nat): (out: (Registro, Notificacion))
    ensures out.0.errores == |r.errores| && out.0.creados == r.creados
    ensures out.0.actualizados == r.actualizados && out.0.total == r.total && out.0.museo == museo
    ensures out.1.exito <==> |r.errores| == 0
    ensures |r.errores| == 0 ==> out.1.mensaje == Cabecera(r)
    ensures |r.errores| > 0 ==>
      out.1.mensaje == Cabecera(r) + "\nErrores (" + NatToString(|r.errores|) + "):\n" + JoinWith(Mostrados(r.errores), "\n")
  {
    (Registro(museo, r.creados, r.actualizados, |r.errores|, r.total),
     Notificacion(Cabecera(r) + SeccionErrores(r.errores), |r.errores| == 0))
  }

  // ------------------------------------------------------------------
  // `action_importar`

  /** The uploaded file, already decoded. */
  datatype Archivo = ArchivoJson(datos: Json) | ArchivoCsv(contenido: string)

  const SinArchivo: string := "Debe seleccionar un archivo para importar"
  const ErrorImportar: string := "Error al importar: "

  /** The objects of the file. */
  function Objetos(a: Archivo, leer: Lector, mapeos: seq<Mapeo>, parse: (string, Formato) -> Json): Result<seq<Json>, string> {
    match a
    case ArchivoJson(d) => ProcesarJson(d)
    case ArchivoCsv(c) => ProcesarCsv(c, leer, mapeos, parse)
  }

  /** `'Error al importar: '` followed by the message. */
  function Prefijar(e: string): (r: string)
    ensures |r| >= |ErrorImportar| && r[..|ErrorImportar|] == ErrorImportar
    ensures r[|ErrorImportar|..] == e
  {
    ErrorImportar + e
  }

  /** Validation, writing and the summary of the objects read from the
      file: an error comes back prefixed, and a summary is produced only
      when some object passed validation or there was none.  When the
      database aborted the transaction, the creation of the import record
      fails and the whole import reports the aborted transaction. */
  function Importar(objs: seq<Json>, cfg: Config, existentes: seq<Json>, falla: Escritura): (r: Result<(Registro, Notificacion), string>)
    ensures r.Err? ==> |r.error| >= |ErrorImportar| && r.error[..|ErrorImportar|] == ErrorImportar
    ensures r.Ok? ==> |objs| == 0 || exists i | 0 <= i < |objs| :: Aceptable(objs[i], cfg, existentes)
    ensures r.Ok? ==> forall i | 0 <= i < |objs| :: ValidarObjeto(objs[i], cfg, existentes).Ok? ==>
      !cfg.sobrescribir || !falla(ValidarObjeto(objs[i], cfg, existentes).value).Aborto?
    ensures r.Err? && ValidarObjetos(objs, cfg, existentes).Ok? ==> r.error == Prefijar(TransaccionAbortada)
    ensures r.Ok? ==>
      && r.value.0.museo == cfg.museo
      && r.value.0.creados + r.value.0.actualizados + r.value.0.errores <= r.value.0.total
      && (!cfg.sobrescribir ==> r.value.0.actualizados == 0)
  {
    match ValidarObjetos(objs, cfg, existentes)
    case Err(e) => Err(Prefijar(e))
    case Ok(validos) =>
      var res := ImportarObjetos(validos, cfg.sobrescribir, existentes, falla);
      if res.abortada then Err(Prefijar(TransaccionAbortada))
      else
        ValidosAceptados(objs, cfg, existentes, falla);
        Ok(MostrarResultados(res, cfg.museo))
  }

  /** When existing objects are overwritten, an accepted row the database
      refuses outright (a new object without `historia`, say) makes the
      whole import fail with the aborted transaction, whatever the other
      rows. */
  lemma ImportarAborta(objs: seq<Json>, cfg: Config, existentes: seq<Json>, falla: Escritura, i: nat)
    requires cfg.sobrescribir
    requires i < |objs| && ValidarObjeto(objs[i], cfg, existentes).Ok?
    requires falla(ValidarObjeto(objs[i], cfg, existentes).value).Aborto?
    ensures Importar(objs, cfg, existentes, falla) == Err(Prefijar(TransaccionAbortada))
  {
    assert Validador(cfg, existentes)(objs[i]).Ok?;
    ValidosAceptados(objs, cfg, existentes, falla);
  }

  /** Every accepted row is among the objects `_importar_objetos` receives. */
  lemma ValidosAceptados(objs: seq<Json>, cfg: Config, existentes: seq<Json>, falla: Escritura)
    requires ValidarObjetos(objs, cfg, existentes).Ok?
    ensures forall i | 0 <= i < |objs| :: ValidarObjeto(objs[i], cfg, existentes).Ok? ==>
      ValidarObjeto(objs[i], cfg, existentes).value in ValidarObjetos(objs, cfg, existentes).value
  {
    ValidacionAceptados(objs, Validador(cfg, existentes));
  }

  /** The whole import: read, validate, write, summarise; any failure after
      the file check is reported with the `'Error al importar: '` prefix. */
  function ActionImportar(archivo: Option<Archivo>, leer: Lector, mapeos: seq<Mapeo>,
                          parse: (string, Formato) -> Json, cfg: Config,
                          existentes: seq<Json>, falla: Escritura): (r: Result<(Registro, Notificacion), string>)
    ensures archivo.None? ==> r == Err(SinArchivo)
    ensures r.Err? && archivo.Some? ==> |r.error| >= |ErrorImportar| && r.error[..|ErrorImportar|] == ErrorImportar
    ensures archivo.Some? && r.Ok? ==>
      var objs := Objetos(archivo.value, leer, mapeos, parse);
      objs.Ok? && (|objs.value| == 0 || exists i | 0 <= i < |objs.value| :: Aceptable(objs.value[i], cfg, existentes))
    ensures r.Ok? ==>
      && r.value.0.museo == cfg.museo
      && r.value.0.creados + r.value.0.actualizados + r.value.0.errores <= r.value.0.total
      && (!cfg.sobrescribir ==> r.value.0.actualizados == 0)
  {
    match archivo
    case None => Err(SinArchivo)
    case Some(a) =>
      match Objetos(a, leer, mapeos, parse)
      case Err(e) => Err(Prefijar(e))
      case Ok(objs) => Importar(objs, cfg, existentes, falla)
  }
}

=== FILE: informe.dfy ===
/** Periodic museum reports (`museo.informe`): the statistics and metrics
    computed over the museum's completed activities inside the report
    window, the windows of the automatic reports, the scheduled generation
    that creates at most one report per museum, period and window, and the
    two state actions. */
module Informes {
  import opened Wrappers
  import opened Seqs
  import opened Dicts
  import opened Dates
  import opened Grouping
  import opened Busqueda
  import A = Actividades
  import R = Reportes

  datatype Periodo = Mensual | Trimestral | Anual | Personalizado

  datatype EstadoInforme = Borrador | Generado | Validado | Publicado

  datatype Informe = Informe(museo: nat, periodo: Periodo, inicio: Day, fin: Day, estado: EstadoInforme)

  // ------------------------------------------------------------------
  // Statistics (`_compute_estadisticas`)

  /** The activities both computed fields read: the museum's completed
      activities inside the report window, in store order. */
  function Realizadas(i: Informe, acts: seq<A.Activity>): seq<A.Activity> {
    Select(Filtros(i.museo, i.inicio, i.fin, None, Some(A.Realizada)), acts)
  }

  /** An activity is counted exactly when it belongs to the museum, is
      completed, starts no earlier than the first instant of `inicio` and
      ends before the day after `fin` begins. */
  lemma RealizadasIff(i: Informe, acts: seq<A.Activity>, a: A.Activity)
    ensures a in Realizadas(i, acts) <==>
      a in acts && a.museo == i.museo && a.estado == A.Realizada
      && a.inicio.Some? && Timestamp(a.inicio.value) >= Ordinal(i.inicio) * 86400
      && a.fin.Some? && Timestamp(a.fin.value) < (Ordinal(i.fin) + 1) * 86400
  {
    SelectIff(Filtros(i.museo, i.inicio, i.fin, None, Some(A.Realizada)), acts, a);
  }

  /** Revenue of one activity in cents: price times confirmed attendees. */
  function Ingreso(a: A.Activity): int {
    a.costo * a.confirmados
  }

  /** `q` is the average of `n` values adding up to `total`, or 0 when
      there are none. */
  predicate EsPromedio(q: real, total: int, n: nat) {
    if n == 0 then q == 0.0 else q * (n as real) == total as real
  }

  /** `total_asistentes / total_actividades`, or 0 without activities. */
  function PromedioAsistencia(asistentes: int, n: nat): (q: real)
    ensures n == 0 ==> q == 0.0
    ensures n > 0 ==> q * (n as real) == asistentes as real
    ensures EsPromedio(q, asistentes, n)
  {
    if n > 0 then (asistentes as real) / (n as real) else 0.0
  }

  datatype Estadisticas = Estadisticas(
    totalActividades: nat,
    totalAsistentes: int,
    promedio: real,
    porTipo: Dict<string, int>,
    ingresos: int)

  /** The per-type counts add up to the number of activities counted. */
  lemma PorTipoCuenta(sel: seq<A.Activity>)
    ensures Sum(Values(SumBy(sel, R.TipoName, One)), IntValue) == |sel|
  {
    SumByTotal(sel, R.TipoName, One);
    SumAtMost(sel, One, 1);
    SumAtLeast(sel, One, 1);
  }

  /** `_compute_estadisticas`: the per-type counts add up to the number of
      counted activities, the average times that number is the attendee
      total, and the revenue is price times attendees summed over them. */
  function ComputeEstadisticas(i: Informe, acts: seq<A.Activity>): (e: Estadisticas)
    ensures e.totalActividades == |Realizadas(i, acts)|
    ensures Sum(Values(e.porTipo), IntValue) == e.totalActividades
    ensures e.totalAsistentes == Sum(Realizadas(i, acts), R.ActAttendees)
    ensures EsPromedio(e.promedio, e.totalAsistentes, e.totalActividades)
    ensures e.ingresos == Sum(Realizadas(i, acts), Ingreso)
    ensures e.totalActividades == 0 ==> e.totalAsistentes == 0 && e.ingresos == 0
  {
    var sel := Realizadas(i, acts);
    var asistentes := Sum(sel, R.ActAttendees);
    var n: nat := |sel|;
    var promedio := PromedioAsistencia(asistentes, n);
    PorTipoCuenta(sel);
    Estadisticas(n, asistentes, promedio, SumBy(sel, R.TipoName, One), Sum(sel, Ingreso))
  }

  /** `actividades_por_tipo` has an entry for exactly the type labels met,
      each entry counts the activities of that label, and the entries add up
      to `total_actividades`. */
  lemma EstadisticasPorTipo(i: Informe, acts: seq<A.Activity>, k: string)
    ensures var sel := Realizadas(i, acts);
      var e := ComputeEstadisticas(i, acts);
      KeySet(e.porTipo) == KeysOf(sel, R.TipoName)
      && (k in KeysOf(sel, R.TipoName) ==>
            HasKey(e.porTipo, k) && Get(e.porTipo, k) == |Filter(sel, HasKeyOf(R.TipoName, k))|)
      && Sum(Values(e.porTipo), IntValue) == e.totalActividades
  {
    var sel := Realizadas(i, acts);
    SumByEntries(sel, R.TipoName, One, k);
    CountByEntries(sel, R.TipoName, k);
    SumByTotal(sel, R.TipoName, One);
    SumAtMost(sel, One, 1);
    SumAtLeast(sel, One, 1);
  }

  /** The average lies between the smallest and the largest attendance of
      the counted activities, and is 0 when none is counted. */
  lemma EstadisticasPromedio(i: Informe, acts: seq<A.Activity>, lo: int, hi: int)
    requires forall a | a in Realizadas(i, acts) :: lo <= a.confirmados <= hi
    ensures var e := ComputeEstadisticas(i, acts);
      (e.totalActividades == 0 ==> e.promedio == 0.0)
      && (e.totalActividades > 0 ==> lo as real <= e.promedio <= hi as real)
  {
    var sel := Realizadas(i, acts);
    forall j | 0 <= j < |sel| ensures lo <= sel[j].confirmados <= hi {
      assert sel[j] in sel;
    }
    if |sel| > 0 {
      PromedioBounds(sel, lo, hi);
    }
  }

  lemma PromedioBounds(s: seq<A.Activity>, lo: int, hi: int)
    requires |s| > 0
    requires forall j | 0 <= j < |s| :: lo <= s[j].confirmados <= hi
    ensures var q := PromedioAsistencia(Sum(s, R.ActAttendees), |s|);
      lo as real <= q <= hi as real
  {
    SumAtMost(s, R.ActAttendees, hi);
    SumAtLeast(s, R.ActAttendees, lo);
    PromedioBetween(Sum(s, R.ActAttendees), |s|, lo, hi);
  }

  lemma PromedioBetween(t: int, n: nat, lo: int, hi: int)
    requires n > 0 && n * lo <= t <= n * hi
    ensures lo as real <= PromedioAsistencia(t, n) <= hi as real
  {
    var q := PromedioAsistencia(t, n);
    assert (n * lo) as real == (lo as real) * (n as real);
    assert (n * hi) as real == (hi as real) * (n as real);
    ScaledBounds(q, n as real, lo as real, hi as real);
  }

  /** Dividing `lo * n <= q * n <= hi * n` by a positive `n`. */
  lemma ScaledBounds(q: real, n: real, lo: real, hi: real)
    requires n > 0.0 && lo * n <= q * n <= hi * n
    ensures lo <= q <= hi
  {
  }

  /** Revenue is non-negative and at most the top price times the total
      attendance when prices lie in `[0, p]` and attendances are
      non-negative. */
  lemma EstadisticasIngresos(i: Informe, acts: seq<A.Activity>, p: int)
    requires forall a | a in Realizadas(i, acts) :: 0 <= a.costo <= p && 0 <= a.confirmados
    ensures var e := ComputeEstadisticas(i, acts);
      0 <= e.ingresos <= p * e.totalAsistentes
  {
    var sel := Realizadas(i, acts);
    forall j | 0 <= j < |sel| ensures 0 <= sel[j].costo <= p && 0 <= sel[j].confirmados {
      assert sel[j] in sel;
    }
    IngresosBound(sel, p);
  }

  lemma {:induction false} IngresosBound(s: seq<A.Activity>, p: int)
    requires forall j | 0 <= j < |s| :: 0 <= s[j].costo <= p && 0 <= s[j].confirmados
    ensures 0 <= Sum(s, Ingreso) <= p * Sum(s, R.ActAttendees)
    decreases |s|
  {
    if |s| > 0 {
      var n := |s| - 1;
      var a := s[n];
      IngresosBound(s[..n], p);
      assert 0 <= a.costo * a.confirmados <= p * a.confirmados by {
        assert (p - a.costo) * a.confirmados >= 0;
      }
      assert p * Sum(s, R.ActAttendees) == p * Sum(s[..n], R.ActAttendees) + p * a.confirmados;
    }
  }

  // ------------------------------------------------------------------
  // Metrics (`_compute_metricas_especificas`)

  function PublicoName(a: A.Activity): string {
    A.PublicoLabel(a.publico)
  }

  function WorkerName(p: R.Pair): string {
    p.1.name
  }

  datatype Metricas = Metricas(publico: Dict<string, int>, trabajadores: Dict<string, int>)

  /** `_compute_metricas_especificas`: the audience sums add up to the
      attendance of the counted activities, and the per-name counts to their
      worker assignments. */
  function ComputeMetricas(i: Informe, acts: seq<A.Activity>): (m: Metricas)
    ensures Sum(Values(m.publico), IntValue) == Sum(Realizadas(i, acts), R.ActAttendees)
    ensures Sum(Values(m.trabajadores), IntValue) == Sum(Realizadas(i, acts), R.NumWorkers)
  {
    var sel := Realizadas(i, acts);
    var ps := R.Pairs(sel);
    SumByTotal(sel, PublicoName, R.ActAttendees);
    SumByTotal(ps, WorkerName, One);
    SumAtMost(ps, One, 1);
    SumAtLeast(ps, One, 1);
    R.PairsCount(sel);
    Metricas(SumBy(sel, PublicoName, R.ActAttendees), SumBy(R.Pairs(sel), WorkerName, One))
  }

  /** `publico_objetivo` sums the attendance of each audience label, and the
      sums add up to the statistics' `total_asistentes`. */
  lemma MetricasPublico(i: Informe, acts: seq<A.Activity>, k: string)
    ensures var sel := Realizadas(i, acts);
      var m := ComputeMetricas(i, acts);
      KeySet(m.publico) == KeysOf(sel, PublicoName)
      && (k in KeysOf(sel, PublicoName) ==>
            HasKey(m.publico, k)
            && Get(m.publico, k) == Sum(Filter(sel, HasKeyOf(PublicoName, k)), R.ActAttendees))
      && Sum(Values(m.publico), IntValue) == ComputeEstadisticas(i, acts).totalAsistentes
  {
    var sel := Realizadas(i, acts);
    SumByEntries(sel, PublicoName, R.ActAttendees, k);
    SumByTotal(sel, PublicoName, R.ActAttendees);
  }

  /** `trabajadores_actividades` counts, per worker NAME, the assignments of
      workers of that name to counted activities; the counts add up to the
      number of assignments. */
  lemma MetricasTrabajadores(i: Informe, acts: seq<A.Activity>, k: string)
    ensures var ps := R.Pairs(Realizadas(i, acts));
      var m := ComputeMetricas(i, acts);
      KeySet(m.trabajadores) == KeysOf(ps, WorkerName)
      && (k in KeysOf(ps, WorkerName) ==>
            HasKey(m.trabajadores, k) && Get(m.trabajadores, k) == |Filter(ps, HasKeyOf(WorkerName, k))|)
      && Sum(Values(m.trabajadores), IntValue) == Sum(Realizadas(i, acts), R.NumWorkers)
  {
    var sel := Realizadas(i, acts);
    var ps := R.Pairs(sel);
    SumByEntries(ps, WorkerName, One, k);
    CountByEntries(ps, WorkerName, k);
    SumByTotal(ps, WorkerName, One);
    SumAtMost(ps, One, 1);
    SumAtLeast(ps, One, 1);
    R.PairsCount(sel);
  }

  /** Two different workers with the same name share one entry, which
      counts the assignments of both. */
  lemma NamesakesMerged(i: Informe, acts: seq<A.Activity>, a1: A.Activity, w1: A.Worker, a2: A.Activity, w2: A.Worker)
    requires a1 in Realizadas(i, acts) && w1 in a1.trabajadores
    requires a2 in Realizadas(i, acts) && w2 in a2.trabajadores
    requires w1 != w2 && w1.name == w2.name
    ensures var m := ComputeMetricas(i, acts);
      HasKey(m.trabajadores, w1.name) && Get(m.trabajadores, w1.name) >= 2
  {
    var sel := Realizadas(i, acts);
    R.PairsComplete(sel, a1, w1);
    R.PairsComplete(sel, a2, w2);
    CountTwo(R.Pairs(sel), WorkerName, (a1, w1), (a2, w2));
  }

  /** Two different elements with the same key count twice under it. */
  lemma CountTwo<T, K>(s: seq<T>, key: T -> K, x: T, y: T)
    requires x in s && y in s && x != y && key(x) == key(y)
    ensures HasKey(SumBy(s, key, One), key(x)) && Get(SumBy(s, key, One), key(x)) >= 2
  {
    var j :| 0 <= j < |s| && s[j] == x;
    assert key(x) in KeysOf(s, key);
    CountByEntries(s, key, key(x));
    TwoInFilter(s, HasKeyOf(key, key(x)), x, y);
  }

  /** Two different elements that pass a filter make it at least two long. */
  lemma TwoInFilter<T>(s: seq<T>, p: T -> bool, x: T, y: T)
    requires x in s && y in s && x != y && p(x) && p(y)
    ensures |Filter(s, p)| >= 2
  {
    var b := Filter(s, p);
    assert x in b && y in b;
  }

  // ------------------------------------------------------------------
  // Windows of the automatic reports

  /** The whole previous calendar month. */
  function PreviousMonth(hoy: Day): (w: (Day, Day))
    ensures w.0.day == 1 && w.1 == LastOfMonth(w.0.year, w.0.month)
    ensures Next(w.1) == FirstOfMonth(hoy)
  {
    var pm := PrevMonth(hoy.year, hoy.month);
    FirstOfNextMonthOrdinal(pm.0, pm.1);
    OrdinalInjective(Next(LastOfMonth(pm.0, pm.1)), FirstOfMonth(hoy));
    (Date(pm.0, pm.1, 1), LastOfMonth(pm.0, pm.1))
  }

  /** The whole previous calendar quarter. */
  function PreviousQuarter(hoy: Day): (w: (Day, Day))
    ensures w.0.day == 1 && w.0.month in {1, 4, 7, 10}
    ensures w.1 == LastOfMonth(w.0.year, w.0.month + 2)
    ensures Next(w.1) == Date(hoy.year, QuarterStart(hoy.month), 1)
  {
    var mi := QuarterStart(hoy.month);
    if mi == 1 then (Date(hoy.year - 1, 10, 1), Date(hoy.year - 1, 12, 31))
    else (Date(hoy.year, mi - 3, 1), LastOfMonth(hoy.year, mi - 1))
  }

  /** The whole previous calendar year. */
  function PreviousYear(hoy: Day): (w: (Day, Day))
    ensures Next(w.1) == Date(hoy.year, 1, 1)
    ensures w.0.year == w.1.year == hoy.year - 1
  {
    (Date(hoy.year - 1, 1, 1), Date(hoy.year - 1, 12, 31))
  }

  /** The report window of an automatic period, `None` for a period the
      generator skips. */
  function Window(p: Periodo, hoy: Day): (r: Option<(Day, Day)>)
    ensures r.None? <==> p == Personalizado
    ensures r.Some? ==> NotAfter(r.value.0, r.value.1) && Before(r.value.1, hoy)
  {
    match p
    case Mensual => Some(PreviousMonth(hoy))
    case Trimestral => Some(PreviousQuarter(hoy))
    case Anual => Some(PreviousYear(hoy))
    case Personalizado => None
  }

  /** The message of the ValueError `date.replace` raises. */
  const DayOutOfRange: string := "day is out of range for month"

  /** The monthly window as the generator computes it: the 30 days before
      the first of the current month. */
  function MensualAsWritten(hoy: Day): (w: (Day, Day))
    ensures Ordinal(w.1) - Ordinal(w.0) == 29
    ensures Next(w.1) == FirstOfMonth(hoy)
  {
    var first := FirstOfMonth(hoy);
    OrdinalInjective(Next(AddDays(first, -1)), first);
    (AddDays(first, -30), AddDays(first, -1))
  }

  /** The quarterly window as the generator computes it: the end is day 31
      of the month before the current quarter, which does not exist for
      June and September. */
  function TrimestralAsWritten(hoy: Day): (r: Result<Option<(Day, Day)>, string>)
    ensures r.Err? <==> hoy.month >= 7
    ensures r.Err? ==> r.error == DayOutOfRange
    ensures r.Ok? ==> r.value.Some? && r.value.value.0.day == 1 && r.value.value.1.day == 31
  {
    var mi := QuarterStart(hoy.month);
    assert DaysInMonth(hoy.year, 3) == 31 && DaysInMonth(hoy.year, 6) == 30 && DaysInMonth(hoy.year, 9) == 30;
    var inicio: Day := Date(if mi <= 3 then hoy.year - 1 else hoy.year, if mi > 3 then mi - 3 else 10, 1);
    match MakeDate(if mi <= 1 then hoy.year - 1 else hoy.year, if mi > 1 then mi - 1 else 12, 31)
    case None => Err(DayOutOfRange)
    case Some(fin) => Ok(Some((inicio, fin)))
  }

  /** The window of `generar_informe_automatico` as written: `Ok(None)` is
      the `continue` of an unknown period, `Err` the ValueError. */
  function WindowAsWritten(p: Periodo, hoy: Day): Result<Option<(Day, Day)>, string> {
    match p
    case Mensual => Ok(Some(MensualAsWritten(hoy)))
    case Trimestral => TrimestralAsWritten(hoy)
    case Anual => Ok(Some(PreviousYear(hoy)))
    case Personalizado => Ok(None)
  }

  /** In the first half of the year the quarterly window as written is the
      previous calendar quarter. */
  lemma TrimestralAsWrittenFirstHalf(hoy: Day)
    requires hoy.month <= 6
    ensures WindowAsWritten(Trimestral, hoy) == Ok(Window(Trimestral, hoy))
  {
    assert DaysInMonth(hoy.year - 1, 12) == 31 && DaysInMonth(hoy.year, 3) == 31;
  }

  /** The monthly window as written is the previous calendar month exactly
      when that month has 30 days. */
  lemma MensualAsWrittenIff(hoy: Day)
    ensures var pm := PrevMonth(hoy.year, hoy.month);
      WindowAsWritten(Mensual, hoy) == Ok(Window(Mensual, hoy)) <==> DaysInMonth(pm.0, pm.1) == 30
  {
    var pm := PrevMonth(hoy.year, hoy.month);
    var first := FirstOfMonth(hoy);
    var a, c := MensualAsWritten(hoy), PreviousMonth(hoy);
    FirstOfNextMonthOrdinal(pm.0, pm.1);
    OrdinalInjective(a.1, c.1);
    OrdinalOrder(a.0, c.0);
  }

  // ------------------------------------------------------------------
  // Scheduled generation (`generar_informe_automatico`)

  /** The fields the generator's duplicate search compares. */
  function Key(i: Informe): (nat, Periodo, Date, Date) {
    (i.museo, i.periodo, i.inicio, i.fin)
  }

  predicate HasInforme(infs: seq<Informe>, m: nat, p: Periodo, w: (Day, Day)) {
    exists j | 0 <= j < |infs| :: Key(infs[j]) == (m, p, w.0, w.1)
  }

  /** No two reports share museum, period and window. */
  predicate Unique(infs: seq<Informe>) {
    forall j, k | 0 <= j < k < |infs| :: Key(infs[j]) != Key(infs[k])
  }

  /** The loop over the active museums for one window: a museum that has no
      report for it yet gets a new one in state `generado`. */
  function CreateMissing(museos: seq<nat>, p: Periodo, w: (Day, Day), infs: seq<Informe>): (r: seq<Informe>)
    ensures |infs| <= |r| && r[..|infs|] == infs
    ensures forall j | |infs| <= j < |r| ::
      r[j] == Informe(r[j].museo, p, w.0, w.1, Generado)
      && r[j].museo in museos && !HasInforme(infs, r[j].museo, p, w)
    decreases |museos|
  {
    if |museos| == 0 then infs
    else
      var prev := CreateMissing(museos[..|museos| - 1], p, w, infs);
      var m := museos[|museos| - 1];
      if HasInforme(prev, m, p, w) then prev
      else
        var r := prev + [Informe(m, p, w.0, w.1, Generado)];
        assert r[..|infs|] == prev[..|infs|];
        r
  }

  /** After the loop every museum has a report for the window. */
  lemma {:induction false} CreateMissingCovers(museos: seq<nat>, p: Periodo, w: (Day, Day), infs: seq<Informe>)
    ensures forall m | m in museos :: HasInforme(CreateMissing(museos, p, w, infs), m, p, w)
    decreases |museos|
  {
    if |museos| > 0 {
      var n := |museos| - 1;
      var prev := CreateMissing(museos[..n], p, w, infs);
      var r := CreateMissing(museos, p, w, infs);
      CreateMissingCovers(museos[..n], p, w, infs);
      forall m | m in museos ensures HasInforme(r, m, p, w) {
        if m == museos[n] {
          if !HasInforme(prev, m, p, w) {
            assert Key(r[|prev|]) == (m, p, w.0, w.1);
          }
        } else {
          assert m in museos[..n] by {
            var j :| 0 <= j < |museos| && museos[j] == m;
            assert museos[..n][j] == m;
          }
          var j :| 0 <= j < |prev| && Key(prev[j]) == (m, p, w.0, w.1);
          assert r[j] == prev[j];
        }
      }
    }
  }

  /** The loop never creates a second report for a key. */
  lemma {:induction false} CreateMissingUnique(museos: seq<nat>, p: Periodo, w: (Day, Day), infs: seq<Informe>)
    requires Unique(infs)
    ensures Unique(CreateMissing(museos, p, w, infs))
    decreases |museos|
  {
    if |museos| > 0 {
      var n := |museos| - 1;
      CreateMissingUnique(museos[..n], p, w, infs);
    }
  }

  /** When every museum already has its report the loop changes nothing. */
  lemma {:induction false} CreateMissingNothingNew(museos: seq<nat>, p: Periodo, w: (Day, Day), infs: seq<Informe>)
    requires forall m | m in museos :: HasInforme(infs, m, p, w)
    ensures CreateMissing(museos, p, w, infs) == infs
    decreases |museos|
  {
    if |museos| > 0 {
      var n := |museos| - 1;
      assert forall m | m in museos[..n] :: m in museos;
      CreateMissingNothingNew(museos[..n], p, w, infs);
      assert museos[n] in museos;
    }
  }

  /** The generator, with the calendar windows. */
  function Generar(p: Periodo, hoy: Day, museos: seq<nat>, infs: seq<Informe>): (r: seq<Informe>)
    ensures p == Personalizado ==> r == infs
  {
    match Window(p, hoy)
    case None => infs
    case Some(w) => CreateMissing(museos, p, w, infs)
  }

  /** The generator as written: the windows above, and the ValueError of
      the first museum aborts the whole call. */
  function GenerarAsWritten(p: Periodo, hoy: Day, museos: seq<nat>, infs: seq<Informe>): (r: Result<seq<Informe>, string>)
    ensures r.Err? <==> |museos| > 0 && p == Trimestral && hoy.month >= 7
    ensures r.Err? ==> r.error == DayOutOfRange
    ensures r.Ok? ==> |infs| <= |r.value| && r.value[..|infs|] == infs
    ensures r.Ok? ==> forall j | |infs| <= j < |r.value| ::
      r.value[j].periodo == p && r.value[j].estado == Generado && r.value[j].museo in museos
  {
    if |museos| == 0 then Ok(infs)
    else
      match WindowAsWritten(p, hoy)
      case Err(e) => Err(e)
      case Ok(None) => Ok(infs)
      case Ok(Some(w)) => Ok(CreateMissing(museos, p, w, infs))
  }

  /** At most one report per museum, period and window, and every active
      museum has one afterwards. */
  lemma GenerarAtMostOne(p: Periodo, hoy: Day, museos: seq<nat>, infs: seq<Informe>)
    requires Unique(infs)
    ensures Unique(Generar(p, hoy, museos, infs))
    ensures p != Personalizado ==>
      forall m | m in museos :: HasInforme(Generar(p, hoy, museos, infs), m, p, Window(p, hoy).value)
  {
    if p != Personalizado {
      var w := Window(p, hoy).value;
      CreateMissingUnique(museos, p, w, infs);
      CreateMissingCovers(museos, p, w, infs);
    }
  }

  /** A second run on the same day creates nothing. */
  lemma GenerarIdempotent(p: Periodo, hoy: Day, museos: seq<nat>, infs: seq<Informe>)
    ensures var once := Generar(p, hoy, museos, infs);
      Generar(p, hoy, museos, once) == once
  {
    if p != Personalizado {
      var w := Window(p, hoy).value;
      var once := CreateMissing(museos, p, w, infs);
      CreateMissingCovers(museos, p, w, infs);
      CreateMissingNothingNew(museos, p, w, once);
    }
  }

  /** For yearly and skipped periods, and for quarterly runs in the first
      half of the year, the generator as written agrees with the calendar
      windows. */
  lemma GenerarAsWrittenAgrees(p: Periodo, hoy: Day, museos: seq<nat>, infs: seq<Informe>)
    requires p == Anual || p == Personalizado || (p == Trimestral && hoy.month <= 6)
    ensures GenerarAsWritten(p, hoy, museos, infs) == Ok(Generar(p, hoy, museos, infs))
  {
    if p == Trimestral {
      TrimestralAsWrittenFirstHalf(hoy);
    }
  }

  // ------------------------------------------------------------------
  // State actions

  /** `action_validar_informe`: no precondition on the current state. */
  function Validar(i: Informe): (r: Informe)
    ensures r.estado == Validado && r.(estado := i.estado) == i
  {
    i.(estado := Validado)
  }

  /** `action_publicar_informe`: no precondition on the current state. */
  function Publicar(i: Informe): (r: Informe)
    ensures r.estado == Publicado && r.(estado := i.estado) == i
  {
    i.(estado := Publicado)
  }
}

=== FILE: museo.dfy ===
/** The museum record's counters (`museo.museo`) and its creation-date
    constraint.  The related records are given as whole stores: a museum's
    One2many holds the records whose museum is that museum, and for objects
    and agreements, which can be archived, only the active ones. */
module Museos {
  import opened Wrappers
  import opened Dates
  import opened Seqs
  import A = Actividades
  import I = Informes
  import C = Convenios

  /** A catalogued object (`museo.objeto`), reduced to what the counters
      read. */
  datatype Objeto = Objeto(museo: nat, activo: bool)

  datatype Totales = Totales(objetos: nat, actividades: nat, convenios: nat)

  /** Membership of museum `m`'s `objeto_ids`, `actividad_ids` and
      `convenio_ids`. */
  function ObjetoDe(m: nat): Objeto -> bool {
    (o: Objeto) => o.museo == m && o.activo
  }

  function ActividadDe(m: nat): A.Activity -> bool {
    (a: A.Activity) => a.museo == m
  }

  function ConvenioDe(m: nat): C.Convenio -> bool {
    (c: C.Convenio) => c.museo == m && c.activo
  }

  // ------------------------------------------------------------------
  // `_compute_totales`

  /** The sizes of museum `m`'s three relations. */
  function ComputeTotales(m: nat, objs: seq<Objeto>, acts: seq<A.Activity>, convs: seq<C.Convenio>): (t: Totales)
    ensures t.objetos <= |objs| && t.actividades <= |acts| && t.convenios <= |convs|
  {
    Totales(Count(objs, ObjetoDe(m)), Count(acts, ActividadDe(m)), Count(convs, ConvenioDe(m)))
  }

  /** A new record raises its museum's total by one; an archived object or
      agreement, or one of another museum, leaves it unchanged; every new
      activity of the museum counts. */
  lemma TotalesAlta(m: nat, objs: seq<Objeto>, acts: seq<A.Activity>, convs: seq<C.Convenio>,
                    o: Objeto, a: A.Activity, c: C.Convenio)
    ensures var t0 := ComputeTotales(m, objs, acts, convs);
      var t1 := ComputeTotales(m, objs + [o], acts + [a], convs + [c]);
      && t1.objetos == t0.objetos + (if o.museo == m && o.activo then 1 else 0)
      && t1.actividades == t0.actividades + (if a.museo == m then 1 else 0)
      && t1.convenios == t0.convenios + (if c.museo == m && c.activo then 1 else 0)
  {
    CountSnoc(objs, o, ObjetoDe(m));
    CountSnoc(acts, a, ActividadDe(m));
    CountSnoc(convs, c, ConvenioDe(m));
  }

  /** Archiving one of the museum's active objects and one of its active
      agreements lowers each total by one. */
  lemma TotalesArchivar(m: nat, objs: seq<Objeto>, acts: seq<A.Activity>, convs: seq<C.Convenio>, k: nat, l: nat)
    requires k < |objs| && objs[k].museo == m && objs[k].activo
    requires l < |convs| && convs[l].museo == m && convs[l].activo
    ensures var t0 := ComputeTotales(m, objs, acts, convs);
      var t1 := ComputeTotales(m, objs[k := objs[k].(activo := false)], acts, convs[l := convs[l].(activo := false)]);
      t1 == t0.(objetos := t0.objetos - 1, convenios := t0.convenios - 1)
  {
    CountUpdate(objs, k, objs[k].(activo := false), ObjetoDe(m));
    CountUpdate(convs, l, convs[l].(activo := false), ConvenioDe(m));
  }

  // ------------------------------------------------------------------
  // `_compute_informes_publicados`

  function PublicadoDe(m: nat): I.Informe -> bool {
    (i: I.Informe) => i.museo == m && i.periodo == I.Mensual && i.estado == I.Publicado
  }

  function MensualDe(m: nat): I.Informe -> bool {
    (i: I.Informe) => i.museo == m && i.periodo == I.Mensual
  }

  /** The museum's published monthly reports; reports of other periods are
      never counted. */
  function InformesPublicados(m: nat, infs: seq<I.Informe>): (n: nat)
    ensures n <= Count(infs, MensualDe(m))
  {
    CountMono(infs, PublicadoDe(m), MensualDe(m));
    Count(infs, PublicadoDe(m))
  }

  /** Publishing a report raises the counter by one exactly when it is an
      unpublished monthly report of the museum. */
  lemma PublicarCuenta(m: nat, infs: seq<I.Informe>, k: nat)
    requires k < |infs|
    ensures InformesPublicados(m, infs[k := I.Publicar(infs[k])])
      == InformesPublicados(m, infs)
         + (if infs[k].museo == m && infs[k].periodo == I.Mensual && infs[k].estado != I.Publicado then 1 else 0)
  {
    CountUpdate(infs, k, I.Publicar(infs[k]), PublicadoDe(m));
  }

  // ------------------------------------------------------------------
  // `_compute_convenios_por_vencer`

  /** A running agreement of the museum whose end date is at most 30 days
      away; one whose end date has passed is counted too. */
  predicate PorVencer(c: C.Convenio, m: nat, hoy: Day) {
    c.museo == m && c.activo && c.estado == C.Vigente && c.fin.Some?
    && Ordinal(c.fin.value) - Ordinal(hoy) <= 30
  }

  function PorVencerEn(m: nat, hoy: Day): C.Convenio -> bool {
    (c: C.Convenio) => PorVencer(c, m, hoy)
  }

  function ConveniosPorVencer(m: nat, convs: seq<C.Convenio>, hoy: Day): (n: nat)
    ensures n <= ComputeTotales(m, [], [], convs).convenios
  {
    CountMono(convs, PorVencerEn(m, hoy), ConvenioDe(m));
    Count(convs, PorVencerEn(m, hoy))
  }

  /** The counter agrees with the agreement's own `dias_para_vencer`, and
      counts every agreement the daily job would mark as expired. */
  lemma PorVencerDias(c: C.Convenio, m: nat, hoy: Day)
    ensures PorVencer(c, m, hoy) <==>
      c.museo == m && c.activo && c.estado == C.Vigente && c.fin.Some? && C.DiasParaVencer(c, hoy) <= 30
    ensures c.museo == m && C.Vence(c, hoy) ==> PorVencer(c, m, hoy)
  {
    if c.fin.Some? {
      OrdinalOrder(c.fin.value, hoy);
    }
  }

  /** The agreement of museum `m` ends between today and 30 days from now. */
  function VenceProximamente(m: nat, hoy: Day): C.Convenio -> bool {
    (c: C.Convenio) => c.museo == m && c.activo && c.estado == C.Vigente && c.fin.Some? && 0 <= C.DiasParaVencer(c, hoy) <= 30
  }

  /** After the daily job has run, the counter holds only agreements that
      end between today and 30 days from now. */
  lemma PorVencerTrasCron(m: nat, convs: seq<C.Convenio>, hoy: Day)
    ensures ConveniosPorVencer(m, C.Cron(convs, hoy), hoy) == Count(convs, VenceProximamente(m, hoy))
  {
    var r := C.Cron(convs, hoy);
    forall i | 0 <= i < |r| ensures PorVencerEn(m, hoy)(r[i]) == VenceProximamente(m, hoy)(convs[i]) {
      var c := convs[i];
      if c.estado == C.Vigente && c.fin.Some? {
        C.DiasParaVencerSigno(c, hoy);
      }
    }
    CountPointwise(r, PorVencerEn(m, hoy), convs, VenceProximamente(m, hoy));
  }

  // ------------------------------------------------------------------
  // `_compute_actividades_proximas`

  /** A planned or confirmed activity of the museum whose start day is today
      or later. */
  predicate Proxima(a: A.Activity, m: nat, hoy: Day) {
    a.museo == m && (a.estado == A.Planificada || a.estado == A.Confirmada)
    && a.inicio.Some? && NotAfter(hoy, a.inicio.value.date)
  }

  function ProximaEn(m: nat, hoy: Day): A.Activity -> bool {
    (a: A.Activity) => Proxima(a, m, hoy)
  }

  function ActividadesProximas(m: nat, acts: seq<A.Activity>, hoy: Day): (n: nat)
    ensures n <= ComputeTotales(m, [], acts, []).actividades
  {
    CountMono(acts, ProximaEn(m, hoy), ActividadDe(m));
    Count(acts, ProximaEn(m, hoy))
  }

  /** As days pass the counter can only fall while the activities stay as
      they are. */
  lemma ProximasDecrece(m: nat, acts: seq<A.Activity>, hoy1: Day, hoy2: Day)
    requires NotAfter(hoy1, hoy2)
    ensures ActividadesProximas(m, acts, hoy2) <= ActividadesProximas(m, acts, hoy1)
  {
    forall i | 0 <= i < |acts| && ProximaEn(m, hoy2)(acts[i]) ensures ProximaEn(m, hoy1)(acts[i]) {
      var d := acts[i].inicio.value.date;
      OrdinalOrder(hoy2, hoy1);
      OrdinalOrder(d, hoy2);
      OrdinalOrder(d, hoy1);
    }
    CountMono(acts, ProximaEn(m, hoy2), ProximaEn(m, hoy1));
  }

  // ------------------------------------------------------------------
  // `_check_fecha_creacion`

  const FechaFutura: string := "La fecha de creaci\U{F3}n no puede ser futura."

  /** A creation date after today is rejected; today and earlier days, and
      an unset date, pass. */
  function CheckFechaCreacion(fecha: Option<Day>, hoy: Day): (r: Result<(), string>)
    ensures r.Err? ==> r.error == FechaFutura
    ensures r.Ok? <==> fecha.None? || Ordinal(fecha.value) <= Ordinal(hoy)
  {
    match fecha
    case None => Ok(())
    case Some(f) =>
      OrdinalOrder(hoy, f);
      if Before(hoy, f) then Err(FechaFutura) else Ok(())
  }

  /** A creation date accepted on one day is accepted on every later day. */
  lemma CheckFechaCreacionEstable(fecha: Option<Day>, hoy1: Day, hoy2: Day)
    requires NotAfter(hoy1, hoy2) && CheckFechaCreacion(fecha, hoy1).Ok?
    ensures CheckFechaCreacion(fecha, hoy2).Ok?
  {
    OrdinalOrder(hoy2, hoy1);
  }
}

=== FILE: reporte.dfy ===
/** Custom reports (`museo.reporte`): the by-worker and by-day aggregations,
    their statistics, report generation and the rows the PDF and Excel
    exports emit. */
module Reportes {
  import opened Wrappers
  import opened Seqs
  import opened Dicts
  import opened Dates
  import opened Strings
  import opened Grouping
  import opened Busqueda
  import A = Actividades

  datatype TipoReporte = ActividadesTrabajador | ActividadesFechas | Asistencia | Convenios | Objetos

  datatype EstadoReporte = Borrador | Generado | Exportado

  // ------------------------------------------------------------------
  // Per-activity figures

  function ActAttendees(a: A.Activity): int {
    a.confirmados
  }

  function ActSeconds(a: A.Activity): int {
    A.Duracion(a)
  }

  function NumWorkers(a: A.Activity): int {
    |a.trabajadores|
  }

  // ------------------------------------------------------------------
  // By worker

  /** One (activity, assigned worker) visit of the nested loop. */
  type Pair = (A.Activity, A.Worker)

  function PairWorker(p: Pair): nat {
    p.1.id
  }

  function PairAttendees(p: Pair): int {
    p.0.confirmados
  }

  function PairSeconds(p: Pair): int {
    A.Duracion(p.0)
  }

  function StaffOf(a: A.Activity): (r: seq<Pair>)
    ensures |r| == |a.trabajadores|
    ensures forall i | 0 <= i < |r| :: r[i] == (a, a.trabajadores[i])
  {
    seq(|a.trabajadores|, i requires 0 <= i < |a.trabajadores| => (a, a.trabajadores[i]))
  }

  /** The pairs the nested loop visits, activity by activity and, within one,
      in the order of its workers. */
  function Pairs(acts: seq<A.Activity>): (r: seq<Pair>)
    ensures forall i | 0 <= i < |r| :: r[i].0 in acts && r[i].1 in r[i].0.trabajadores
    decreases |acts|
  {
    if |acts| == 0 then []
    else
      var init := Pairs(acts[..|acts| - 1]);
      var last := StaffOf(acts[|acts| - 1]);
      assert forall i | 0 <= i < |init| :: init[i].0 in acts;
      init + last
  }

  /** Every assignment is visited once: there are as many pairs as
      worker assignments, and an activity without workers yields none. */
  lemma {:induction false} PairsCount(acts: seq<A.Activity>)
    ensures |Pairs(acts)| == Sum(acts, NumWorkers)
    decreases |acts|
  {
    if |acts| > 0 {
      PairsCount(acts[..|acts| - 1]);
    }
  }

  /** Every assignment of a worker to one of the activities is visited. */
  lemma {:induction false} PairsComplete(acts: seq<A.Activity>, a: A.Activity, w: A.Worker)
    requires a in acts && w in a.trabajadores
    ensures (a, w) in Pairs(acts)
    decreases |acts|
  {
    var n := |acts| - 1;
    var last := StaffOf(acts[n]);
    if a == acts[n] {
      var j :| 0 <= j < |a.trabajadores| && a.trabajadores[j] == w;
      assert last[j] == (a, w);
    } else {
      assert a in acts[..n] by {
        var i :| 0 <= i < |acts| && acts[i] == a;
        assert acts[..n][i] == a;
      }
      PairsComplete(acts[..n], a, w);
    }
  }

  /** The worker a bucket belongs to: the one met when it was created,
      whose name and position the report shows. */
  function BucketWorker(t: Tally<Pair>): A.Worker {
    if |t.items| > 0 then t.items[0].1 else A.Worker(0, "", "")
  }

  function WorkerId(t: Tally<Pair>): nat {
    BucketWorker(t).id
  }

  datatype StatsTrabajador = StatsTrabajador(
    desde: Day,
    hasta: Day,
    totalTrabajadores: int,
    totalActividades: int,
    totalSegundos: int,
    totalAsistentes: int)

  datatype PorTrabajador = PorTrabajador(estadisticas: StatsTrabajador, trabajadores: seq<Tally<Pair>>)

  /** `_generar_reporte_actividades_trabajador`: one bucket per distinct
      worker met, busiest first; the activity total counts assignments. */
  function ReporteTrabajador(f: Filtros, acts: seq<A.Activity>): (r: PorTrabajador)
    ensures r.estadisticas.desde == f.desde && r.estadisticas.hasta == f.hasta
    ensures r.estadisticas.totalTrabajadores == |r.trabajadores| == |KeysOf(Pairs(Select(f, acts)), PairWorker)|
    ensures r.estadisticas.totalActividades == Sum(Select(f, acts), NumWorkers)
    ensures forall i, j | 0 <= i < j < |r.trabajadores| :: r.trabajadores[i].total >= r.trabajadores[j].total
  {
    var sel := Select(f, acts);
    var ps := Pairs(sel);
    var ws := Ranked(ps, PairWorker, PairAttendees, PairSeconds, NegTotal);
    PairsCount(sel);
    RankedCount(ps, PairWorker, PairAttendees, PairSeconds, NegTotal);
    RankedTotals(ps, PairWorker, PairAttendees, PairSeconds, NegTotal);
    RankedDescending(ps, PairWorker, PairAttendees, PairSeconds);
    PorTrabajador(
      StatsTrabajador(f.desde, f.hasta, |ws|, Sum(ws, Total), Sum(ws, Seconds), Sum(ws, Attendees)),
      ws)
  }

  /** Each listed bucket holds exactly the pairs of one worker, in visiting
      order, with its count, hours and attendees taken over that list; no two
      buckets belong to the same worker; and the list runs by non-increasing
      activity count. */
  lemma ReporteTrabajadorBuckets(f: Filtros, acts: seq<A.Activity>)
    ensures var ps := Pairs(Select(f, acts));
      var ws := ReporteTrabajador(f, acts).trabajadores;
      (forall i | 0 <= i < |ws| ::
        |ws[i].items| > 0 && BucketOf(ps, PairWorker, PairAttendees, PairSeconds, WorkerId(ws[i]), ws[i]))
      && (forall i, j | 0 <= i < j < |ws| :: WorkerId(ws[i]) != WorkerId(ws[j]))
      && (forall i, j | 0 <= i < j < |ws| :: ws[i].total >= ws[j].total)
  {
    var ps := Pairs(Select(f, acts));
    WorkerBuckets(ps);
    RankedDescending(ps, PairWorker, PairAttendees, PairSeconds);
  }

  /** The ranked buckets of the pairs, each keyed by its worker's id. */
  lemma WorkerBuckets(ps: seq<Pair>)
    ensures var ws := Ranked(ps, PairWorker, PairAttendees, PairSeconds, NegTotal);
      (forall i | 0 <= i < |ws| ::
        |ws[i].items| > 0 && BucketOf(ps, PairWorker, PairAttendees, PairSeconds, WorkerId(ws[i]), ws[i]))
      && (forall i, j | 0 <= i < j < |ws| :: WorkerId(ws[i]) != WorkerId(ws[j]))
  {
    var ws := Ranked(ps, PairWorker, PairAttendees, PairSeconds, NegTotal);
    RankedBuckets(ps, PairWorker, PairAttendees, PairSeconds, NegTotal);
    forall i | 0 <= i < |ws|
      ensures |ws[i].items| > 0 && WorkerId(ws[i]) == PairWorker(ws[i].items[0])
    {
      assert KeyedBucket(ps, PairWorker, PairAttendees, PairSeconds, ws[i]);
    }
  }

  /** Workers with equal counts keep the order in which they were first
      met along the visiting order. */
  lemma ReporteTrabajadorTies(f: Filtros, acts: seq<A.Activity>, n: int)
    ensures var ps := Pairs(Select(f, acts));
      var d := Accumulate(ps, PairWorker, PairAttendees, PairSeconds);
      KeyFilter(ReporteTrabajador(f, acts).trabajadores, NegTotal, n) == KeyFilter(Values(d), NegTotal, n)
      && forall i, j | 0 <= i < j < |d| ::
        FirstIndex(ps, PairWorker, d[i].0) < FirstIndex(ps, PairWorker, d[j].0)
  {
    var ps := Pairs(Select(f, acts));
    RankedStable(ps, PairWorker, PairAttendees, PairSeconds, NegTotal, n);
    AccumulateOrder(ps, PairWorker, PairAttendees, PairSeconds);
  }

  /** The statistics: one worker per distinct worker id met, one activity per
      (activity, worker) assignment, and hours and attendees summed over the
      assignments. */
  lemma ReporteTrabajadorStats(f: Filtros, acts: seq<A.Activity>)
    ensures var sel := Select(f, acts);
      var ps := Pairs(sel);
      var st := ReporteTrabajador(f, acts).estadisticas;
      st.totalTrabajadores == |KeysOf(ps, PairWorker)|
      && st.totalActividades == |ps| == Sum(sel, NumWorkers)
      && st.totalSegundos == Sum(ps, PairSeconds)
      && st.totalAsistentes == Sum(ps, PairAttendees)
  {
    var sel := Select(f, acts);
    var ps := Pairs(sel);
    PairsCount(sel);
    RankedCount(ps, PairWorker, PairAttendees, PairSeconds, NegTotal);
    RankedTotals(ps, PairWorker, PairAttendees, PairSeconds, NegTotal);
  }

  /** An activity without workers is in no bucket. */
  lemma UnstaffedActivityIsNowhere(f: Filtros, acts: seq<A.Activity>, a: A.Activity)
    requires |a.trabajadores| == 0
    ensures var ws := ReporteTrabajador(f, acts).trabajadores;
      forall i, k | 0 <= i < |ws| && 0 <= k < |ws[i].items| :: ws[i].items[k].0 != a
  {
    var ps := Pairs(Select(f, acts));
    var ws := ReporteTrabajador(f, acts).trabajadores;
    RankedBuckets(ps, PairWorker, PairAttendees, PairSeconds, NegTotal);
    BucketItemsFrom(ps, PairWorker, PairAttendees, PairSeconds, ws);
  }

  /** When every selected activity has a worker, the activity total is at
      least the number of selected activities. */
  lemma StaffedTotalCoversSelection(f: Filtros, acts: seq<A.Activity>)
    requires forall a | a in acts :: |a.trabajadores| >= 1
    ensures ReporteTrabajador(f, acts).estadisticas.totalActividades >= |Select(f, acts)|
  {
    ReporteTrabajadorStats(f, acts);
    var sel := Select(f, acts);
    SumAtLeastLength(sel, NumWorkers);
  }

  /** With no staffed activity there is no bucket and no counted activity,
      however many activities the search returns. */
  lemma UnstaffedSelectionCountsNothing(f: Filtros, acts: seq<A.Activity>)
    requires forall a | a in acts :: |a.trabajadores| == 0
    ensures ReporteTrabajador(f, acts).estadisticas.totalActividades == 0
    ensures ReporteTrabajador(f, acts).trabajadores == []
  {
    var sel := Select(f, acts);
    ReporteTrabajadorStats(f, acts);
    assert Sum(sel, NumWorkers) == 0 by {
      SumZero(sel, NumWorkers);
    }
  }

  // ------------------------------------------------------------------
  // By day

  /** `order='fecha_inicio'`: the start as a timestamp (every selected
      activity has one). */
  function StartKey(a: A.Activity): int {
    if a.inicio.Some? then Timestamp(a.inicio.value) else 0
  }

  /** The day an activity starts on, the dictionary key `'%Y-%m-%d'`. */
  function StartDay(a: A.Activity): (d: Date)
    ensures Valid(d)
  {
    if a.inicio.Some? then a.inicio.value.date else Date(1, 1, 1)
  }

  /** The search result in start order; activities starting at the same
      instant stay in store order. */
  function Orden(f: Filtros, acts: seq<A.Activity>): seq<A.Activity> {
    SortBy(Select(f, acts), StartKey)
  }

  /** The day a bucket stands for: the start day of its first activity. */
  function DayOf(t: Tally<A.Activity>): (d: Date)
    ensures Valid(d)
  {
    if |t.items| > 0 then StartDay(t.items[0]) else Date(1, 1, 1)
  }

  /** Chronological rank of a day bucket. */
  function DayRank(t: Tally<A.Activity>): int {
    Ordinal(DayOf(t))
  }

  /** The rank of `d` under the order of its `'%d/%m/%Y'` text: day of month
      first, then month, then year. */
  function TextRank(d: Date): int {
    d.day * 1000000 + d.month * 10000 + d.year
  }

  function TextRankOf(t: Tally<A.Activity>): int {
    TextRank(DayOf(t))
  }

  /** `d.strftime('%d/%m/%Y')` */
  function FechaTexto(d: Date): (s: string)
    requires Valid(d) && 1 <= d.year <= 9999
    ensures |s| == 10
  {
    Pad2(d.day) + ("/" + (Pad2(d.month) + ("/" + Pad4(d.year))))
  }

  /** Over the years Python can represent, comparing the texts is comparing
      `TextRank`, and equal texts are equal dates. */
  lemma FechaTextoOrder(a: Date, b: Date)
    requires Valid(a) && 1 <= a.year <= 9999
    requires Valid(b) && 1 <= b.year <= 9999
    ensures StrLess(FechaTexto(a), FechaTexto(b)) <==> TextRank(a) < TextRank(b)
    ensures FechaTexto(a) == FechaTexto(b) <==> a == b
  {
    var ya, yb := "/" + Pad4(a.year), "/" + Pad4(b.year);
    var ma, mb := Pad2(a.month) + ya, Pad2(b.month) + yb;
    StrLessBlocks(Pad2(a.day), "/" + ma, Pad2(b.day), "/" + mb);
    StrLessBlocks("/", ma, "/", mb);
    StrLessBlocks(Pad2(a.month), ya, Pad2(b.month), yb);
    StrLessBlocks("/", Pad4(a.year), "/", Pad4(b.year));
    Pad2Order(a.day, b.day);
    Pad2Order(a.month, b.month);
    Pad4Order(a.year, b.year);
    if FechaTexto(a) == FechaTexto(b) {
      StrLessIrreflexive(FechaTexto(a));
      if TextRank(a) < TextRank(b) || TextRank(b) < TextRank(a) {
        assert false;
      }
    }
  }

  datatype StatsFechas = StatsFechas(
    desde: Day,
    hasta: Day,
    totalDias: int,
    totalActividades: int,
    totalAsistentes: int,
    totalSegundos: int,
    porTipo: Dict<string, Tally<A.Activity>>,
    promedioDiario: real)

  datatype PorFechas = PorFechas(estadisticas: StatsFechas, dias: seq<Tally<A.Activity>>)

  /** The per-type dictionary is keyed by the type's label. */
  function TipoName(a: A.Activity): string {
    A.TipoLabel(a.tipo)
  }

  function Max1(n: int): int {
    if n > 1 then n else 1
  }

  /** `n / max(d, 1)`: the mean number of activities per day when `n`
      activities fall on `d` days. */
  function Promedio(n: int, d: int): (q: real)
    ensures 0 <= d <= n && (n > 0 ==> d >= 1) ==>
      (n == 0 <==> q == 0.0) && (n > 0 ==> q >= 1.0 && q == (n as real) / (d as real))
  {
    (n as real) / (Max1(d) as real)
  }

  /** `_generar_reporte_actividades_fechas`, with the day list sorted by
      `rank`. */
  function ReporteFechasBy(f: Filtros, acts: seq<A.Activity>, rank: Tally<A.Activity> -> int): (r: PorFechas)
    ensures forall i, j | 0 <= i < j < |r.dias| :: rank(r.dias[i]) <= rank(r.dias[j])
    ensures r.estadisticas.totalDias == |r.dias| == |KeysOf(Orden(f, acts), StartDay)|
    ensures r.estadisticas.totalActividades == |Select(f, acts)| == Sum(r.dias, Total)
  {
    var sel := Orden(f, acts);
    var dias := Ranked(sel, StartDay, ActAttendees, ActSeconds, rank);
    RankedSorted(sel, StartDay, ActAttendees, ActSeconds, rank);
    RankedCount(sel, StartDay, ActAttendees, ActSeconds, rank);
    RankedTotals(sel, StartDay, ActAttendees, ActSeconds, rank);
    PorFechas(
      StatsFechas(
        f.desde, f.hasta, |dias|, |sel|, Sum(sel, ActAttendees), Sum(sel, ActSeconds),
        Accumulate(sel, TipoName, ActAttendees, ActSeconds),
        Promedio(|sel|, |dias|)),
      dias)
  }

  /** The report as written: days sorted by their `dd/mm/YYYY` text, so by
      day of month before month and year. */
  function ReporteFechasAsWritten(f: Filtros, acts: seq<A.Activity>): (r: PorFechas)
    ensures forall i, j | 0 <= i < j < |r.dias| :: TextRank(DayOf(r.dias[i])) <= TextRank(DayOf(r.dias[j]))
    ensures r.estadisticas.totalDias == |r.dias| == |KeysOf(Orden(f, acts), StartDay)|
  {
    ReporteFechasBy(f, acts, TextRankOf)
  }

  /** The report with the days in calendar order, as its comment intends. */
  function ReporteFechas(f: Filtros, acts: seq<A.Activity>): (r: PorFechas)
    ensures forall i, j | 0 <= i < j < |r.dias| :: Ordinal(DayOf(r.dias[i])) <= Ordinal(DayOf(r.dias[j]))
    ensures r.estadisticas.totalDias == |r.dias| == |KeysOf(Orden(f, acts), StartDay)|
  {
    ReporteFechasBy(f, acts, DayRank)
  }

  /** In any list sorted by `TextRank`, 1 February comes before 2 January
      of the same year. */
  lemma TextSortMisplaces(ds: seq<Tally<A.Activity>>, i: int, j: int)
    requires forall p, q | 0 <= p < q < |ds| :: TextRankOf(ds[p]) <= TextRankOf(ds[q])
    requires 0 <= i < |ds| && 0 <= j < |ds|
    requires DayOf(ds[i]) == Date(2024, 2, 1) && DayOf(ds[j]) == Date(2024, 1, 2)
    ensures i < j
  {
  }

  /** The day sort as written lists 1 February before 2 January of the same
      year whenever both days have activities. */
  lemma TextOrderMisplacesDays(f: Filtros, acts: seq<A.Activity>, i: int, j: int)
    requires var ds := ReporteFechasAsWritten(f, acts).dias;
      0 <= i < |ds| && 0 <= j < |ds|
      && DayOf(ds[i]) == Date(2024, 2, 1) && DayOf(ds[j]) == Date(2024, 1, 2)
    ensures i < j
  {
    TextSortMisplaces(ReporteFechasAsWritten(f, acts).dias, i, j);
  }

  /** In any list sorted by calendar rank, 2 January comes first. */
  lemma CalendarSortPlaces(ds: seq<Tally<A.Activity>>, i: int, j: int)
    requires forall p, q | 0 <= p < q < |ds| :: DayRank(ds[p]) <= DayRank(ds[q])
    requires 0 <= i < |ds| && 0 <= j < |ds|
    requires DayOf(ds[i]) == Date(2024, 2, 1) && DayOf(ds[j]) == Date(2024, 1, 2)
    ensures j < i
  {
    OrdinalOrder(Date(2024, 1, 2), Date(2024, 2, 1));
  }

  /** The corrected report lists the same two days the other way round. */
  lemma CalendarOrderOfDays(f: Filtros, acts: seq<A.Activity>, i: int, j: int)
    requires var ds := ReporteFechas(f, acts).dias;
      0 <= i < |ds| && 0 <= j < |ds|
      && DayOf(ds[i]) == Date(2024, 2, 1) && DayOf(ds[j]) == Date(2024, 1, 2)
    ensures j < i
  {
    CalendarSortPlaces(ReporteFechas(f, acts).dias, i, j);
  }

  /** Each day bucket holds exactly the selected activities starting that
      day, in start order, with its count and sums taken over them; the
      days run strictly forward in time, so no day appears twice. */
  lemma ReporteFechasDays(f: Filtros, acts: seq<A.Activity>)
    ensures var sel := Orden(f, acts);
      var ds := ReporteFechas(f, acts).dias;
      (forall i | 0 <= i < |ds| ::
        |ds[i].items| > 0
        && BucketOf(sel, StartDay, ActAttendees, ActSeconds, DayOf(ds[i]), ds[i])
        && SortedBy(ds[i].items, StartKey))
      && (forall i, j | 0 <= i < j < |ds| :: Ordinal(DayOf(ds[i])) < Ordinal(DayOf(ds[j])))
  {
    var sel := Orden(f, acts);
    var ds := ReporteFechas(f, acts).dias;
    RankedBuckets(sel, StartDay, ActAttendees, ActSeconds, DayRank);
    RankedSorted(sel, StartDay, ActAttendees, ActSeconds, DayRank);
    DayBucketsWhole(sel, ds);
    DaysForward(ds);
  }

  /** Buckets of a start-ordered selection list their activities in start
      order. */
  lemma DayBucketsWhole(sel: seq<A.Activity>, ds: seq<Tally<A.Activity>>)
    requires SortedBy(sel, StartKey)
    requires forall i | 0 <= i < |ds| :: KeyedBucket(sel, StartDay, ActAttendees, ActSeconds, ds[i])
    ensures forall i | 0 <= i < |ds| ::
      |ds[i].items| > 0
      && BucketOf(sel, StartDay, ActAttendees, ActSeconds, DayOf(ds[i]), ds[i])
      && SortedBy(ds[i].items, StartKey)
  {
    forall i | 0 <= i < |ds|
      ensures SortedBy(ds[i].items, StartKey)
    {
      FilterSorted(sel, HasKeyOf(StartDay, DayOf(ds[i])), StartKey);
    }
  }

  /** Day buckets ordered by rank, no two for the same day, run strictly
      forward in time. */
  lemma DaysForward(ds: seq<Tally<A.Activity>>)
    requires forall i | 0 <= i < |ds| :: |ds[i].items| > 0
    requires forall i, j | 0 <= i < j < |ds| :: DayRank(ds[i]) <= DayRank(ds[j])
    requires forall i, j | 0 <= i < j < |ds| :: StartDay(ds[i].items[0]) != StartDay(ds[j].items[0])
    ensures forall i, j | 0 <= i < j < |ds| :: Ordinal(DayOf(ds[i])) < Ordinal(DayOf(ds[j]))
  {
    forall i, j | 0 <= i < j < |ds| ensures Ordinal(DayOf(ds[i])) < Ordinal(DayOf(ds[j])) {
      OrdinalOrder(DayOf(ds[i]), DayOf(ds[j]));
    }
  }

  /** The statistics: one day per distinct start day, every selected activity
      counted once across the days, the attendee and hour totals equal to
      the sums over the days, and the per-type buckets covering every
      selected activity once. */
  lemma ReporteFechasStats(f: Filtros, acts: seq<A.Activity>)
    ensures var sel := Orden(f, acts);
      var r := ReporteFechas(f, acts);
      var st := r.estadisticas;
      |sel| == |Select(f, acts)|
      && st.totalDias == |KeysOf(sel, StartDay)|
      && st.totalActividades == Sum(r.dias, Total) == Sum(Values(st.porTipo), Total)
      && st.totalAsistentes == Sum(r.dias, Attendees)
      && st.totalSegundos == Sum(r.dias, Seconds)
  {
    var sel := Orden(f, acts);
    RankedCount(sel, StartDay, ActAttendees, ActSeconds, DayRank);
    RankedTotals(sel, StartDay, ActAttendees, ActSeconds, DayRank);
    AccumulateTotals(sel, TipoName, ActAttendees, ActSeconds);
  }

  /** Each per-type entry is the bucket of the activities with that label. */
  lemma ReporteFechasPorTipo(f: Filtros, acts: seq<A.Activity>, a: A.Activity)
    requires a in Orden(f, acts)
    ensures var sel := Orden(f, acts);
      var pt := ReporteFechas(f, acts).estadisticas.porTipo;
      HasKey(pt, TipoName(a))
      && BucketOf(sel, TipoName, ActAttendees, ActSeconds, TipoName(a), Get(pt, TipoName(a)))
  {
    var sel := Orden(f, acts);
    var i :| 0 <= i < |sel| && sel[i] == a;
    assert TipoName(a) in KeysOf(sel, TipoName);
    AccumulateBucket(sel, TipoName, ActAttendees, ActSeconds, TipoName(a));
  }

  /** The daily average is 0 exactly when nothing was selected; otherwise
      it is the number of activities over the number of days (the `max`
      only guards the empty report) and at least 1. */
  lemma PromedioDiario(f: Filtros, acts: seq<A.Activity>)
    ensures var st := ReporteFechas(f, acts).estadisticas;
      (st.totalActividades == 0 <==> st.promedioDiario == 0.0)
      && (st.totalActividades > 0 ==>
            st.promedioDiario >= 1.0
            && st.promedioDiario == (st.totalActividades as real) / (st.totalDias as real))
  {
    var sel := Orden(f, acts);
    var ds := ReporteFechas(f, acts).dias;
    var st := ReporteFechas(f, acts).estadisticas;
    assert st.totalActividades == |sel| && st.totalDias == |ds|;
    DaysAtMostActivities(f, acts);
  }

  /** There are never more days than activities, and some day as soon as
      there is an activity. */
  lemma DaysAtMostActivities(f: Filtros, acts: seq<A.Activity>)
    ensures var n := |Orden(f, acts)|;
      var d := |ReporteFechas(f, acts).dias|;
      d <= n && (n > 0 ==> d >= 1)
  {
    var sel := Orden(f, acts);
    var ds := ReporteFechas(f, acts).dias;
    RankedTotals(sel, StartDay, ActAttendees, ActSeconds, DayRank);
    RankedBuckets(sel, StartDay, ActAttendees, ActSeconds, DayRank);
    forall i | 0 <= i < |ds| ensures Total(ds[i]) >= 1 {
      assert KeyedBucket(sel, StartDay, ActAttendees, ActSeconds, ds[i]);
    }
    SumAtLeastLength(ds, Total);
    if |ds| == 0 {
      assert Sum(ds, Total) == 0;
    }
  }

  // ------------------------------------------------------------------
  // The report record

  datatype Datos =
    | DatosTrabajador(porTrabajador: PorTrabajador)
    | DatosFechas(porFechas: PorFechas)
    | Vacio

  /** One exported file: its name and the lines of its body. */
  datatype Archivo = Archivo(filename: string, rows: seq<Row>)

  /** `None` for the type and state filters is `'todos'`. */
  datatype Reporte = Reporte(
    name: string,
    tipo: TipoReporte,
    museo: nat,
    desde: Day,
    hasta: Day,
    trabajadores: seq<nat>,
    tipoActividad: Option<A.Tipo>,
    estadoActividad: Option<A.Estado>,
    estado: EstadoReporte,
    datos: Datos,
    pdf: Option<Archivo>,
    excel: Option<Archivo>)

  function FiltrosOf(r: Reporte): Filtros {
    Filtros(r.museo, r.desde, r.hasta, r.tipoActividad, r.estadoActividad)
  }

  /** `_compute_datos_reportes`: the two activity reports are computed, every
      other report type yields the empty dictionary. */
  function DatosReportes(r: Reporte, acts: seq<A.Activity>): (d: Datos)
    ensures d.DatosTrabajador? <==> r.tipo == ActividadesTrabajador
    ensures d.DatosFechas? <==> r.tipo == ActividadesFechas
    ensures d.DatosTrabajador? ==> d.porTrabajador == ReporteTrabajador(FiltrosOf(r), acts)
    ensures d.DatosFechas? ==> d.porFechas == ReporteFechas(FiltrosOf(r), acts)
  {
    match r.tipo
    case ActividadesTrabajador => DatosTrabajador(ReporteTrabajador(FiltrosOf(r), acts))
    case ActividadesFechas => DatosFechas(ReporteFechas(FiltrosOf(r), acts))
    case _ => Vacio
  }

  /** The worker filter is a dependency of the data but never applied. */
  lemma DatosIgnoreWorkerFilter(r: Reporte, ws: seq<nat>, acts: seq<A.Activity>)
    ensures DatosReportes(r.(trabajadores := ws), acts) == DatosReportes(r, acts)
  {
    assert FiltrosOf(r.(trabajadores := ws)) == FiltrosOf(r);
  }

  /** The stored `datos_reportes` recomputed from the activities `acts`
      the search sees now, as on creation and on a change of a filter. */
  function Recalcular(r: Reporte, acts: seq<A.Activity>): (r': Reporte)
    ensures r'.datos == DatosReportes(r, acts)
    ensures r'.(datos := r.datos) == r
  {
    r.(datos := DatosReportes(r, acts))
  }

  const FechasInvertidas: string := "La fecha \"Desde\" no puede ser posterior a la fecha \"Hasta\""

  /** `action_generar_reporte`: rejects an inverted range; otherwise it
      recomputes the stored data from the current activities and marks the
      report generated, changing nothing else. */
  function GenerarReporte(r: Reporte, acts: seq<A.Activity>): (res: Result<Reporte, string>)
    ensures res.Err? <==> Before(r.hasta, r.desde)
    ensures res.Err? ==> res.error == FechasInvertidas
    ensures res.Ok? ==>
      res.value.estado == Generado
      && res.value.datos == DatosReportes(r, acts)
      && res.value.(estado := r.estado, datos := r.datos) == r
  {
    if Before(r.hasta, r.desde) then Err(FechasInvertidas)
    else Ok(Recalcular(r, acts).(estado := Generado))
  }

  /** Generating twice against the same activities gives what generating
      once gave: the refreshed data depends on the filters, which
      generation does not touch. */
  lemma GenerarIdempotent(r: Reporte, acts: seq<A.Activity>)
    requires GenerarReporte(r, acts).Ok?
    ensures GenerarReporte(GenerarReporte(r, acts).value, acts) == GenerarReporte(r, acts)
  {
    var g := GenerarReporte(r, acts).value;
    assert FiltrosOf(g) == FiltrosOf(r);
  }

  // ------------------------------------------------------------------
  // Exported lines

  /** One line of an exported body: a section heading, a statistic (by its
      key), a worker summary, a day summary or one activity of a day. */
  datatype Row =
    | Heading(text: string)
    | Stat(key: string)
    | WorkerLine(worker: Tally<Pair>)
    | DayLine(day: Tally<A.Activity>)
    | ActivityLine(activity: A.Activity)

  function MkWorkerLine(t: Tally<Pair>): Row {
    WorkerLine(t)
  }

  function MkDayLine(t: Tally<A.Activity>): Row {
    DayLine(t)
  }

  function MkActivityLine(a: A.Activity): Row {
    ActivityLine(a)
  }

  function WorkerLines(ws: seq<Tally<Pair>>): seq<Row> {
    Map(ws, MkWorkerLine)
  }

  function DayLines(ds: seq<Tally<A.Activity>>): seq<Row> {
    Map(ds, MkDayLine)
  }

  function ActivityLines(items: seq<A.Activity>): seq<Row> {
    Map(items, MkActivityLine)
  }

  function Stats(keys: seq<string>): (r: seq<Row>)
    ensures |r| == |keys|
    ensures forall i | 0 <= i < |r| :: r[i] == Stat(keys[i])
  {
    seq(|keys|, i requires 0 <= i < |keys| => Stat(keys[i]))
  }

  /** The first `n` elements, `xs[:n]`. */
  function Take<T>(xs: seq<T>, n: nat): (r: seq<T>)
    ensures |r| == if |xs| < n then |xs| else n
    ensures r == xs[..|r|]
  {
    if |xs| < n then xs else xs[..n]
  }

  /** The statistics table of the PDF: three common figures and the one
      specific to the report type, then the title of the detail section. */
  function PdfHead(extra: string, title: string): seq<Row> {
    [Heading("ESTAD\U{CD}STICAS GENERALES"),
     Stat("Total Actividades"), Stat("Total Asistentes"), Stat("Total Horas"), Stat(extra),
     Heading(title)]
  }

  /** The body of `_generar_pdf`: the statistics, then at most 10 workers or
      15 days. */
  function PdfRows(d: Datos): (rows: seq<Row>)
    ensures d.Vacio? <==> rows == []
    ensures d.DatosTrabajador? ==> Filter(rows, IsWorkerLine) == WorkerLines(Take(d.porTrabajador.trabajadores, 10))
    ensures d.DatosFechas? ==>
      Filter(rows, IsDayLine) == DayLines(Take(d.porFechas.dias, 15)) && Filter(rows, IsWorkerLine) == []
  {
    match d
    case DatosTrabajador(pt) =>
      var h := PdfHead("Total Trabajadores", "DETALLE POR TRABAJADOR");
      var b := WorkerLines(Take(pt.trabajadores, 10));
      PlainHeads("Total Trabajadores", [], "DETALLE POR TRABAJADOR");
      PlainSkip(h, b);
      FilterAll(b, IsWorkerLine);
      h + b
    case DatosFechas(pf) =>
      var h := PdfHead("Total D\U{ED}as", "ACTIVIDADES POR D\U{CD}A");
      var b := DayLines(Take(pf.dias, 15));
      PlainHeads("Total D\U{ED}as", [], "ACTIVIDADES POR D\U{CD}A");
      PlainSkip(h, b);
      FilterAll(b, IsDayLine);
      FilterNone(b, IsWorkerLine);
      h + b
    case Vacio => []
  }

  /** The statistics keys of each report, in dictionary order. */
  const KeysTrabajador: seq<string> :=
    ["periodo", "total_trabajadores", "total_actividades", "total_horas", "total_asistentes"]

  const KeysFechas: seq<string> :=
    ["periodo", "total_dias", "total_actividades", "total_asistentes", "total_horas",
     "actividades_por_tipo", "promedio_diario"]

  /** Every statistics key but `periodo`, in order. */
  function WithoutPeriodo(keys: seq<string>): (r: seq<string>)
    ensures forall i | 0 <= i < |r| :: r[i] != "periodo" && r[i] in keys
    ensures forall i | 0 <= i < |keys| && keys[i] != "periodo" :: keys[i] in r
  {
    Filter(keys, k => k != "periodo")
  }

  /** A day line followed by one line per activity of that day. */
  function DayBlock(t: Tally<A.Activity>): seq<Row> {
    [DayLine(t)] + ActivityLines(t.items)
  }

  function DayBlocks(ds: seq<Tally<A.Activity>>): seq<Row> {
    Flatten(ds, DayBlock)
  }

  /** The statistics of the spreadsheet, then the title of the detail
      section. */
  function ExcelHead(keys: seq<string>, title: string): seq<Row> {
    [Heading("ESTAD\U{CD}STICAS")] + Stats(keys) + [Heading(title)]
  }

  /** The body of `_generar_excel`: every statistic but the period, then
      every worker, or every day each followed by its activities. */
  function ExcelRows(d: Datos): (rows: seq<Row>)
    ensures d.Vacio? <==> rows == []
    ensures d.DatosTrabajador? ==> Filter(rows, IsWorkerLine) == WorkerLines(d.porTrabajador.trabajadores)
    ensures d.DatosFechas? ==>
      && Filter(rows, IsDayLine) == DayLines(d.porFechas.dias)
      && Filter(rows, IsWorkerLine) == []
      && Count(rows, IsActivityLine) == Sum(d.porFechas.dias, ItemCount)
  {
    match d
    case DatosTrabajador(pt) =>
      var h := ExcelHead(WithoutPeriodo(KeysTrabajador), "TRABAJADORES");
      var b := WorkerLines(pt.trabajadores);
      PlainSkip(h, b);
      FilterAll(b, IsWorkerLine);
      h + b
    case DatosFechas(pf) =>
      var h := ExcelHead(WithoutPeriodo(KeysFechas), "ACTIVIDADES POR D\U{CD}A");
      PlainSkip(h, DayBlocks(pf.dias));
      DayBlocksLines(pf.dias);
      h + DayBlocks(pf.dias)
    case Vacio => []
  }

  predicate IsActivityLine(r: Row) {
    r.ActivityLine?
  }

  predicate IsDayLine(r: Row) {
    r.DayLine?
  }

  function ItemCount<T>(t: Tally<T>): int {
    |t.items|
  }

  predicate IsWorkerLine(r: Row) {
    r.WorkerLine?
  }

  /** Lines that are headings or statistics only. */
  predicate Plain(rows: seq<Row>) {
    forall i | 0 <= i < |rows| :: rows[i].Heading? || rows[i].Stat?
  }

  lemma PlainHeads(extra: string, keys: seq<string>, title: string)
    ensures Plain(PdfHead(extra, title))
    ensures Plain(ExcelHead(keys, title))
  {
  }

  /** Plain lines in front change none of the line counts. */
  lemma PlainSkip(h: seq<Row>, b: seq<Row>)
    requires Plain(h)
    ensures Filter(h + b, IsWorkerLine) == Filter(b, IsWorkerLine)
    ensures Filter(h + b, IsDayLine) == Filter(b, IsDayLine)
    ensures Filter(h + b, IsActivityLine) == Filter(b, IsActivityLine)
  {
    FilterSkip(h, b, IsWorkerLine);
    FilterSkip(h, b, IsDayLine);
    FilterSkip(h, b, IsActivityLine);
  }

  /** One day block: one day line, no worker line, and the day's
      activities as activity lines. */
  lemma DayBlockLines(t: Tally<A.Activity>)
    ensures Filter(DayBlock(t), IsDayLine) == [DayLine(t)]
    ensures Filter(DayBlock(t), IsWorkerLine) == []
    ensures Filter(DayBlock(t), IsActivityLine) == ActivityLines(t.items)
  {
    var acts := ActivityLines(t.items);
    FilterConcat([DayLine(t)], acts, IsDayLine);
    FilterConcat([DayLine(t)], acts, IsWorkerLine);
    FilterSkip([DayLine(t)], acts, IsActivityLine);
    FilterSingleton(DayLine(t), IsDayLine);
    FilterSingleton(DayLine(t), IsWorkerLine);
    FilterNone(acts, IsDayLine);
    FilterNone(acts, IsWorkerLine);
    FilterAll(acts, IsActivityLine);
  }

  /** The day blocks hold one day line per day, in order, no worker line,
      and one activity line per activity of each day. */
  lemma DayBlocksLines(ds: seq<Tally<A.Activity>>)
    ensures Filter(DayBlocks(ds), IsDayLine) == DayLines(ds)
    ensures Filter(DayBlocks(ds), IsWorkerLine) == []
    ensures Count(DayBlocks(ds), IsActivityLine) == Sum(ds, ItemCount)
  {
    DayBlocksDayLines(ds);
    DayBlocksNoWorkerLine(ds);
    DayBlocksActivityLines(ds);
  }

  lemma DayBlocksDayLines(ds: seq<Tally<A.Activity>>)
    ensures Filter(DayBlocks(ds), IsDayLine) == DayLines(ds)
  {
    forall i | 0 <= i < |ds| ensures Filter(DayBlock(ds[i]), IsDayLine) == [MkDayLine(ds[i])] {
      DayBlockLines(ds[i]);
    }
    FilterFlattenOne(ds, DayBlock, IsDayLine, MkDayLine);
  }

  lemma DayBlocksNoWorkerLine(ds: seq<Tally<A.Activity>>)
    ensures Filter(DayBlocks(ds), IsWorkerLine) == []
  {
    forall i | 0 <= i < |ds| ensures Filter(DayBlock(ds[i]), IsWorkerLine) == [] {
      DayBlockLines(ds[i]);
    }
    FilterFlattenNone(ds, DayBlock, IsWorkerLine);
  }

  lemma DayBlocksActivityLines(ds: seq<Tally<A.Activity>>)
    ensures Count(DayBlocks(ds), IsActivityLine) == Sum(ds, ItemCount)
  {
    forall i | 0 <= i < |ds| ensures Count(DayBlock(ds[i]), IsActivityLine) == ItemCount(ds[i]) {
      DayBlockLines(ds[i]);
    }
    CountFlatten(ds, DayBlock, IsActivityLine, ItemCount);
  }

  /** Behind headings that are not lines, turning only the first `n`
      elements into lines yields the first `n` lines of the full body. */
  lemma TakeLines<T>(hp: seq<Row>, he: seq<Row>, body: seq<Row>, xs: seq<T>, mk: T -> Row, p: Row -> bool, n: nat)
    requires forall i | 0 <= i < |hp| :: !p(hp[i])
    requires forall i | 0 <= i < |he| :: !p(he[i])
    requires forall x :: p(mk(x))
    requires Filter(body, p) == Map(xs, mk)
    ensures Filter(hp + Map(Take(xs, n), mk), p) == Take(Filter(he + body, p), n)
  {
    var t := Take(xs, n);
    FilterSkip(hp, Map(t, mk), p);
    FilterSkip(he, body, p);
    FilterAll(Map(t, mk), p);
    MapTake(xs, |t|, mk);
  }

  /** The worker lines of the PDF are the first ten of the worker lines of
      the spreadsheet. */
  lemma PdfTakesFirstWorkers(pt: PorTrabajador)
    ensures var d := DatosTrabajador(pt);
      Filter(PdfRows(d), IsWorkerLine) == Take(Filter(ExcelRows(d), IsWorkerLine), 10)
  {
    var ws := pt.trabajadores;
    var keys := WithoutPeriodo(KeysTrabajador);
    PlainHeads("Total Trabajadores", keys, "DETALLE POR TRABAJADOR");
    PlainHeads("Total Trabajadores", keys, "TRABAJADORES");
    FilterAll(WorkerLines(ws), IsWorkerLine);
    TakeLines(PdfHead("Total Trabajadores", "DETALLE POR TRABAJADOR"), ExcelHead(keys, "TRABAJADORES"),
              WorkerLines(ws), ws, MkWorkerLine, IsWorkerLine, 10);
  }

  /** The day lines of the PDF are the first fifteen of the day lines of the
      spreadsheet. */
  lemma PdfTakesFirstDays(pf: PorFechas)
    ensures var d := DatosFechas(pf);
      Filter(PdfRows(d), IsDayLine) == Take(Filter(ExcelRows(d), IsDayLine), 15)
  {
    var ds := pf.dias;
    var keys := WithoutPeriodo(KeysFechas);
    var title := "ACTIVIDADES POR D\U{CD}A";
    PlainHeads("Total D\U{ED}as", keys, title);
    DayBlocksLines(ds);
    TakeLines(PdfHead("Total D\U{ED}as", title), ExcelHead(keys, title), DayBlocks(ds), ds, MkDayLine, IsDayLine, 15);
  }

  /** The spreadsheet of a by-day report has one day line per day with
      activities and one activity line per selected activity; its statistics
      are every key but the period. */
  lemma ExcelFechasCounts(f: Filtros, acts: seq<A.Activity>)
    ensures var pf := ReporteFechas(f, acts);
      var rows := ExcelRows(DatosFechas(pf));
      Count(rows, IsDayLine) == pf.estadisticas.totalDias
      && Count(rows, IsActivityLine) == pf.estadisticas.totalActividades
  {
    var pf := ReporteFechas(f, acts);
    var keys := WithoutPeriodo(KeysFechas);
    var title := "ACTIVIDADES POR D\U{CD}A";
    PlainHeads("", keys, title);
    HeadedDayCounts(ExcelHead(keys, title), pf.dias);
    FechasTotals(f, acts);
  }

  /** Behind plain headings, the day blocks hold one day line per day and
      one activity line per activity of each day. */
  lemma HeadedDayCounts(h: seq<Row>, ds: seq<Tally<A.Activity>>)
    requires Plain(h)
    ensures Count(h + DayBlocks(ds), IsDayLine) == |ds|
    ensures Count(h + DayBlocks(ds), IsActivityLine) == Sum(ds, ItemCount)
  {
    PlainSkip(h, DayBlocks(ds));
    DayBlocksLines(ds);
  }

  /** The by-day statistics count the days listed and the activities in
      them. */
  lemma FechasTotals(f: Filtros, acts: seq<A.Activity>)
    ensures var pf := ReporteFechas(f, acts);
      pf.estadisticas.totalDias == |pf.dias|
      && pf.estadisticas.totalActividades == Sum(pf.dias, ItemCount)
  {
    var sel := Orden(f, acts);
    ReporteFechasStats(f, acts);
    RankedBuckets(sel, StartDay, ActAttendees, ActSeconds, DayRank);
    RankedCount(sel, StartDay, ActAttendees, ActSeconds, DayRank);
    BucketItemCounts(sel, ReporteFechas(f, acts).dias);
  }

  /** Each day bucket's total is its number of activities. */
  lemma BucketItemCounts(sel: seq<A.Activity>, ds: seq<Tally<A.Activity>>)
    requires forall i | 0 <= i < |ds| :: KeyedBucket(sel, StartDay, ActAttendees, ActSeconds, ds[i])
    ensures Sum(ds, ItemCount) == Sum(ds, Total)
  {
    forall i | 0 <= i < |ds| ensures ItemCount(ds[i]) == Total(ds[i]) {
      assert KeyedBucket(sel, StartDay, ActAttendees, ActSeconds, ds[i]);
    }
    SumPointwise(ds, ItemCount, Total);
  }

  /** The spreadsheet never lists the period among the statistics. */
  lemma ExcelOmitsPeriodo(d: Datos, i: int)
    requires 0 <= i < |ExcelRows(d)| && ExcelRows(d)[i].Stat?
    ensures ExcelRows(d)[i].key != "periodo"
  {
    match d
    case DatosTrabajador(pt) =>
      var keys := WithoutPeriodo(KeysTrabajador);
      HeadStats(keys, "TRABAJADORES", WorkerLines(pt.trabajadores), i);
    case DatosFechas(pf) =>
      var keys := WithoutPeriodo(KeysFechas);
      DayBlocksNoStat(pf.dias);
      HeadStats(keys, "ACTIVIDADES POR D\U{CD}A", DayBlocks(pf.dias), i);
  }

  /** The statistics lines of a spreadsheet are those of its keys. */
  lemma HeadStats(keys: seq<string>, title: string, body: seq<Row>, i: int)
    requires forall j | 0 <= j < |body| :: !body[j].Stat?
    requires 0 <= i < |ExcelHead(keys, title) + body| && (ExcelHead(keys, title) + body)[i].Stat?
    ensures 1 <= i <= |keys| && (ExcelHead(keys, title) + body)[i].key == keys[i - 1]
  {
    var h := ExcelHead(keys, title);
    if i < |h| {
      assert (h + body)[i] == h[i];
      if 1 <= i <= |keys| {
        assert h[i] == Stats(keys)[i - 1];
      }
    }
  }

  lemma DayBlocksNoStat(ds: seq<Tally<A.Activity>>)
    ensures forall i | 0 <= i < |DayBlocks(ds)| :: !DayBlocks(ds)[i].Stat?
  {
    FlattenAll(ds, DayBlock, NotStat);
  }

  predicate NotStat(r: Row) {
    !r.Stat?
  }

  // ------------------------------------------------------------------
  // Export actions

  /** `now.strftime('%Y%m%d_%H%M%S')` */
  function Stamp(now: DateTime): (s: string)
    requires ValidDT(now) && 1 <= now.date.year <= 9999
    ensures |s| == 15
    ensures forall i | 0 <= i < |s| :: IsDigit(s[i]) || s[i] == '_'
  {
    var t := now.secs;
    Pad4(now.date.year) + Pad2(now.date.month) + Pad2(now.date.day)
    + "_" + Pad2(t / 3600) + Pad2(t % 3600 / 60) + Pad2(t % 60)
  }

  /** `f"reporte_{name.replace(' ', '_')}_{stamp}{ext}"` */
  function NombreArchivo(name: string, now: DateTime, ext: string): (s: string)
    requires ValidDT(now) && 1 <= now.date.year <= 9999
    requires ' ' !in ext
    ensures ' ' !in s
    ensures |s| == 24 + |name| + |ext|
    ensures s[..8] == "reporte_" && s[|s| - |ext|..] == ext
  {
    var base := ReplaceChar(name, ' ', '_');
    var r := "reporte_" + base + "_" + Stamp(now) + ext;
    assert r == "reporte_" + (base + "_" + Stamp(now)) + ext;
    r
  }

  const PdfMissing: string := "Faltan dependencias. Instale: pip install reportlab"
  const ExcelMissing: string := "Faltan dependencias. Instale: pip install xlsxwriter"

  /** The effective `action_exportar_pdf`.  `reportlab` says whether the
      library imports; the clock reading `now` names the file.  The body is
      rendered from the stored data, which may predate the activities'
      latest changes.  The data text is always present, so the "generate
      first" guard never fires and the report's state is not looked at. */
  function ExportarPdf(r: Reporte, reportlab: bool, now: DateTime)
    : (res: Result<Reporte, string>)
    requires ValidDT(now) && 1 <= now.date.year <= 9999
    ensures res.Err? <==> !reportlab
    ensures res.Err? ==> res.error == "Error al generar PDF: " + PdfMissing
    ensures res.Ok? ==>
      res.value.estado == Exportado
      && res.value.pdf.Some?
      && res.value.pdf.value.rows == PdfRows(r.datos)
      && ' ' !in res.value.pdf.value.filename
      && res.value.pdf.value.filename == NombreArchivo(r.name, now, ".pdf")
  {
    if !reportlab then Err("Error al generar PDF: " + PdfMissing)
    else
      var file := Archivo(NombreArchivo(r.name, now, ".pdf"), PdfRows(r.datos));
      Ok(r.(estado := Exportado, pdf := Some(file)))
  }

  /** The effective `action_exportar_excel`, as `ExportarPdf` with the
      spreadsheet body. */
  function ExportarExcel(r: Reporte, xlsxwriter: bool, now: DateTime)
    : (res: Result<Reporte, string>)
    requires ValidDT(now) && 1 <= now.date.year <= 9999
    ensures res.Err? <==> !xlsxwriter
    ensures res.Err? ==> res.error == "Error al generar Excel: " + ExcelMissing
    ensures res.Ok? ==>
      res.value.estado == Exportado
      && res.value.excel.Some?
      && res.value.excel.value.rows == ExcelRows(r.datos)
      && ' ' !in res.value.excel.value.filename
      && res.value.excel.value.filename == NombreArchivo(r.name, now, ".xlsx")
  {
    if !xlsxwriter then Err("Error al generar Excel: " + ExcelMissing)
    else
      var file := Archivo(NombreArchivo(r.name, now, ".xlsx"), ExcelRows(r.datos));
      Ok(r.(excel := Some(file), estado := Exportado))
  }

  /** Exporting touches only the state and its own file. */
  lemma ExportKeepsDatos(r: Reporte, now: DateTime)
    requires ValidDT(now) && 1 <= now.date.year <= 9999
    ensures var p := ExportarPdf(r, true, now).value;
      p.(estado := r.estado, pdf := r.pdf) == r
    ensures var x := ExportarExcel(r, true, now).value;
      x.(estado := r.estado, excel := r.excel) == r
  {
  }

  /** Generating right before exporting makes the exported body that of the
      current activities, whatever the stored data held before. */
  lemma ExportAfterGenerar(r: Reporte, acts: seq<A.Activity>, now: DateTime)
    requires ValidDT(now) && 1 <= now.date.year <= 9999
    requires GenerarReporte(r, acts).Ok?
    ensures ExportarPdf(GenerarReporte(r, acts).value, true, now).value.pdf.value.rows
      == PdfRows(DatosReportes(r, acts))
    ensures ExportarExcel(GenerarReporte(r, acts).value, true, now).value.excel.value.rows
      == ExcelRows(DatosReportes(r, acts))
  {
  }
}

=== FILE: seqs.dfy ===
/** Sequence helpers: sums, filters and the stable sort the reports rely on.
    Sums and filters recurse on the LAST element so that they follow the
    left-to-right accumulation loops of the original code. */
module Seqs {

  /** Sum of `f` over `s`, like Python's `sum(f(x) for x in s)`. */
  function Sum<T>(s: seq<T>, f: T -> int): int
    decreases |s|
  {
    if |s| == 0 then 0 else Sum(s[..|s| - 1], f) + f(s[|s| - 1])
  }

  lemma {:induction false} SumConcat<T>(a: seq<T>, b: seq<T>, f: T -> int)
    ensures Sum(a + b, f) == Sum(a, f) + Sum(b, f)
    decreases |b|
  {
    if |b| == 0 {
      assert a + b == a;
    } else {
      assert (a + b)[..|a + b| - 1] == a + b[..|b| - 1];
      SumConcat(a, b[..|b| - 1], f);
    }
  }

  lemma SumSingleton<T>(x: T, f: T -> int)
    ensures Sum([x], f) == f(x)
  {
    assert [x][..0] == [];
  }

  /** Sum of non-negative terms is non-negative. */
  lemma {:induction false} SumNonNegative<T>(s: seq<T>, f: T -> int)
    requires forall i | 0 <= i < |s| :: f(s[i]) >= 0
    ensures Sum(s, f) >= 0
    decreases |s|
  {
    if |s| > 0 {
      SumNonNegative(s[..|s| - 1], f);
    }
  }

  /** Sums of pointwise equal terms are equal. */
  lemma {:induction false} SumPointwise<T>(s: seq<T>, f: T -> int, g: T -> int)
    requires forall i | 0 <= i < |s| :: f(s[i]) == g(s[i])
    ensures Sum(s, f) == Sum(s, g)
    decreases |s|
  {
    if |s| > 0 {
      SumPointwise(s[..|s| - 1], f, g);
    }
  }

  /** Zero terms sum to zero. */
  lemma {:induction false} SumZero<T>(s: seq<T>, f: T -> int)
    requires forall i | 0 <= i < |s| :: f(s[i]) == 0
    ensures Sum(s, f) == 0
    decreases |s|
  {
    if |s| > 0 {
      SumZero(s[..|s| - 1], f);
    }
  }

  /** Terms of at least one sum to at least the number of terms. */
  lemma {:induction false} SumAtLeastLength<T>(s: seq<T>, f: T -> int)
    requires forall i | 0 <= i < |s| :: f(s[i]) >= 1
    ensures Sum(s, f) >= |s|
    decreases |s|
  {
    if |s| > 0 {
      SumAtLeastLength(s[..|s| - 1], f);
    }
  }

  /** Terms bounded above by `c` sum to at most `|s| * c`. */
  lemma {:induction false} SumAtMost<T>(s: seq<T>, f: T -> int, c: int)
    requires forall i | 0 <= i < |s| :: f(s[i]) <= c
    ensures Sum(s, f) <= |s| * c
    decreases |s|
  {
    if |s| > 0 {
      SumAtMost(s[..|s| - 1], f, c);
      assert (|s| - 1) * c + c == |s| * c;
    }
  }

  /** Terms bounded below by `c` sum to at least `|s| * c`. */
  lemma {:induction false} SumAtLeast<T>(s: seq<T>, f: T -> int, c: int)
    requires forall i | 0 <= i < |s| :: f(s[i]) >= c
    ensures Sum(s, f) >= |s| * c
    decreases |s|
  {
    if |s| > 0 {
      SumAtLeast(s[..|s| - 1], f, c);
      assert (|s| - 1) * c + c == |s| * c;
    }
  }

  /** `[f(x) for x in s]` */
  function Map<T, U>(s: seq<T>, f: T -> U): (r: seq<U>)
    ensures |r| == |s|
    ensures forall i | 0 <= i < |s| :: r[i] == f(s[i])
  {
    seq(|s|, i requires 0 <= i < |s| => f(s[i]))
  }

  lemma MapSnoc<T, U>(s: seq<T>, x: T, f: T -> U)
    ensures Map(s + [x], f) == Map(s, f) + [f(x)]
  {
  }

  lemma MapTake<T, U>(s: seq<T>, n: nat, f: T -> U)
    requires n <= |s|
    ensures Map(s[..n], f) == Map(s, f)[..n]
  {
  }

  /** The elements of `s` satisfying `p`, in their original order. */
  function Filter<T>(s: seq<T>, p: T -> bool): (r: seq<T>)
    ensures |r| <= |s|
    ensures forall i | 0 <= i < |r| :: r[i] in s && p(r[i])
    ensures forall i | 0 <= i < |s| && p(s[i]) :: s[i] in r
    decreases |s|
  {
    if |s| == 0 then []
    else
      var init := Filter(s[..|s| - 1], p);
      assert s == s[..|s| - 1] + [s[|s| - 1]];
      if p(s[|s| - 1]) then init + [s[|s| - 1]] else init
  }

  lemma {:induction false} FilterConcat<T>(a: seq<T>, b: seq<T>, p: T -> bool)
    ensures Filter(a + b, p) == Filter(a, p) + Filter(b, p)
    decreases |b|
  {
    if |b| == 0 {
      assert a + b == a;
    } else {
      assert (a + b)[..|a + b| - 1] == a + b[..|b| - 1];
      FilterConcat(a, b[..|b| - 1], p);
    }
  }

  /** A filter every element passes keeps everything. */
  lemma {:induction false} FilterAll<T>(s: seq<T>, p: T -> bool)
    requires forall i | 0 <= i < |s| :: p(s[i])
    ensures Filter(s, p) == s
    decreases |s|
  {
    if |s| > 0 {
      FilterAll(s[..|s| - 1], p);
      assert s == s[..|s| - 1] + [s[|s| - 1]];
    }
  }

  /** A filter no element passes keeps nothing. */
  lemma {:induction false} FilterNone<T>(s: seq<T>, p: T -> bool)
    requires forall i | 0 <= i < |s| :: !p(s[i])
    ensures Filter(s, p) == []
    decreases |s|
  {
    if |s| > 0 {
      FilterNone(s[..|s| - 1], p);
    }
  }

  /** A prefix no element of which passes does not show in the filter. */
  lemma FilterSkip<T>(h: seq<T>, b: seq<T>, p: T -> bool)
    requires forall i | 0 <= i < |h| :: !p(h[i])
    ensures Filter(h + b, p) == Filter(b, p)
  {
    FilterConcat(h, b, p);
    FilterNone(h, p);
  }

  lemma FilterSingleton<T>(x: T, p: T -> bool)
    ensures Filter([x], p) == if p(x) then [x] else []
  {
    assert [x][..0] == [];
  }

  /** Position of the first element satisfying `p`, or `|s|` when none
      does: the `for x in s: if p(x): ...; break` idiom. */
  function FirstWhere<T>(s: seq<T>, p: T -> bool): (i: nat)
    ensures i <= |s|
    ensures i < |s| ==> p(s[i])
    ensures forall j | 0 <= j < i :: !p(s[j])
    decreases |s|
  {
    if |s| == 0 then 0
    else if p(s[0]) then 0
    else
      var i := FirstWhere(s[1..], p);
      assert forall j | 1 <= j < |s| :: s[j] == s[1..][j - 1];
      i + 1
  }

  /** Number of elements of `s` satisfying `p`. */
  function Count<T>(s: seq<T>, p: T -> bool): nat {
    |Filter(s, p)|
  }

  /** Appending one element adds its share to a count. */
  lemma CountSnoc<T>(s: seq<T>, x: T, p: T -> bool)
    ensures Count(s + [x], p) == Count(s, p) + (if p(x) then 1 else 0)
  {
    FilterConcat(s, [x], p);
    FilterSingleton(x, p);
  }

  /** Replacing one element changes a count by that element's share. */
  lemma CountUpdate<T>(s: seq<T>, k: nat, x: T, p: T -> bool)
    requires k < |s|
    ensures Count(s[k := x], p) == Count(s, p) - (if p(s[k]) then 1 else 0) + (if p(x) then 1 else 0)
  {
    var a, b := s[..k], s[k + 1..];
    assert s == (a + [s[k]]) + b;
    assert s[k := x] == (a + [x]) + b;
    FilterConcat(a + [s[k]], b, p);
    FilterConcat(a + [x], b, p);
    CountSnoc(a, s[k], p);
    CountSnoc(a, x, p);
  }

  /** A condition implied by another counts at least as many elements. */
  lemma {:induction false} CountMono<T>(s: seq<T>, p: T -> bool, q: T -> bool)
    requires forall i | 0 <= i < |s| :: p(s[i]) ==> q(s[i])
    ensures Count(s, p) <= Count(s, q)
    decreases |s|
  {
    if |s| > 0 {
      var n := |s| - 1;
      assert s == s[..n] + [s[n]];
      CountSnoc(s[..n], s[n], p);
      CountSnoc(s[..n], s[n], q);
      CountMono(s[..n], p, q);
    }
  }

  /** Two sequences that agree position by position on their conditions
      have the same count. */
  lemma {:induction false} CountPointwise<T, U>(s: seq<T>, p: T -> bool, t: seq<U>, q: U -> bool)
    requires |s| == |t|
    requires forall i | 0 <= i < |s| :: p(s[i]) == q(t[i])
    ensures Count(s, p) == Count(t, q)
    decreases |s|
  {
    if |s| > 0 {
      var n := |s| - 1;
      assert s == s[..n] + [s[n]];
      assert t == t[..n] + [t[n]];
      CountSnoc(s[..n], s[n], p);
      CountSnoc(t[..n], t[n], q);
      CountPointwise(s[..n], p, t[..n], q);
    }
  }

  /** The blocks of the elements of `s`, one after another. */
  function Flatten<T, U>(s: seq<T>, block: T -> seq<U>): seq<U>
    decreases |s|
  {
    if |s| == 0 then [] else Flatten(s[..|s| - 1], block) + block(s[|s| - 1])
  }

  /** Blocks holding no element that satisfies `p` flatten to none. */
  lemma {:induction false} FilterFlattenNone<T, U>(s: seq<T>, block: T -> seq<U>, p: U -> bool)
    requires forall i | 0 <= i < |s| :: Filter(block(s[i]), p) == []
    ensures Filter(Flatten(s, block), p) == []
    decreases |s|
  {
    if |s| > 0 {
      var n := |s| - 1;
      FilterFlattenNone(s[..n], block, p);
      FilterConcat(Flatten(s[..n], block), block(s[n]), p);
    }
  }

  /** Blocks holding one element `f(x)` satisfying `p` flatten to those
      elements in order. */
  lemma {:induction false} FilterFlattenOne<T, U>(s: seq<T>, block: T -> seq<U>, p: U -> bool, f: T -> U)
    requires forall i | 0 <= i < |s| :: Filter(block(s[i]), p) == [f(s[i])]
    ensures Filter(Flatten(s, block), p) == Map(s, f)
    decreases |s|
  {
    if |s| > 0 {
      var n := |s| - 1;
      FilterFlattenOne(s[..n], block, p, f);
      FilterConcat(Flatten(s[..n], block), block(s[n]), p);
      assert s == s[..n] + [s[n]];
      MapSnoc(s[..n], s[n], f);
    }
  }

  /** Counts over flattened blocks add up block by block. */
  lemma {:induction false} CountFlatten<T, U>(s: seq<T>, block: T -> seq<U>, p: U -> bool, c: T -> int)
    requires forall i | 0 <= i < |s| :: Count(block(s[i]), p) == c(s[i])
    ensures Count(Flatten(s, block), p) == Sum(s, c)
    decreases |s|
  {
    if |s| > 0 {
      var n := |s| - 1;
      CountFlatten(s[..n], block, p, c);
      FilterConcat(Flatten(s[..n], block), block(s[n]), p);
      assert s == s[..n] + [s[n]];
      SumConcat(s[..n], [s[n]], c);
      SumSingleton(s[n], c);
    }
  }

  /** A property of every element of every block holds throughout the
      flattened sequence. */
  lemma {:induction false} FlattenAll<T, U>(s: seq<T>, block: T -> seq<U>, p: U -> bool)
    requires forall i, j | 0 <= i < |s| && 0 <= j < |block(s[i])| :: p(block(s[i])[j])
    ensures forall j | 0 <= j < |Flatten(s, block)| :: p(Flatten(s, block)[j])
    decreases |s|
  {
    if |s| > 0 {
      var n := |s| - 1;
      FlattenAll(s[..n], block, p);
      var a, b := Flatten(s[..n], block), block(s[n]);
      forall j | 0 <= j < |a + b| ensures p((a + b)[j]) {
        if j >= |a| {
          assert (a + b)[j] == b[j - |a|];
        }
      }
    }
  }

  // ------------------------------------------------------------------
  // Stable sort by an integer key (ascending).  A descending Python sort
  // `sorted(xs, key=k, reverse=True)` keeps equal keys in their original
  // order, so it is `SortBy` with the negated key.

  predicate SortedBy<T>(s: seq<T>, key: T -> int) {
    forall i, j | 0 <= i < j < |s| :: key(s[i]) <= key(s[j])
  }

  /** Filtering keeps elements in their relative order, so it keeps a
      sequence sorted. */
  lemma {:induction false} FilterSorted<T>(s: seq<T>, p: T -> bool, key: T -> int)
    requires SortedBy(s, key)
    ensures SortedBy(Filter(s, p), key)
    decreases |s|
  {
    if |s| > 0 {
      var n := |s| - 1;
      var init := s[..n];
      FilterSorted(init, p, key);
      var r' := Filter(init, p);
      forall i | 0 <= i < |r'| ensures key(r'[i]) <= key(s[n]) {
        var j :| 0 <= j < |init| && init[j] == r'[i];
        assert s[j] == init[j];
      }
      assert s == init + [s[n]];
      if p(s[n]) {
        var r := Filter(s, p);
        assert r == r' + [s[n]];
        forall i, j | 0 <= i < j < |r| ensures key(r[i]) <= key(r[j]) {
          if j < |r'| {
            assert r[i] == r'[i] && r[j] == r'[j];
          } else {
            assert r[i] == r'[i] && r[j] == s[n];
          }
        }
      } else {
        assert Filter(s, p) == r';
      }
    }
  }

  /** The elements of `s` whose key is `k`, in their original order. */
  function KeyFilter<T>(s: seq<T>, key: T -> int, k: int): (r: seq<T>)
    decreases |s|
  {
    if |s| == 0 then []
    else KeyFilter(s[..|s| - 1], key, k) + (if key(s[|s| - 1]) == k then [s[|s| - 1]] else [])
  }

  lemma {:induction false} KeyFilterConcat<T>(a: seq<T>, b: seq<T>, key: T -> int, k: int)
    ensures KeyFilter(a + b, key, k) == KeyFilter(a, key, k) + KeyFilter(b, key, k)
    decreases |b|
  {
    if |b| == 0 {
      assert a + b == a;
    } else {
      assert (a + b)[..|a + b| - 1] == a + b[..|b| - 1];
      KeyFilterConcat(a, b[..|b| - 1], key, k);
    }
  }

  /** Inserts `x` after every element whose key is not greater than its own. */
  function Insert<T>(x: T, s: seq<T>, key: T -> int): (r: seq<T>)
    ensures |r| == |s| + 1
    ensures multiset(r) == multiset(s) + multiset{x}
    decreases |s|
  {
    if |s| == 0 then [x]
    else if key(s[|s| - 1]) <= key(x) then s + [x]
    else
      var init := s[..|s| - 1];
      assert s == init + [s[|s| - 1]];
      Insert(x, init, key) + [s[|s| - 1]]
  }

  lemma {:induction false} InsertSorted<T>(x: T, s: seq<T>, key: T -> int)
    requires SortedBy(s, key)
    ensures SortedBy(Insert(x, s, key), key)
    decreases |s|
  {
    if |s| > 0 && key(s[|s| - 1]) > key(x) {
      var init := s[..|s| - 1];
      var last := s[|s| - 1];
      InsertSorted(x, init, key);
      var r' := Insert(x, init, key);
      forall i | 0 <= i < |r'|
        ensures key(r'[i]) <= key(last)
      {
        assert r'[i] in multiset(r');
        if r'[i] != x {
          assert r'[i] in multiset(init);
          var j :| 0 <= j < |init| && init[j] == r'[i];
          assert s[j] == init[j];
        }
      }
    }
  }

  lemma KeyFilterSingleton<T>(x: T, key: T -> int, k: int)
    ensures KeyFilter([x], key, k) == if key(x) == k then [x] else []
  {
    assert [x][..0] == [];
  }

  lemma {:induction false} InsertKeyFilter<T>(x: T, s: seq<T>, key: T -> int, k: int)
    ensures KeyFilter(Insert(x, s, key), key, k)
         == KeyFilter(s, key, k) + (if key(x) == k then [x] else [])
    decreases |s|
  {
    KeyFilterSingleton(x, key, k);
    if |s| == 0 {
      assert Insert(x, s, key) == [] + [x];
      KeyFilterConcat([], [x], key, k);
    } else if key(s[|s| - 1]) <= key(x) {
      KeyFilterConcat(s, [x], key, k);
    } else {
      InsertKeyFilter(x, s[..|s| - 1], key, k);
      InsertKeyFilterPast(x, s, key, k);
    }
  }

  /** The step of `InsertKeyFilter` where `x` moves past the last element:
      the two keys differ, so at most one of them is kept and their order
      in the filtered list does not matter. */
  lemma InsertKeyFilterPast<T>(x: T, s: seq<T>, key: T -> int, k: int)
    requires |s| > 0 && key(s[|s| - 1]) > key(x)
    requires KeyFilter(Insert(x, s[..|s| - 1], key), key, k)
          == KeyFilter(s[..|s| - 1], key, k) + (if key(x) == k then [x] else [])
    ensures KeyFilter(Insert(x, s, key), key, k)
         == KeyFilter(s, key, k) + (if key(x) == k then [x] else [])
  {
    var init := s[..|s| - 1];
    var last := s[|s| - 1];
    var r' := Insert(x, init, key);
    assert Insert(x, s, key) == r' + [last];
    assert s == init + [last];
    KeyFilterConcat(r', [last], key, k);
    KeyFilterConcat(init, [last], key, k);
    KeyFilterSingleton(last, key, k);
    SnocSwap(KeyFilter(init, key, k), if key(x) == k then [x] else [], if key(last) == k then [last] else []);
  }

  /** A concatenation split before the last element of its right part. */
  lemma ConcatSnoc<T>(a: seq<T>, b: seq<T>)
    requires |b| > 0
    ensures a + b == (a + b[..|b| - 1]) + [b[|b| - 1]]
  {
    assert b == b[..|b| - 1] + [b[|b| - 1]];
  }

  lemma SnocSwap<T>(a: seq<T>, xs: seq<T>, ls: seq<T>)
    requires xs == [] || ls == []
    ensures (a + xs) + ls == (a + ls) + xs
  {
    if xs == [] {
      assert a + xs == a && (a + ls) + xs == a + ls;
    } else {
      assert (a + xs) + ls == a + xs && a + ls == a;
    }
  }

  lemma {:induction false} InsertSum<T>(x: T, s: seq<T>, key: T -> int, f: T -> int)
    ensures Sum(Insert(x, s, key), f) == Sum(s, f) + f(x)
    decreases |s|
  {
    if |s| == 0 {
      SumSingleton(x, f);
    } else if key(s[|s| - 1]) <= key(x) {
      SumConcat(s, [x], f);
      SumSingleton(x, f);
    } else {
      var init := s[..|s| - 1];
      var last := s[|s| - 1];
      InsertSum(x, init, key, f);
      SumConcat(Insert(x, init, key), [last], f);
      SumSingleton(last, f);
      assert s == init + [last];
      SumConcat(init, [last], f);
    }
  }

  /** Stable insertion sort, ascending in `key`. */
  function SortBy<T>(s: seq<T>, key: T -> int): (r: seq<T>)
    ensures |r| == |s|
    ensures multiset(r) == multiset(s)
    ensures SortedBy(r, key)
    decreases |s|
  {
    if |s| == 0 then []
    else
      var init := s[..|s| - 1];
      assert s == init + [s[|s| - 1]];
      var sortedInit := SortBy(init, key);
      InsertSorted(s[|s| - 1], sortedInit, key);
      Insert(s[|s| - 1], sortedInit, key)
  }

  /** Stability: among elements with equal keys, the sorted order is the
      original order. */
  lemma {:induction false} SortByStable<T>(s: seq<T>, key: T -> int, k: int)
    ensures KeyFilter(SortBy(s, key), key, k) == KeyFilter(s, key, k)
    decreases |s|
  {
    if |s| > 0 {
      var init := s[..|s| - 1];
      var last := s[|s| - 1];
      SortByStable(init, key, k);
      InsertKeyFilter(last, SortBy(init, key), key, k);
    }
  }

  /** Sorting does not change a sum over the elements. */
  lemma {:induction false} SortBySum<T>(s: seq<T>, key: T -> int, f: T -> int)
    ensures Sum(SortBy(s, key), f) == Sum(s, f)
    decreases |s|
  {
    if |s| > 0 {
      var init := s[..|s| - 1];
      var last := s[|s| - 1];
      SortBySum(init, key, f);
      InsertSum(last, SortBy(init, key), key, f);
    }
  }

  /** Elements with pairwise distinct keys occur at most once each. */
  lemma {:induction false} DistinctKeysCountOne<T, K>(s: seq<T>, key: T -> K, x: T)
    requires forall i, j | 0 <= i < j < |s| :: key(s[i]) != key(s[j])
    ensures multiset(s)[x] <= 1
    decreases |s|
  {
    if |s| > 0 {
      var n := |s| - 1;
      assert s == s[..n] + [s[n]];
      DistinctKeysCountOne(s[..n], key, x);
    }
  }

  /** A permutation of a sequence with pairwise distinct keys has pairwise
      distinct keys. */
  lemma PermutationDistinctKeys<T, K>(s: seq<T>, r: seq<T>, key: T -> K)
    requires multiset(r) == multiset(s)
    requires forall i, j | 0 <= i < j < |s| :: key(s[i]) != key(s[j])
    ensures forall i, j | 0 <= i < j < |r| :: key(r[i]) != key(r[j])
  {
    forall i, j | 0 <= i < j < |r| ensures key(r[i]) != key(r[j]) {
      if key(r[i]) == key(r[j]) {
        assert r[i] in multiset(s) && r[j] in multiset(s);
        var p :| 0 <= p < |s| && s[p] == r[i];
        var q :| 0 <= q < |s| && s[q] == r[j];
        assert p == q;
        var x := r[i];
        assert r == r[..i] + [x] + r[i + 1..j] + [x] + r[j + 1..];
        assert multiset(r)[x] >= 2;
        DistinctKeysCountOne(s, key, x);
      }
    }
  }
}

=== FILE: strings.dfy ===
/** The few `str` operations the import wizard and the reports use, with
    Python's semantics: `split` on one separator character, `count` of one
    character, `strip()`, `lower()`, `replace` of one character, decimal
    rendering of integers and the code-point order of `<` on strings. */
module Strings {

  // ------------------------------------------------------------------
  // split / join on one character

  /** `sep.join(parts)` for a one-character separator. */
  function Join(parts: seq<string>, sep: char): string
    requires |parts| >= 1
    decreases |parts|
  {
    if |parts| == 1 then parts[0] else parts[0] + [sep] + Join(parts[1..], sep)
  }

  /** `s.split(sep)`: at least one part, no part contains the separator, and
      joining the parts back gives `s`. */
  function Split(s: string, sep: char): (r: seq<string>)
    ensures |r| >= 1
    ensures forall i | 0 <= i < |r| :: sep !in r[i]
    ensures Join(r, sep) == s
    decreases |s|
  {
    if |s| == 0 then [""]
    else
      var rest := Split(s[1..], sep);
      if s[0] == sep then
        var r := [""] + rest;
        assert r[1..] == rest;
        assert s == [sep] + s[1..];
        r
      else
        var r := [[s[0]] + rest[0]] + rest[1..];
        assert |r| > 1 ==> r[1..] == rest[1..];
        assert |rest| > 1 ==> Join(rest, sep) == rest[0] + [sep] + Join(rest[1..], sep);
        assert s == [s[0]] + s[1..];
        r
  }

  /** `Split` undoes `Join` when no part contains the separator. */
  lemma {:induction false} SplitJoin(parts: seq<string>, sep: char)
    requires |parts| >= 1
    requires forall i | 0 <= i < |parts| :: sep !in parts[i]
    ensures Split(Join(parts, sep), sep) == parts
    decreases |parts|, |parts[0]|
  {
    var p := parts[0];
    if |p| == 0 {
      if |parts| > 1 {
        SplitJoin(parts[1..], sep);
        assert Join(parts, sep) == [sep] + Join(parts[1..], sep);
        assert ([sep] + Join(parts[1..], sep))[1..] == Join(parts[1..], sep);
        assert parts == [""] + parts[1..];
      }
    } else {
      var parts' := [p[1..]] + parts[1..];
      assert parts'[1..] == parts[1..];
      assert forall i | 0 <= i < |parts'| :: sep !in parts'[i] by {
        assert forall x | x in p[1..] :: x in p;
      }
      SplitJoin(parts', sep);
      var j := Join(parts, sep);
      assert j == [p[0]] + Join(parts', sep);
      assert j[0] == p[0] && j[1..] == Join(parts', sep);
      assert p[0] != sep by { assert p[0] in p; }
      assert [p[0]] + p[1..] == p;
    }
  }

  /** `', '.join(parts)` */
  function JoinWith(parts: seq<string>, sep: string): string
    decreases |parts|
  {
    if |parts| == 0 then ""
    else if |parts| == 1 then parts[0]
    else parts[0] + sep + JoinWith(parts[1..], sep)
  }

  /** Joining one more part appends the separator and the part. */
  lemma {:induction false} JoinWithSnoc(parts: seq<string>, x: string, sep: string)
    requires |parts| > 0
    ensures JoinWith(parts + [x], sep) == JoinWith(parts, sep) + sep + x
    decreases |parts|
  {
    if |parts| == 1 {
      assert parts + [x] == [parts[0], x];
      assert [parts[0], x][1..] == [x];
    } else {
      assert (parts + [x])[1..] == parts[1..] + [x];
      JoinWithSnoc(parts[1..], x, sep);
    }
  }

  // ------------------------------------------------------------------
  // count

  /** `s.count(c)` for a single character `c`. */
  function CountChar(s: string, c: char): (n: nat)
    ensures n <= |s|
    ensures n == 0 <==> c !in s
    decreases |s|
  {
    if |s| == 0 then 0
    else
      assert s == [s[0]] + s[1..];
      (if s[0] == c then 1 else 0) + CountChar(s[1..], c)
  }

  // ------------------------------------------------------------------
  // strip, lower, replace

  /** The characters `str.isspace()` accepts (and `strip()` removes). */
  predicate IsSpace(c: char) {
    c in Whitespace
  }

  const Whitespace: set<char> := {
    ' ', '\t', '\n', '\r', '\U{0B}', '\U{0C}', '\U{1C}', '\U{1D}', '\U{1E}', '\U{1F}',
    '\U{85}', '\U{A0}', '\U{1680}', '\U{2000}', '\U{2001}', '\U{2002}', '\U{2003}',
    '\U{2004}', '\U{2005}', '\U{2006}', '\U{2007}', '\U{2008}', '\U{2009}', '\U{200A}',
    '\U{2028}', '\U{2029}', '\U{202F}', '\U{205F}', '\U{3000}'
  }

  function TrimLeft(s: string): (r: string)
    ensures |r| <= |s| && r == s[|s| - |r|..]
    ensures forall i | 0 <= i < |s| - |r| :: IsSpace(s[i])
    ensures |r| > 0 ==> !IsSpace(r[0])
    decreases |s|
  {
    if |s| > 0 && IsSpace(s[0]) then TrimLeft(s[1..]) else s
  }

  function TrimRight(s: string): (r: string)
    ensures |r| <= |s| && r == s[..|r|]
    ensures forall i | |r| <= i < |s| :: IsSpace(s[i])
    ensures |r| > 0 ==> !IsSpace(r[|r| - 1])
    decreases |s|
  {
    if |s| > 0 && IsSpace(s[|s| - 1]) then TrimRight(s[..|s| - 1]) else s
  }

  /** `r` sits at offset `i` of `s` with only whitespace around it. */
  predicate SpaceFramed(s: string, r: string, i: int) {
    0 <= i <= |s| - |r| && r == s[i..i + |r|]
    && (forall k | 0 <= k < i :: IsSpace(s[k]))
    && (forall k | i + |r| <= k < |s| :: IsSpace(s[k]))
  }

  /** Trimming both ends leaves a slice of `s`. */
  lemma TrimSlice(s: string)
    ensures var l := TrimLeft(s); var r := TrimRight(l);
      |s| - |l| + |r| <= |s| && r == s[|s| - |l|..|s| - |l| + |r|]
  {
    var l := TrimLeft(s);
    assert l == s[|s| - |l|..];
  }

  /** What trimming removes at the right end is whitespace. */
  lemma TrimTrailing(s: string)
    ensures var l := TrimLeft(s); var r := TrimRight(l);
      forall k | |s| - |l| + |r| <= k < |s| :: IsSpace(s[k])
  {
    var l := TrimLeft(s);
    var r := TrimRight(l);
    var i := |s| - |l|;
    forall k | i + |r| <= k < |s| ensures IsSpace(s[k]) {
      assert s[k] == l[k - i];
    }
  }

  /** A non-empty trimmed string neither starts nor ends with whitespace. */
  lemma TrimEnds(s: string)
    ensures var r := TrimRight(TrimLeft(s)); |r| > 0 ==> !IsSpace(r[0]) && !IsSpace(r[|r| - 1])
  {
    var l := TrimLeft(s);
    var r := TrimRight(l);
    if |r| > 0 {
      assert r[0] == l[0];
    }
  }

  /** `s.strip()`: the slice of `s` between its leading and trailing
      whitespace, which itself neither starts nor ends with whitespace. */
  function Strip(s: string): (r: string)
    ensures SpaceFramed(s, r, |s| - |TrimLeft(s)|)
    ensures |r| > 0 ==> !IsSpace(r[0]) && !IsSpace(r[|r| - 1])
  {
    TrimSlice(s);
    TrimTrailing(s);
    TrimEnds(s);
    TrimRight(TrimLeft(s))
  }

  lemma StripUnchanged(s: string)
    requires |s| == 0 || (!IsSpace(s[0]) && !IsSpace(s[|s| - 1]))
    ensures Strip(s) == s
  {
  }

  /** Upper-case letters `lower()` changes: ASCII A-Z and the Latin-1 capitals
      (the rest of Unicode case mapping is not modelled). */
  predicate IsUpper(c: char) {
    var n := c as int;
    (0x41 <= n <= 0x5A) || (0xC0 <= n <= 0xDE && n != 0xD7)
  }

  function LowerChar(c: char): (r: char)
    ensures !IsUpper(r)
    ensures !IsUpper(c) ==> r == c
  {
    if IsUpper(c) then (c as int + 32) as char else c
  }

  function Lower(s: string): (r: string)
    ensures |r| == |s|
    ensures forall i | 0 <= i < |s| :: r[i] == LowerChar(s[i])
  {
    seq(|s|, i requires 0 <= i < |s| => LowerChar(s[i]))
  }

  /** `s.replace(a, b)` for single characters. */
  function ReplaceChar(s: string, a: char, b: char): (r: string)
    ensures |r| == |s|
    ensures forall i | 0 <= i < |s| :: r[i] == (if s[i] == a then b else s[i])
  {
    seq(|s|, i requires 0 <= i < |s| => if s[i] == a then b else s[i])
  }

  /** `.replace(' ', '_').replace('-', '_')` */
  function Underscored(s: string): (r: string)
    ensures |r| == |s|
    ensures forall i | 0 <= i < |s| :: r[i] == (if s[i] == ' ' || s[i] == '-' then '_' else s[i])
  {
    ReplaceChar(ReplaceChar(s, ' ', '_'), '-', '_')
  }

  /** `.lower().strip()`: no upper-case letter and no whitespace at either end. */
  function LowerStripped(k: string): (r: string)
    ensures forall i | 0 <= i < |r| :: !IsUpper(r[i])
    ensures |r| > 0 ==> !IsSpace(r[0]) && !IsSpace(r[|r| - 1])
  {
    StripNoUpper(Lower(k));
    Strip(Lower(k))
  }

  /** Header normalisation of the CSV import:
      `str(key).lower().strip().replace(' ', '_').replace('-', '_')`. */
  function NormalizeKey(k: string): (r: string)
    ensures forall i | 0 <= i < |r| :: r[i] != ' ' && r[i] != '-' && !IsUpper(r[i])
    ensures |r| > 0 ==> !IsSpace(r[0]) && !IsSpace(r[|r| - 1])
  {
    var s := LowerStripped(k);
    UnderscoredChars(s);
    Underscored(s)
  }

  lemma UnderscoredChars(s: string)
    requires forall i | 0 <= i < |s| :: !IsUpper(s[i])
    requires |s| > 0 ==> !IsSpace(s[0]) && !IsSpace(s[|s| - 1])
    ensures var r := Underscored(s);
      (forall i | 0 <= i < |r| :: r[i] != ' ' && r[i] != '-' && !IsUpper(r[i]))
      && (|r| > 0 ==> !IsSpace(r[0]) && !IsSpace(r[|r| - 1]))
  {
    var r := Underscored(s);
    assert !IsSpace('_') && !IsUpper('_');
    forall i | 0 <= i < |r| ensures r[i] != ' ' && r[i] != '-' && !IsUpper(r[i]) {
      if s[i] == ' ' || s[i] == '-' {
        assert r[i] == '_';
      } else {
        assert r[i] == s[i];
      }
    }
  }

  /** Stripping keeps a string free of upper-case letters. */
  lemma StripNoUpper(l: string)
    requires forall i | 0 <= i < |l| :: !IsUpper(l[i])
    ensures forall i | 0 <= i < |Strip(l)| :: !IsUpper(Strip(l)[i])
  {
    var s := Strip(l);
    var o := |l| - |TrimLeft(l)|;
    forall i | 0 <= i < |s| ensures !IsUpper(s[i]) {
      assert s[i] == l[o + i];
    }
  }

  lemma LowerIdentity(s: string)
    requires forall i | 0 <= i < |s| :: !IsUpper(s[i])
    ensures Lower(s) == s
  {
  }

  lemma UnderscoredIdentity(s: string)
    requires forall i | 0 <= i < |s| :: s[i] != ' ' && s[i] != '-'
    ensures Underscored(s) == s
  {
  }

  /** Normalising a header twice gives the same key as normalising it once. */
  lemma NormalizeKeyIdempotent(k: string)
    ensures NormalizeKey(NormalizeKey(k)) == NormalizeKey(k)
  {
    var n := NormalizeKey(k);
    LowerIdentity(n);
    StripUnchanged(n);
    assert LowerStripped(n) == n;
    UnderscoredIdentity(n);
  }

  // ------------------------------------------------------------------
  // Decimal rendering of naturals (`str(n)`, `f"{n}"`)

  predicate IsDigit(c: char) {
    '0' <= c <= '9'
  }

  function Digit(n: int): (c: char)
    requires 0 <= n < 10
    ensures IsDigit(c)
  {
    ('0' as int + n) as char
  }

  function NatToString(n: nat): (s: string)
    ensures |s| >= 1
    ensures forall i | 0 <= i < |s| :: IsDigit(s[i])
    decreases n
  {
    if n < 10 then [Digit(n)] else NatToString(n / 10) + [Digit(n % 10)]
  }

  /** `int(s)` for a string of decimal digits. */
  function ParseNat(s: string): nat
    requires forall i | 0 <= i < |s| :: IsDigit(s[i])
    decreases |s|
  {
    if |s| == 0 then 0
    else
      assert IsDigit(s[|s| - 1]);
      ParseNat(s[..|s| - 1]) * 10 + (s[|s| - 1] as int - '0' as int)
  }

  /** Reading back the rendered number gives the number. */
  lemma {:induction false} ParseNatToString(n: nat)
    ensures ParseNat(NatToString(n)) == n
    decreases n
  {
    if n >= 10 {
      ParseNatToString(n / 10);
      var s := NatToString(n);
      assert s[..|s| - 1] == NatToString(n / 10);
    }
  }

  // ------------------------------------------------------------------
  // Python's `<` on strings: code-point lexicographic order

  function StrLess(a: string, b: string): bool
    decreases |a|
  {
    if |a| == 0 then |b| > 0
    else if |b| == 0 then false
    else if a[0] != b[0] then a[0] < b[0]
    else StrLess(a[1..], b[1..])
  }

  lemma {:induction false} StrLessIrreflexive(a: string)
    ensures !StrLess(a, a)
    decreases |a|
  {
    if |a| > 0 {
      StrLessIrreflexive(a[1..]);
    }
  }

  /** Comparing concatenations of equal-length blocks compares the first
      blocks, and the second ones only when the first are equal. */
  lemma {:induction false} StrLessBlocks(x1: string, y1: string, x2: string, y2: string)
    requires |x1| == |x2|
    ensures StrLess(x1 + y1, x2 + y2) == (if x1 != x2 then StrLess(x1, x2) else StrLess(y1, y2))
    decreases |x1|
  {
    if |x1| == 0 {
      assert x1 + y1 == y1 && x2 + y2 == y2;
    } else {
      assert (x1 + y1)[0] == x1[0] && (x2 + y2)[0] == x2[0];
      if x1[0] == x2[0] {
        assert (x1 + y1)[1..] == x1[1..] + y1;
        assert (x2 + y2)[1..] == x2[1..] + y2;
        StrLessBlocks(x1[1..], y1, x2[1..], y2);
        assert x1 == [x1[0]] + x1[1..] && x2 == [x2[0]] + x2[1..];
      }
    }
  }

  /** Zero-padded two-digit rendering, `'%02d' % n`. */
  function Pad2(n: int): (s: string)
    requires 0 <= n < 100
    ensures |s| == 2
    ensures forall i | 0 <= i < |s| :: IsDigit(s[i])
  {
    [Digit(n / 10), Digit(n % 10)]
  }

  /** Zero-padded four-digit rendering, `'%04d' % n`. */
  function Pad4(n: int): (s: string)
    requires 0 <= n < 10000
    ensures |s| == 4
    ensures forall i | 0 <= i < |s| :: IsDigit(s[i])
  {
    Pad2(n / 100) + Pad2(n % 100)
  }

  lemma Pad2Order(a: int, b: int)
    requires 0 <= a < 100 && 0 <= b < 100
    ensures StrLess(Pad2(a), Pad2(b)) <==> a < b
    ensures Pad2(a) == Pad2(b) <==> a == b
  {
    var pa, pb := Pad2(a), Pad2(b);
    assert StrLess(pa, pb) == (if pa[0] != pb[0] then pa[0] < pb[0] else StrLess(pa[1..], pb[1..]));
    assert a == 10 * (a / 10) + a % 10 && b == 10 * (b / 10) + b % 10;
    if a == b {
      StrLessIrreflexive(pa);
    }
  }

  lemma Pad4Order(a: int, b: int)
    requires 0 <= a < 10000 && 0 <= b < 10000
    ensures StrLess(Pad4(a), Pad4(b)) <==> a < b
    ensures Pad4(a) == Pad4(b) <==> a == b
  {
    StrLessBlocks(Pad2(a / 100), Pad2(a % 100), Pad2(b / 100), Pad2(b % 100));
    Pad2Order(a / 100, b / 100);
    Pad2Order(a % 100, b % 100);
    assert a == 100 * (a / 100) + a % 100 && b == 100 * (b / 100) + b % 100;
    if Pad4(a) == Pad4(b) {
      assert Pad4(a)[..2] == Pad2(a / 100) && Pad4(b)[..2] == Pad2(b / 100);
      assert Pad4(a)[2..] == Pad2(a % 100) && Pad4(b)[2..] == Pad2(b % 100);
    }
  }
}

=== FILE: wizard_reportes.dfy ===
/** The quick-report wizard (`museo.wizard.reporte.rapido`): the date range
    each preset fills in, the defaults of a new wizard, and the report the
    wizard creates and generates. */
module ReporteRapido {
  import opened Wrappers
  import opened Dates
  import Busqueda
  import A = Actividades
  import R = Reportes

  datatype Rango = Hoy | SemanaActual | MesActual | MesAnterior | TrimestreActual | Personalizado

  /** The two report types the wizard offers. */
  datatype Tipo = PorTrabajador | PorFechas

  function TipoReporteOf(t: Tipo): R.TipoReporte {
    match t
    case PorTrabajador => R.ActividadesTrabajador
    case PorFechas => R.ActividadesFechas
  }

  /** The wizard's fields; unset dates are `None`, a `'todos'` filter is
      `None`. */
  datatype Wizard = Wizard(
    tipo: Tipo,
    museo: Option<nat>,
    rango: Rango,
    desde: Option<Day>,
    hasta: Option<Day>,
    trabajadores: seq<nat>,
    tipoActividad: Option<A.Tipo>,
    estadoActividad: Option<A.Estado>)

  // ------------------------------------------------------------------
  // Calendar steps of the presets

  /** `(first + timedelta(days=32)).replace(day=1) - timedelta(days=1)`. */
  function LastDayByTrick(first: Day): Day {
    AddDays(FirstOfMonth(AddDays(first, 32)), -1)
  }

  /** `d - timedelta(days=d.weekday())`: the Monday on or before `d`. */
  function MondayOf(d: Day): (r: Day)
    ensures Weekday(r) == 0
    ensures NotAfter(r, d) && Ordinal(d) - Ordinal(r) <= 6
  {
    var r := AddDays(d, -Weekday(d));
    OrdinalOrder(d, r);
    BackToMonday(d, r);
    r
  }

  /** Stepping back by the weekday lands on weekday 0. */
  lemma BackToMonday(d: Day, r: Day)
    requires Ordinal(r) == Ordinal(d) - Weekday(d)
    ensures Weekday(r) == 0 && 0 <= Ordinal(d) - Ordinal(r) <= 6
  {
    StepBack(Ordinal(d), Ordinal(r));
  }

  lemma StepBack(o: int, p: int)
    requires p == o - (o + 6) % 7
    ensures (p + 6) % 7 == 0 && 0 <= o - p <= 6
  {
    var k := (o + 6) / 7;
    assert p + 6 == 7 * k;
  }

  /** `'semana_actual'`: Monday to Sunday of the current week. */
  function Semana(hoy: Day): (w: (Day, Day))
    ensures NotAfter(w.0, w.1) && NotAfter(w.0, hoy) && NotAfter(hoy, w.1)
    ensures Weekday(w.0) == 0 && Ordinal(w.1) == Ordinal(w.0) + 6
  {
    var inicio := MondayOf(hoy);
    var fin := AddDays(inicio, 6);
    OrdinalOrder(inicio, fin);
    OrdinalOrder(hoy, fin);
    (inicio, fin)
  }

  /** `'mes_actual'`: the first to the last day of the current month. */
  function Mes(hoy: Day): (w: (Day, Day))
    ensures NotAfter(w.0, w.1) && NotAfter(w.0, hoy) && NotAfter(hoy, w.1)
    ensures w == (Date(hoy.year, hoy.month, 1), LastOfMonth(hoy.year, hoy.month))
  {
    var first := FirstOfMonth(hoy);
    PlusThirtyTwoIsLastDay(hoy.year, hoy.month);
    (first, LastDayByTrick(first))
  }

  /** `'mes_anterior'`: the whole previous month, which ends the day before
      the current month starts. */
  function MesPrevio(hoy: Day): (w: (Day, Day))
    ensures NotAfter(w.0, w.1)
    ensures var pm := PrevMonth(hoy.year, hoy.month);
      w == (Date(pm.0, pm.1, 1), LastOfMonth(pm.0, pm.1)) && Next(w.1) == FirstOfMonth(hoy)
  {
    var fin := AddDays(FirstOfMonth(hoy), -1);
    DayBeforeFirstIsLastOfPreviousMonth(hoy.year, hoy.month);
    var pm := PrevMonth(hoy.year, hoy.month);
    FirstOfNextMonthOrdinal(pm.0, pm.1);
    OrdinalInjective(Next(fin), FirstOfMonth(hoy));
    (FirstOfMonth(fin), fin)
  }

  /** `'trimestre_actual'`: the first day of the quarter to the last day of
      its third month. */
  function Trimestre(hoy: Day): (w: (Day, Day))
    ensures NotAfter(w.0, w.1) && NotAfter(w.0, hoy) && NotAfter(hoy, w.1)
    ensures var q := QuarterStart(hoy.month);
      w == (Date(hoy.year, q, 1), LastOfMonth(hoy.year, q + 2))
  {
    var q := QuarterStart(hoy.month);
    var first: Day := Date(hoy.year, q, 1);
    var firstOfLast: Day := Date(hoy.year, q + 2, 1);
    PlusThirtyTwoIsLastDay(hoy.year, q + 2);
    (first, LastDayByTrick(firstOfLast))
  }

  /** The `(fecha_desde, fecha_hasta)` a preset fills in on day `hoy`;
      `None` for `'personalizado'`, which leaves both dates as they are.
      Every preset but the previous month contains today; the exact range of
      each preset is stated by its own function above. */
  function RangoFechas(rango: Rango, hoy: Day): (w: Option<(Day, Day)>)
    ensures w.None? <==> rango == Personalizado
    ensures w.Some? ==> NotAfter(w.value.0, w.value.1)
    ensures w.Some? && rango != MesAnterior ==> NotAfter(w.value.0, hoy) && NotAfter(hoy, w.value.1)
    ensures rango == Hoy ==> w == Some((hoy, hoy))
  {
    match rango
    case Hoy => Some((hoy, hoy))
    case SemanaActual => Some(Semana(hoy))
    case MesActual => Some(Mes(hoy))
    case MesAnterior => Some(MesPrevio(hoy))
    case TrimestreActual => Some(Trimestre(hoy))
    case Personalizado => None
  }

  /** `_onchange_rango_fechas` */
  function OnchangeRango(w: Wizard, hoy: Day): (r: Wizard)
    ensures r.(desde := w.desde, hasta := w.hasta) == w
    ensures w.rango == Personalizado ==> r == w
  {
    match RangoFechas(w.rango, hoy)
    case None => w
    case Some(rg) => w.(desde := Some(rg.0), hasta := Some(rg.1))
  }

  /** `default_get`: the current month, the first active museum if any, and
      the field defaults. */
  function DefaultGet(hoy: Day, museosActivos: seq<nat>): (w: Wizard)
    ensures w.desde.Some? && w.hasta.Some?
    ensures Some((w.desde.value, w.hasta.value)) == RangoFechas(MesActual, hoy)
    ensures w.museo.Some? <==> |museosActivos| > 0
    ensures w.museo.Some? ==> w.museo.value == museosActivos[0]
  {
    var mes := Mes(hoy);
    Wizard(
      PorTrabajador,
      if |museosActivos| > 0 then Some(museosActivos[0]) else None,
      MesActual,
      Some(mes.0),
      Some(mes.1),
      [],
      None,
      Some(A.Realizada))
  }

  // ------------------------------------------------------------------
  // `action_generar_reporte`

  const FechasFaltan: string := "Debe especificar las fechas del reporte"
  const FechasInvertidas: string := R.FechasInvertidas

  /** Creates the report from the wizard's fields and generates it: the
      report selects by exactly the wizard's museum, dates, type and state,
      and keeps the chosen workers only for the by-worker report.  The
      display name is passed in.  The museum is a required field of the
      wizard's form, so it is set whenever the action can be pressed; the
      dates are not required and are checked here.  `acts` are the
      activities the report's search sees; creation computes the stored data
      and generation computes it again over the same activities. */
  function GenerarDesdeWizard(w: Wizard, nombre: string, acts: seq<A.Activity>): (res: Result<R.Reporte, string>)
    requires w.museo.Some?
    ensures res.Err? <==> w.desde.None? || w.hasta.None? || Before(w.hasta.value, w.desde.value)
    ensures w.desde.None? || w.hasta.None? ==> res == Err(FechasFaltan)
    ensures res.Ok? ==> res.value.estado == R.Generado && res.value.pdf.None? && res.value.excel.None?
    ensures res.Ok? ==> res.value.datos == R.DatosReportes(res.value, acts)
    ensures res.Ok? ==>
      R.FiltrosOf(res.value)
        == Busqueda.Filtros(w.museo.value, w.desde.value, w.hasta.value, w.tipoActividad, w.estadoActividad)
      && res.value.tipo == TipoReporteOf(w.tipo)
      && res.value.trabajadores == (if w.tipo == PorTrabajador then w.trabajadores else [])
  {
    if w.desde.None? || w.hasta.None? then Err(FechasFaltan)
    else if Before(w.hasta.value, w.desde.value) then Err(FechasInvertidas)
    else
      var r := R.Reporte(
        nombre, TipoReporteOf(w.tipo), w.museo.value, w.desde.value, w.hasta.value,
        if w.tipo == PorTrabajador then w.trabajadores else [],
        w.tipoActividad, w.estadoActividad, R.Borrador, R.Vacio, None, None);
      R.GenerarReporte(R.Recalcular(r, acts), acts)
  }
}

=== FILE: wrappers.dfy ===
/** Failure-compatible wrappers shared by every module of the model:
    `Option` for values the source may leave unset (`False`/`None` in the
    original records) and `Result` for operations that raise a user-facing
    error instead of returning. */
module Wrappers {

  datatype Option<+T> = None | Some(value: T) {
    function GetOr(default: T): T {
      match this
      case Some(v) => v
      case None => default
    }
  }

  /** `Err` stands for an exception raised by the source (a `UserError`,
      `ValidationError` or a Python runtime error); nothing is written when
      an operation ends in `Err`. */
  datatype Result<+T, +E> = Ok(value: T) | Err(error: E)
}
